=== FILE: README.md ===
# Property-sales importer: a Dafny model of its reconciliation core

The importer builds one table of Bermuda property sales from three feeds:

- the land-title registry's sale workbook;
- a brokerage transaction feed;
- a listings feed.

Registry rows pass through these stages:

1. The price is read as pandas reads a number, missing cells become 0, sales under 1000 are dropped, and so are rows with a short address and no usable assessment number.
2. The new rows are appended to the older table and classified as fractional, land, house or condo.
3. Exact duplicates are dropped within each table, and rows that share an application number are consolidated. A row read back from the earlier export keeps its dates as text, while the new workbook's registration dates are dates, so no older row is ever an exact duplicate of a new one: both stay, and consolidation then handles them as one application's group.
4. They are enriched with annual rental values (ARV) from the valuation register.
5. Their property types are corrected from that register.
6. Rows whose three-year rent reaches the price are dropped.

Consolidation rewrites the assessment-number cell of every member of an all-numbered group to the comma-joined first codes of the group's members, and the head of the group is the row that stays. The other stages only test those cells. The export normalises them afterwards, and that export is not part of this model.

Brokerage transactions are screened, classified, and then dropped when the registry already holds the same sale. The model has three matching passes, run in turn: by date, by address, and by unit code for fractional units. Listing rows get flags for doubtful prices, assessment numbers and addresses.

Each operation is modelled as a pure function over immutable rows:

- Cells whose type varies from row to row are `PyValue.Value`: missing, a boolean, an integer, a string, or a list of strings.
- Dates are day numbers, with `None` for a missing date.
- Prices are integers. Every percentage test is a cross-multiplication.
- A path on which the program raises becomes `None` in an `Option` result.
- The string-similarity score is a function parameter with values 0 to 100. So are the valuation register, the parcel table, the choice among candidate types, and the hand-curated drop lists.

Modules follow the program's structure:

| module | contents |
|---|---|
| `Text`, `PyValue`, `Keywords` | string helpers, Python cell semantics, keyword tables |
| `Numeric` | `pd.to_numeric` on one cell |
| `Calendar` | the year of a day number |
| `Assessment` | the two assessment-number normalisers |
| `Registry` | the registry row classifiers, parish names, area units |
| `Duplicates` | consolidation of rows that share an application number |
| `Valuation` | ARV enrichment and type correction |
| `Parcels` | repair of parcel-code addresses |
| `Listings` | listing filters, flags and agent fields |
| `Stats` | transaction classifiers and the date, price and address comparisons |
| `CrossFeed` | the three cross-feed de-duplication passes |
| `Tables` | row filtering and first-of-key de-duplication |
| `RegistryImport`, `FeedImport` | the two import scripts, stage by stage |

Where a comment in the code and the code's behaviour differ, the model follows the behaviour:

- A brokerage row flagged both `is_land` and `is_fractional_unit` ends as land, not fractional. The land pass re-applies the land flag after the fractional pass has run.
- Consolidation of an all-numbered group leaves addresses as they are, because the address list is assigned element by element.
- When no row of a group has a number, consolidation deletes at most one placeholder row: the first "unknown" one, else the first "0" one. With neither, the source re-uses the previous group's deletion list or raises when there is none.
- The registry normaliser rejects the text of a one-code list, `"['123456789']"`.
- The address pass's fuzzy fallback tests a tuple for truth. The tuple is always truthy, so the price never matters there.
- `identify_land_house_condo` defines land anti-keywords but never uses them.
- `remove_extra_chars` deletes every letter `b`, not only a bytes prefix.
- A 7-digit number, which the registry accepts, is flagged `ASSN#` in listings.
- The cross-feed date pass rewrites the assessment column to text, and later passes see that text.
- The listing filter's Reefs test reads `df.name` inside a row-wise `apply`, which is the row's index label, not the `name` column. A table read without an index column has integer labels, so the test never fires there.
- The listing fractional filter is not idempotent. A row with a missing type, no keyword and a compound code becomes fractional on a second pass.

## Model

| member | source | states |
|---|---|---|
| Assessment.AssessmentFromText | utils/LTROutils.py:91-126 | an accepted value is a non-empty list of 7-to-9-character integer literals |
| Assessment.ShortValues | utils/LTROutils.py:91-100 | under 7 characters is rejected; 7 to 9 characters are kept verbatim exactly when `int()` accepts them |
| Assessment.SingleLongPartRejected | utils/LTROutils.py:101-113 | a long value that does not split into two or more parts is rejected |
| Assessment.TenDigitCodeRejected | utils/LTROutils.py:101-113 | a bare 10-digit code is rejected |
| Assessment.ListValue | utils/LTROutils.py:114-126 | a long list value yields exactly its valid parts, or rejection when none is valid |
| Assessment.TokensOfParts | utils/LTROutils.py:117-121 | the recursive check of each part keeps exactly the valid parts, in order |
| Assessment.CleanAssnNr | utils/skipperutils.py:80-185 | the listing normaliser returns 0, a text, or a non-empty list |
| Assessment.CleanZeros | utils/skipperutils.py:99-126 | an all-zero number, bare or as a one-element list, becomes 0 |
| Assessment.CleanDigitCodes | utils/skipperutils.py:124-133 | a 9-digit number becomes a one-element list; an 8-digit one gains a leading zero |
| Assessment.CleanLandOrTimeshare | utils/skipperutils.py:116-122 | a non-list value mentioning land or timeshare becomes 0 |
| Assessment.CleanShortString | utils/skipperutils.py:181-182 | a stripped text of at most 7 characters becomes 0 |
| Assessment.CleanCanonicalList | utils/skipperutils.py:99-113 | a list of well-formed 8-9 digit codes is returned unchanged |
| Assessment.CleanIdempotentOnCodes | utils/skipperutils.py:99-133 | normalising an 8-9 digit code twice gives the same result as once |
| Assessment.CleanTenDigits | utils/skipperutils.py:137-167 | a 10-digit number survives as a one-element list |
| Keywords.UsualFractions | utils/LTROutils.py:136 | for every n from 2 to 20, "1/n th" sits at position n-2 and "1/nth" at position n+17 of the 38 spellings, so both are members |
| Registry.FractionalType | utils/LTROutils.py:147-162 | a row is fractional exactly when a keyword matches and its number cell does not say "vacant lot"; otherwise its type is 0 |
| Registry.IdentifyFractionals | utils/LTROutils.py:129-164 | only the type column changes, and row by row it is fractional exactly under that condition |
| Registry.VacantLotNeverFractional | utils/LTROutils.py:156-160 | a "vacant lot" number cell always yields type 0 |
| Registry.FractionalWordIsFractional | utils/LTROutils.py:147-158 | the word "fractional" in address or nature of interest makes the row fractional |
| Registry.LandHouseCondoType | utils/LTROutils.py:181-212 | the pass raises exactly on the unbound-name branch; typed rows keep their type; land-keyword rows without a number become land |
| Registry.IdentifyLandHouseCondo | utils/LTROutils.py:169-214 | only the type column changes, to the per-row decision |
| Registry.ClassifiersCompose | utils/LTROutils.py:147-212 | after both passes a row is fractional exactly when the first pass made it so, and every type is fractional, land, condo, house or 0 |
| Registry.LandRowsBecomeLand | utils/LTROutils.py:194-198 | an untyped row with a land keyword and no number becomes land |
| Registry.SimplifyParish | utils/LTROutils.py:554-555 | the two old parish names never survive; any other parish is unchanged |
| Registry.SimplifyParishIdempotent | utils/LTROutils.py:554-555 | renaming parishes twice is renaming once |
| Registry.SimplifyParishes | utils/LTROutils.py:547-556 | only the parish column changes, and no old name remains |
| Registry.GetUnits | utils/LTROutils.py:504-516 | exactly the known units contained in the text, in the fixed unit order (it is the unit list filtered by containment), none twice |
| Registry.UnitsInIsFilter | utils/LTROutils.py:513-515 | collecting the contained units unit by unit is filtering the unit list |
| Registry.UnitsInDistinct | utils/LTROutils.py:513-515 | a unit list without repeats gives a result without repeats |
| Registry.AcreAlsoAc | utils/LTROutils.py:513-515 | text with "acre" yields "ac" then "acre" first |
| Duplicates.ProcessDuplicates | utils/LTROutils.py:217-299 | the group loop, with its processed and marked sets, computes the declarative consolidation |
| Duplicates.DropMarked | utils/LTROutils.py:298 | dropping the marked rows after the loop gives the consolidation |
| Duplicates.GroupOutcome | utils/LTROutils.py:239-293 | deletions stay inside the group; a joined number list exists exactly when every row has a number |
| Duplicates.NumberedOutcome | utils/LTROutils.py:245-256 | an all-numbered group keeps its first row and joins the numbers |
| Duplicates.FractionalOutcome | utils/LTROutils.py:261-265 | otherwise a group with a fractional row keeps only its first fractional row |
| Duplicates.MixedOutcome | utils/LTROutils.py:288-293 | a partly numbered group deletes exactly its unnumbered rows |
| Duplicates.UnnumberedOutcome | utils/LTROutils.py:268-286 | an unnumbered group deletes at most one "unknown" or "0" placeholder row |
| Duplicates.UniqueRowsKept | utils/LTROutils.py:219 | a row whose application number is unique is kept unchanged |
| Duplicates.CompleteGroup | utils/LTROutils.py:245-256 | in an all-numbered group exactly the non-first rows go, and every row carries the joined numbers |
| Duplicates.FractionalGroup | utils/LTROutils.py:261-265 | a row of a fractional group survives exactly when it is the group's first fractional row |
| Duplicates.MixedGroup | utils/LTROutils.py:288-293 | a row of a partly numbered group is dropped exactly when it has no number |
| Duplicates.UnnumberedGroup | utils/LTROutils.py:268-286 | two dropped rows of an unnumbered group are the same row |
| Duplicates.SomeMemberKept | utils/LTROutils.py:217-299 | every application number keeps at least one row |
| Duplicates.KeptRows | utils/LTROutils.py:298-299 | consolidation keeps, in order, the rewritten surviving rows and nothing else |
| Duplicates.ApplicationSurvives | utils/LTROutils.py:217-299 | every application number of the input still has a row after consolidation |
| Duplicates.ConsolidatedFrom | utils/LTROutils.py:245-299 | every consolidated row is an input row, at most with its assessment cell rewritten |
| Valuation.CombinedArv | utils/LTROutils.py:302-320 | a list sums; a scalar or a one-element array is itself; anything else is 0 |
| Valuation.SumBounds | utils/LTROutils.py:309-313 | the sum of non-negative rents is at least each of them |
| Valuation.ArvFor | utils/LTROutils.py:335-365 | a row raises exactly when it has one unmatched number and the stale name is still unbound |
| Valuation.AddArv | utils/LTROutils.py:323-370 | enrichment succeeds exactly when the column succeeds; only the two rent columns change, and the combined rent follows the cell |
| Valuation.ArvCrash | utils/LTROutils.py:345-348 | the column fails exactly when an unmatched single number comes before any multi-number row |
| Valuation.ArvCells | utils/LTROutils.py:335-365 | each rent cell is the one its own row's numbers and the register give |
| Valuation.SingleArv | utils/LTROutils.py:337-344 | a number matching one register row gets that row's rent |
| Valuation.UnnumberedArv | utils/LTROutils.py:363-365 | a row without a number has combined rent 0 |
| Valuation.CombinedCoversEach | utils/LTROutils.py:351-360 | the combined rent of several numbers is at least each matched rent |
| Valuation.FirstTypesEmpty | utils/LTROutils.py:398-400 | no candidate type exists exactly when no number is in the register |
| Valuation.DistinctTypes | utils/LTROutils.py:401 | de-duplication keeps the same set of types, each once |
| Valuation.CleanPropertyType | utils/LTROutils.py:373-417 | only the type column changes, to the corrected type |
| Valuation.UnnumberedTypeKept | utils/LTROutils.py:384-385 | a row without a number keeps its type |
| Valuation.SingleCodeAdopted | utils/LTROutils.py:385-395 | a single number with a register entry takes the register's type |
| Valuation.OneTypeAdopted | utils/LTROutils.py:405-408 | several numbers whose register types agree take that type |
| Valuation.NoTypeFound | utils/LTROutils.py:412-415 | several numbers none of which is registered give the type False |
| Valuation.CorrectedType | utils/LTROutils.py:383-415 | a row without numbers, or with one number the register does not know, keeps its type; the type becomes `False` only for several numbers none of which the register knows |
| Valuation.CorrectedTypeOrigin | utils/LTROutils.py:383-415 | a corrected type is the old type, False, or some register row's type |
| Valuation.CorrectedTypeIdempotent | utils/LTROutils.py:383-415 | correcting one row's type twice is correcting it once |
| Valuation.CleanPropertyTypeIdempotent | utils/LTROutils.py:373-417 | correcting types twice is correcting once |
| Parcels.RegisterRows | utils/LTROutils.py:590-597 | on success every listed number yields one register row, in order |
| Parcels.RepairRow | utils/LTROutils.py:574-638 | only address and number change; the number changes only on the parcel-table branch; a long address is untouched |
| Parcels.CleanParcelAddresses | utils/LTROutils.py:559-645 | row by row repair, with rows of long addresses unchanged |
| Parcels.BareCodesOfOne | utils/LTROutils.py:586-588 | stripping the repr of a one-code list leaves the code |
| Parcels.OneCodeRepaired | utils/LTROutils.py:579-600 | a short address with a one-code list takes the register's building name and address |
| Parcels.ParcelCodeRepaired | utils/LTROutils.py:605-613 | a parcel code naming one parcel takes its street and number |
| PyValue.PyInt | utils/skipperutils.py:192-199 | `int()` on a cell: an integer is itself, a boolean is 0 or 1, text converts exactly when it is an integer literal after stripping, and missing cells and lists fail |
| Numeric.ToNumeric | process_LTRO.py:50 | `pd.to_numeric(errors='coerce')` on a cell: text reads exactly when its stripped form is an optional sign, digits with at most one point and at least one digit, and an optional exponent; it agrees with `int()` on numbers and on underscore-free integer text, and text with an underscore never reads |
| Numeric.IntLiteralReads | process_LTRO.py:50 | every underscore-free text `int()` accepts is a numeral with the value `int()` gives |
| Numeric.UnderscoreNeverReads | process_LTRO.py:50 | no text containing an underscore is a numeral |
| Numeric.NumeralChar | process_LTRO.py:50 | every character of a numeral is a digit, a sign, a point or an exponent mark |
| Numeric.ZeroFractionReads | process_LTRO.py:50 | `d.0` reads as the digits `d` for every digit string |
| Numeric.ExponentReads | process_LTRO.py:50 | `d` e `x` reads as `d` times ten to the `x` for all digit strings |
| Numeric.GroupedPriceUnread | process_LTRO.py:50 | `1_000` does not read, though `int()` accepts it |
| Numeric.DecimalPriceRead | process_LTRO.py:50 | `1000.0` reads as 1000 |
| Numeric.ExponentPriceRead | process_LTRO.py:50 | `1e6` reads as 1000000 |
| Listings.CleanAddress | utils/skipperutils.py:188-199 | the result is 0 or the input, and is not 0 only for a present value that does not read as an integer |
| Listings.CleanAddressIdempotent | utils/skipperutils.py:188-199 | cleaning twice is cleaning once |
| Listings.ContainsNumber | utils/skipperutils.py:267-269 | true exactly when the text has a digit |
| Listings.FractionalFilter | utils/skipperutils.py:201-240 | the type becomes fractional exactly on a keyword hit, or with a present type on a compound code, a condo whose index label reads "Reefs", or an existing fractional type |
| Listings.IntegerLabelNeverReefs | utils/skipperutils.py:237 | a row with an integer index label is never a Reefs condo, so only keywords, compound codes and an existing fractional type make it fractional |
| Listings.IdentifyListingFractionals | utils/skipperutils.py:242-249 | only the type column changes, to the per-row filter |
| Listings.FractionalListingStays | utils/skipperutils.py:227-231 | a fractional listing stays fractional |
| Listings.FractionalFilterTwice | utils/skipperutils.py:230-240 | a second pass changes a row only when its type was missing, no keyword matched and a compound code is present |
| Listings.PriceFlag | utils/skipperutils.py:271-285 | a missing or zero price is flagged; a non-numeric one raises; otherwise the flag needs a sale under 20000 |
| Listings.PriceFlagOnlyCheapSales | utils/skipperutils.py:282-285 | a non-zero price that is not a cheap sale is not flagged |
| Listings.AssessmentFlag | utils/skipperutils.py:287-311 | no flag exactly for land, fractional, an 8-9 character number, or a longer one that normalises to non-zero |
| Listings.SevenDigitsFlagged | utils/skipperutils.py:310-311 | a 7-digit number is flagged |
| Listings.ListedCodeNotFlagged | utils/skipperutils.py:302-309 | a one-element list of an 8-9 digit code is not flagged |
| Listings.AddressFlag | utils/skipperutils.py:313-343 | an empty name gives an empty flag; every flag is empty, ADDRESS, or None when no branch returns; a non-empty text name always gets a verdict |
| Listings.AddressFlagOfText | utils/skipperutils.py:320-336 | for a text name: with an assessment number and an ordinary type, flag only short names without digits; otherwise flag short names or names without digits; unflagged names get None |
| Listings.RemoveExtraChars | utils/skipperutils.py:390-392 | no b, brackets or quotes remain, no new characters appear, the ends are not blank, and every other non-blank character of the input remains |
| Listings.RemoveExtraCharsIdempotent | utils/skipperutils.py:390-392 | cleaning twice is cleaning once |
| Listings.RemoveExtraCharsDropsLetterB | utils/skipperutils.py:391 | the letter b inside a name is lost: "b'Bob'" becomes "Bo" |
| Listings.CleanUpAgentList | utils/skipperutils.py:394-395 | field k is the cleaning of the k-th comma-separated part, and every field is clean: no comma, b, bracket, quote or blank end |
| Listings.CleanFieldsRoundTrip | utils/skipperutils.py:390-395 | clean fields joined with commas are parsed back into the same fields |
| Listings.CleanUpAgentListStable | utils/skipperutils.py:390-395 | parsing the comma-joined result of a parse gives that result again |
| Listings.FirstEmail | utils/skipperutils.py:418 | the index of the first field containing '@', or none |
| Listings.AgentListToDict | utils/skipperutils.py:397-427 | the keys for 4, 5 and 6 fields; all-Unknown otherwise; a 6-field list without '@' raises |
| Listings.AgentDictRoundTrip | utils/skipperutils.py:398-405 | a 5-field list is recovered from its dictionary |
| Listings.AgentEmailIsFirstAt | utils/skipperutils.py:413-418 | a 6-field list's email is its first field with '@' |
| Listings.SimplifyCity | utils/skipperutils.py:439-442 | no replaced name survives; other names are unchanged |
| Listings.SimplifyCityIdempotent | utils/skipperutils.py:439-442 | renaming twice is renaming once |
| Listings.SimplifyCities | utils/skipperutils.py:429-444 | only the city column changes |
| Stats.InKeywords | utils/skipperstatsutils.py:71-80 | raises (`None`) exactly when the cell is not searchable: a list of two or more names, a non-zero number or `True`; missing and 0 never match; text matches on a contained keyword, a list of at most one name on its member |
| Stats.LongListRaises | utils/skipperstatsutils.py:75 | a list of two or more names makes the search raise, whatever the keywords |
| Stats.LoweredCellSearch | utils/skipperstatsutils.py:101-104 | a lower-cased cell never raises, and it matches exactly when it is text containing a keyword |
| Stats.FractionalRow | utils/skipperstatsutils.py:91-111 | the type becomes fractional exactly when flagged, keyword-matched or already fractional; the number is cleared exactly when flagged or matched |
| Stats.IdentifyFractionals | utils/skipperstatsutils.py:82-115 | the per-row pass applied to every row |
| Stats.FlaggedFractionalLosesNumber | utils/skipperstatsutils.py:91-111 | a flagged fractional unit also loses its number, since its new type is itself a keyword |
| Stats.LandRow | utils/skipperstatsutils.py:121-142 | missing address and building become empty; land exactly when flagged or keyword-matched without an anti-keyword; the number is cleared on a match |
| Stats.IdentifyLands | utils/skipperstatsutils.py:118-147 | the per-row pass applied to every row |
| Stats.CamelotIsNotLand | utils/skipperstatsutils.py:125-138 | an address naming Camelot is never made land by keywords |
| Stats.FractionalRowCanBecomeLand | utils/skipperstatsutils.py:131-139 | a fractional row whose address says "lot of land" becomes land |
| Stats.AreDatesClose | utils/skipperstatsutils.py:389-418 | a bare False exactly when both registry dates are missing; close exactly when some date is within 390 days; the gap is the smaller one |
| Stats.CutoffIsExclusive | utils/skipperstatsutils.py:412-418 | a gap of exactly 390 days is not close |
| Stats.ArePricesClose | utils/skipperstatsutils.py:420-428 | the difference is the absolute gap; equal prices are close |
| Stats.PricesCloseMeansFivePercent | utils/skipperstatsutils.py:424-428 | close exactly when the gap is at most five per cent of the brokerage price |
| Stats.AreAddressesClose | utils/skipperstatsutils.py:431-438 | close addresses are more than 80 similar, either both hold a number or neither does, and every digit run of each is a digit run of the other; without numbers only the similarity decides; the same runs in the same order always suffice |
| Stats.AddressesCloseSymmetric | utils/skipperstatsutils.py:431-438 | with a symmetric similarity, closeness does not depend on the order of the addresses |
| Stats.FuzzyAddressMatch | utils/skipperstatsutils.py:198-249 | no digits means no match; a high-similarity match shares half the numbers; a low-similarity match has equal numbers and a partial score above 60 |
| Stats.FuzzyAboveEighty | utils/skipperstatsutils.py:228-233 | above 80 similarity, a match is exactly sharing half the numbers |
| Stats.FuzzyNeedsDigits | utils/skipperstatsutils.py:215-222 | an address without digits never matches |
| Stats.CloseAddressesMatch | utils/skipperstatsutils.py:209-229 | addresses close by the strict test also pass the fuzzy test |
| Calendar.YearOfBounds | utils/skipperstatsutils.py:482-487 | the year of a day is one whose 1 January is on or before it and whose next 1 January is after it, with 365 days a year plus Gregorian leap days |
| Calendar.YearOfExact | utils/skipperstatsutils.py:482-487 | a day belongs to a year exactly when it lies between that year's 1 January and the next |
| Calendar.YearStartStep | utils/skipperstatsutils.py:482-487 | a leap year (divisible by 4, and by 400 when a century) has 366 days, any other 365 |
| Calendar.EpochYear | utils/skipperstatsutils.py:482-487 | the year extraction puts day 0 in 1970 |
| Calendar.EpochEveYear | utils/skipperstatsutils.py:482-487 | the year extraction puts day -1 in 1969 |
| Stats.UnitCodeAt | utils/skipperstatsutils.py:531 | a match at a position ends inside the text and has one of the pattern's four shapes: digits/digits, digits and a capital, a capital, hyphen and digits, or three digits |
| Stats.ShapeFound | utils/skipperstatsutils.py:531 | text of any of the four shapes starting at a position makes the pattern match there |
| Stats.NoCodeNoShape | utils/skipperstatsutils.py:531 | where the pattern does not match, no text of the four shapes starts |
| Stats.UnitCodes | utils/skipperstatsutils.py:531-533 | every unit code found is non-empty text of the building name with one of the pattern's four shapes |
| Stats.NoDigitsNoUnitCodes | utils/skipperstatsutils.py:531-533 | a name without digits has no unit codes |
| Stats.UnitCodeExample | utils/skipperstatsutils.py:531-533 | "Unit 12B" yields the one code "12B" |
| CrossFeed.WithTextNumber | utils/skipperstatsutils.py:282-283 | only the number column changes, to its text |
| CrossFeed.OnDate | utils/skipperstatsutils.py:293 | exactly the registry rows registered or acquired on the date |
| CrossFeed.NearPrice | utils/skipperstatsutils.py:321 | the kept rows are strictly within five per cent |
| CrossFeed.DateFilter | utils/skipperstatsutils.py:266-387 | the survivors are in order, none is a date duplicate, and every non-duplicate survives |
| CrossFeed.DateDuplicateNeedsSameDay | utils/skipperstatsutils.py:293-296 | a date duplicate has a registry row on its date |
| CrossFeed.PriceAndNumberExact | utils/skipperstatsutils.py:299-312 | after a date-and-price match, a transaction is dropped only when exactly one matching registry row holds its number text, and with a real number that is enough |
| CrossFeed.DateDuplicateEvidence | utils/skipperstatsutils.py:285-384 | the date pass drops a transaction only when a registry row of its date holds its number text and one has its price or a price strictly within five per cent |
| CrossFeed.SingleMatchDropped | utils/skipperstatsutils.py:293-304 | one registry row on the date, at the same price, holding the real number text makes the transaction a duplicate |
| CrossFeed.ZeroNumberNeedsAddress | utils/skipperstatsutils.py:305-312 | a single match without a number is a duplicate only when the addresses match fuzzily |
| CrossFeed.ContainingAll | utils/skipperstatsutils.py:457 | exactly the rows containing every pattern; a non-text pattern raises |
| CrossFeed.NearYearAndPrice | utils/skipperstatsutils.py:482-488 | the kept rows are within ten per cent of the price |
| CrossFeed.AddressDuplicate | utils/skipperstatsutils.py:452-515 | a fallback duplicate has exactly one fuzzily close registry row, with close dates |
| CrossFeed.FallbackIgnoresPrice | utils/skipperstatsutils.py:514 | in the fuzzy fallback the price does not change the decision |
| CrossFeed.FarDatesNeedNearPrice | utils/skipperstatsutils.py:470-474 | a single address match with far dates is a duplicate only within 6000 of the price |
| CrossFeed.FractionalRecords | utils/skipperstatsutils.py:524 | exactly fractional registry rows |
| CrossFeed.UnitMatches | utils/skipperstatsutils.py:531-545 | more than two unit codes match nothing |
| CrossFeed.FractionalDuplicate | utils/skipperstatsutils.py:526-550 | a non-fractional row is never a duplicate; a duplicate has at most two unit codes |
| CrossFeed.FractionalPriceRule | utils/skipperstatsutils.py:547-550 | one match needs the same price; several need the first within five per cent |
| CrossFeed.DropMarked | utils/skipperstatsutils.py:517-518 | the pass raises exactly when some decision raises; otherwise it keeps, in order, exactly the rows decided false |
| CrossFeed.AddressFilter | utils/skipperstatsutils.py:441-518 | raises exactly when some row's decision raises; otherwise the survivors are in order, none is an address duplicate, and every row decided not a duplicate survives |
| CrossFeed.FractionalFilter | utils/skipperstatsutils.py:521-554 | raises exactly when some row's decision raises; otherwise the survivors are in order, none is a unit duplicate, every non-duplicate survives, and so does every non-fractional row and every row with more than two unit codes |
| CrossFeed.Cascade | process_skipperstats.py:111-117 | raises exactly when some row, not a date duplicate, reaches a pass that raises; otherwise the output is an ordered subset of the rows with text numbers, every survivor passed all three tests, and every row that passes all three survives |
| CrossFeed.CascadeRaisesExactly | process_skipperstats.py:111-117 | the chained passes raise exactly when some row survives the date pass and then raises in the address or unit pass |
| Tables.Filter | process_skipperstats.py:37 | the kept rows satisfy the mask, come from the table, and include every row that satisfies it |
| Tables.FilterIsSubsequence | process_LTRO.py:58 | a mask keeps the table's order |
| Tables.SubsequenceTransitive | process_skipperstats.py:111-117 | dropping rows twice drops rows from the original |
| Tables.SubsequenceMembers | process_skipperstats.py:111-117 | every row of an ordered subset is a row of the table |
| Tables.KeepFirst | process_LTRO.py:89-93 | the same set of keys remains, each once, and every kept row is an input row |
| Tables.KeepFirstKeepsFirsts | process_skipperstats.py:49-50 | every kept row is the first input row with its key |
| Tables.KeepFirstKeepsFirst | process_skipperstats.py:49-50 | every input row that is the first of its key is kept |
| Tables.FirstOfItsKey | process_skipperstats.py:49-50 | every row has a first row of its key at or before it |
| Tables.FilterKeepsAll | process_skipperstats.py:108 | a mask every row passes keeps the whole table |
| RegistryImport.NumericPrice | process_LTRO.py:50-52 | a price that `pd.to_numeric` reads keeps its value, anything else becomes 0; on numbers and on `int()`-readable text without underscores it agrees with `int()` |
| RegistryImport.Loaded | process_LTRO.py:50-52 | no cell is missing afterwards; each of the seven cells becomes 0 when missing and stays when present; the price is its numeric reading; the row is marked as new; the other fields are unchanged |
| RegistryImport.NewRows | process_LTRO.py:50-66 | every new row is a loaded input row, has no missing cell, costs at least 1000 and is identifiable; every such input row is kept |
| RegistryImport.TextPriceDropped | process_LTRO.py:50-58 | a row whose price `pd.to_numeric` does not read is dropped |
| RegistryImport.GroupedPriceDropped | process_LTRO.py:50-58 | a text price with a digit-group underscore drops the row |
| RegistryImport.MissingNumberDropped | process_LTRO.py:52-66 | a short address with a missing number is dropped, because the missing number became 0 |
| RegistryImport.ProcessRegistry | process_LTRO.py:76-113 | the stages in order on the older rows, marked as read back, followed by the new rows; every output row's price exceeds three years of its combined rent, and there are no more rows than inputs |
| RegistryImport.Stages | process_LTRO.py:84-113 | the passes from classification to the final filter never add rows, and every row they keep costs more than three years of its combined rent |
| RegistryImport.Reread | process_LTRO.py:19 | the older rows are marked as read back from the earlier export and otherwise unchanged |
| RegistryImport.NewFirstStaysFirst | process_LTRO.py:72-93 | a new row first of its cells among the new rows is first of its cells in the combined table, because no older row matches a new one |
| RegistryImport.KeptAfterOlder | process_LTRO.py:76-93 | such a row survives the exact de-duplication of the combined table |
| RegistryImport.NewRowSurvivesDeduplication | process_LTRO.py:19-93 | every new row first of its cells among the new rows survives the exact de-duplication, even when an older row holds the same cells |
| RegistryImport.CrossTableCopiesKept | process_LTRO.py:19-93 | an older row and the same sale in the new workbook are both kept by the exact de-duplication |
| RegistryImport.Classify | process_LTRO.py:84-85 | only the type changes; a row ends fractional exactly when the fractional pass made it so, and with one of the five registry types |
| RegistryImport.ClassifyRaisesExactly | process_LTRO.py:84-85 | classification raises exactly when the land / house / condo pass meets a row that makes it raise |
| RegistryImport.Consolidate | process_LTRO.py:89-103 | no application number is lost, every row left is an input row at most with its assessment cell rewritten, and there are no more rows than before |
| RegistryImport.ConsolidateKeepsApplications | process_LTRO.py:89-103 | every application number survives de-duplication and consolidation |
| RegistryImport.ConsolidateKeepsRows | process_LTRO.py:89-103 | every consolidated row is an input row at most with its assessment cell rewritten |
| RegistryImport.Enrich | process_LTRO.py:106-110 | raises exactly when the rent lookup raises; only the two rent columns and the type change, and the combined rent follows the rent cell |
| RegistryImport.FinalFilterExact | process_LTRO.py:113 | the last stage keeps a row exactly when three years of its rent stay below its price |
| FeedImport.Zeroed | process_skipperstats.py:70-78 | no cell is missing afterwards; each of the nine text cells becomes 0 when missing and stays when present; a row with no missing cell is unchanged, and date and price always are |
| FeedImport.SoldSales | process_skipperstats.py:37-78 | every remaining row is sold, priced above 1000, has no missing cell, and is the zeroed first sold row of its key; every first sold row of its key priced above 1000 remains, zeroed |
| FeedImport.SoldRowRepresented | process_skipperstats.py:37-78 | every sold row priced above 1000 has its key represented among the screened rows |
| FeedImport.FlagOverrides | process_skipperstats.py:84-86 | the fractional flag wins over the land flag; unflagged rows are unchanged |
| FeedImport.Classified | process_skipperstats.py:84-89 | classification keeps status, price, date and parish |
| FeedImport.BothFlagsEndLand | process_skipperstats.py:84-89 | a row flagged both land and fractional ends as land, without a number |
| FeedImport.Prepared | process_skipperstats.py:37-108 | every row reaching the cross-feed passes is sold, priced above 1000, and the classified, renamed form of a screened row the curated lists do not name; every such screened row reaches them |
| FeedImport.NonzeroFilterRemovesNothing | process_skipperstats.py:76-108 | after the floor of 1000 the zero-price filter removes nothing |
| FeedImport.ProcessFeed | process_skipperstats.py:37-117 | raises exactly when some prepared row raises in a pass; otherwise the output is an ordered subset of the prepared rows with text numbers, every row is a sold sale above 1000 that no pass matched, and every prepared row no pass matches is exported |
| FeedImport.NewSaleExported | process_skipperstats.py:37-117 | a sold row, first of its key, above 1000, not on the curated lists and matched by no pass, reaches the output |

## Left out

- Reading and writing workbooks, CSV and XML files, downloading the feeds, and printing progress: the model starts from rows already in memory.
- Floating-point values: prices and rents are integers, and `x * 0.95`-style bounds are exact cross-multiplications.
- Date parsing: `pd.to_datetime`, `parse_mixed_dates` and `.dt.date` are not modelled. Dates arrive as day numbers.
- `replace(np.nan, 0)` on date columns is not modelled, because dates stay `Option<int>`.
- NaN and `None` are both the missing cell `Null`, which behaves as `None` (`str` gives "None", falsy, equal to `None`). NaN differs on all three. The feed tables and the new registry workbook have NaN replaced by 0 before any row pass (process_propertyskipper.py:43, process_LTRO.py:52, process_skipperstats.py:70). There, the NaN that remains is a coerced price or a missing date, and those are only tested with `pd.isnull`/`pd.isna`, which treat the two alike.
- The older registry rows are read back from CSV (process_LTRO.py:19) and appended after that replacement (process_LTRO.py:76), so their empty cells stay NaN. The model reads them as `Null`. Two older rows with no application number therefore form one group here, and consolidation may drop one of them. In the source, `== nan` selects neither row, the group is empty, and nothing is deleted (utils/LTROutils.py:217-256). A NaN cell's truth value and text also differ from `Null`'s.
- Character classes are ASCII: digits are 0-9, letters are a-z and A-Z, and white space is space, tab, newline, carriage return, vertical tab and form feed. Python's `str.lower`, `str.strip`, `int()` and `re`'s `\d` also accept other Unicode letters, digits and spaces. For example, `int("٣")` is 3, and the Kelvin sign lowers to `k`. Text outside ASCII is read by the ASCII rules, in the keyword searches, the digit runs of the address matcher and unit codes, and every `int()` parse.
- Valuation register entries are assumed complete: `Entry` holds an integer ARV and text names and types. In the source, a missing building name makes the address repair raise (utils/LTROutils.py:594). A missing ARV makes the combined ARV NaN, so the final filter drops the row (process_LTRO.py:113). A missing type is copied into the row. None of these is modelled.
- RegistryImport.NumericPrice: a text price with a non-zero fraction is rounded down to an integer. This keeps the `>= 1000` test exact, but not the `3 * arv < price` test. A text price of `inf` or `infinity`, which pandas reads as infinity, becomes 0 here. Very long numerals keep their exact value, where pandas rounds them to a double.
- String similarity (`fuzz.ratio`) is a parameter, not an implementation.
- `str.contains(an)` in the date pass uses a regular expression, and the model uses a plain substring test. This differs only when a number's text holds regex metacharacters.
- `dropna(how='all')` on rows and columns of the brokerage feed is not modelled, because it removes no row that has a status.
- `application_number_hash` (an md5 digest), `add_bermuda_grid`, the grid conversion and `fix_no_name_buildings` are out of scope.
- `drop_unidentified` and `drop_selected_duplicates_by_hand` are hand-curated lists. They are modelled as the parameter `dropped`.
- `clean_area`, `convert_to_ha`, `smtm` and `nr_of_decimals` are out of scope: they are floating-point area and money formatting.
- `_country_filter`, `clean_and_flag_properties`, `sanitize_text`, `uniform_property_type`, `let_or_rent` and `clean_ltro_data` are out of scope. They are column renaming and string replacement with file-based tables.
- `clean_parcel_id_based_addresses` is modelled on its own, because no import script calls it. Its two tables are parameters.
- The older registry rows that the import reads back from CSV are a parameter of `ProcessRegistry`.
- The older rows' date cells are text in the source. The model keeps them as day numbers and marks the row with `reread`, which records only that such a date never equals a new row's date. No later registry pass compares dates.
- Registry exports whose address or number cells are missing are not modelled. The cross-feed passes read them as text.
- RegistryImport.ProcessRegistry: its own contract states only the final filter and the size bound. Each earlier stage's guarantees are stated by that stage's member.
- Listings.AddressFlag: a list-valued name follows the same branches, but only text names get the exact characterisation.

=== FILE: assessment.dfy ===
/**
 The two assessment-number normalisers. They differ, and both are kept:

 - `GetAssessmentNumber` (registry side) answers `False` (here `None`) or a
   non-empty list of 7 to 9 character integer tokens. It never pads and
   never trims: a lone 10-digit code is rejected.
 - `CleanAssnNr` (listing side) answers `0`, a string, or a list; 8-digit
   codes are zero-padded to 9, and lists already in canonical form come
   back unchanged.
 */
module Assessment {
  import opened Text
  import opened PyValue

  // ---------------------------------------------------------------------
  // Registry normaliser
  // ---------------------------------------------------------------------

  /** A token the registry normaliser keeps: 7 to 9 characters that `int()` accepts. */
  predicate ValidToken(t: string) {
    7 <= |t| <= 9 && IsIntLiteral(t)
  }

  /** Joiner normalisation applied before splitting a long value on commas. */
  function JoinersToCommas(s: string): (r: string)
    ensures |r| <= |s|
    ensures '&' !in r && '[' !in r && ']' !in r && '\'' !in r
  {
    var a := Replace(s, ", and", ",");
    var b := Replace(a, ",and", ",");
    var c := Replace(b, "&", ",");
    var d := Replace(c, "[", "");
    var e := Replace(d, "]", "");
    var f := Replace(e, "'", "");
    ReplaceChars(b, "&", ",");
    ReplaceChars(c, "[", "");
    ReplaceChars(d, "]", "");
    ReplaceChars(e, "'", "");
    f
  }

  /** The comma parts of a long value, after joiner normalisation. */
  function PartsOf(s: string): (r: seq<string>)
    ensures |r| >= 1
    ensures |r| >= 2 ==> forall k :: 0 <= k < |r| ==> |r[k]| < |s|
  {
    SplitFacts(JoinersToCommas(s), ',');
    Split(JoinersToCommas(s), ',')
  }

  /** `get_assessment_number` on the text `str(cell)` */
  function AssessmentFromText(raw: string): (r: Option<seq<string>>)
    ensures r.Some? ==> |r.value| > 0
    ensures r.Some? ==> forall k :: 0 <= k < |r.value| ==> ValidToken(r.value[k])
    decreases |raw|, 1
  {
    var s := Strip(raw);
    if |s| < 7 then None
    else if |s| <= 9 then
      if IsIntLiteral(s) then Some([s]) else None
    else
      var parts := PartsOf(s);
      if |parts| <= 1 then None
      else
        var tokens := TokensOf(parts, |s|);
        if |tokens| == 0 then None else Some(tokens)
  }

  /** `[x[0] for x in [get_assessment_number(p.strip()) for p in parts] if x]` */
  function TokensOf(parts: seq<string>, bound: nat): (r: seq<string>)
    requires forall k :: 0 <= k < |parts| ==> |parts[k]| < bound
    ensures |r| <= |parts|
    ensures forall k :: 0 <= k < |r| ==> ValidToken(r[k])
    decreases bound, 0, |parts|
  {
    if |parts| == 0 then []
    else
      var p := Strip(parts[0]);
      assert |p| < bound;
      var x := AssessmentFromText(p);
      var rest := TokensOf(parts[1..], bound);
      if x.None? then rest
      else
        var tok := x.value[0];
        PrependValid(tok, rest);
        [tok] + rest
  }

  /** Putting a valid token in front of valid tokens keeps them all valid. */
  lemma PrependValid(tok: string, rest: seq<string>)
    requires ValidToken(tok)
    requires forall k :: 0 <= k < |rest| ==> ValidToken(rest[k])
    ensures forall k :: 0 <= k < |[tok] + rest| ==> ValidToken(([tok] + rest)[k])
  {
    forall k | 0 <= k < |[tok] + rest|
      ensures ValidToken(([tok] + rest)[k])
    {
      if k > 0 {
        assert ([tok] + rest)[k] == rest[k - 1];
      }
    }
  }

  /** `get_assessment_number(cell)` */
  function GetAssessmentNumber(cell: Value): Option<seq<string>> {
    AssessmentFromText(ToStr(cell))
  }

  /** `if an:` on a normaliser result */
  predicate HasAssessment(cell: Value) { GetAssessmentNumber(cell).Some? }

  /** Values shorter than 7 characters once stripped are rejected; 7 to 9
      characters are kept verbatim, with no padding, when `int()` accepts
      them, and rejected otherwise. */
  lemma ShortValues(raw: string)
    ensures |Strip(raw)| < 7 ==> AssessmentFromText(raw) == None
    ensures 7 <= |Strip(raw)| <= 9 ==>
      AssessmentFromText(raw) == (if IsIntLiteral(Strip(raw)) then Some([Strip(raw)]) else None)
  {
  }

  /** A long value with at most one comma-separated part is rejected: there
      is no trimming of 10-digit codes. */
  lemma SingleLongPartRejected(raw: string)
    requires |Strip(raw)| > 9
    requires |PartsOf(Strip(raw))| <= 1
    ensures AssessmentFromText(raw) == None
  {
  }

  /** Joiner normalisation leaves a value without joiners untouched. */
  lemma JoinersAbsent(s: string)
    requires ',' !in s && '&' !in s && '[' !in s && ']' !in s && '\'' !in s
    ensures JoinersToCommas(s) == s
  {
    NotContainsChar(s, ", and", ',');
    ReplaceAbsent(s, ", and", ",");
    NotContainsChar(s, ",and", ',');
    ReplaceAbsent(s, ",and", ",");
    NotContainsChar(s, "&", '&');
    ReplaceAbsent(s, "&", ",");
    NotContainsChar(s, "[", '[');
    ReplaceAbsent(s, "[", "");
    NotContainsChar(s, "]", ']');
    ReplaceAbsent(s, "]", "");
    NotContainsChar(s, "'", '\'');
    ReplaceAbsent(s, "'", "");
  }

  /** A lone 10-digit code is rejected rather than trimmed to 9 digits. */
  lemma TenDigitCodeRejected(s: string)
    requires AllDigits(s) && |s| == 10
    ensures GetAssessmentNumber(Str(s)) == None
  {
    DigitsTrimmed(s);
    DigitsSinglePart(s);
    SingleLongPartRejected(s);
  }

  lemma DigitsTrimmed(s: string)
    requires AllDigits(s)
    ensures Strip(s) == s
  {
    StripTrimmed(s);
  }

  lemma DigitsSinglePart(s: string)
    requires AllDigits(s)
    ensures PartsOf(s) == [s]
  {
    JoinersAbsent(s);
    SplitNoSep(s, ',');
  }

  /** The keep-or-drop outcome of one comma part: a part holds no comma,
      ampersand, bracket or quote, so the recursive call never sees a list. */
  lemma CommaFreePart(p: string)
    requires ',' !in p && '&' !in p && '[' !in p && ']' !in p && '\'' !in p
    ensures AssessmentFromText(p) == (if ValidToken(Strip(p)) then Some([Strip(p)]) else None)
  {
    var s := Strip(p);
    if |s| > 9 {
      assert PartsOf(s) == [s] by {
        StripChars(p);
        JoinersAbsent(s);
        SplitNoSep(s, ',');
      }
    }
  }

  /** The stripped parts that are valid tokens, in input order. */
  function ValidParts(parts: seq<string>): (r: seq<string>)
    ensures |r| <= |parts|
  {
    if |parts| == 0 then []
    else if ValidToken(Strip(parts[0])) then [Strip(parts[0])] + ValidParts(parts[1..])
    else ValidParts(parts[1..])
  }

  /** On comma parts, the recursion keeps exactly the valid parts, in order. */
  lemma {:induction false} TokensOfParts(parts: seq<string>, bound: nat)
    requires forall k :: 0 <= k < |parts| ==> |parts[k]| < bound
    requires forall k :: 0 <= k < |parts| ==>
               ',' !in parts[k] && '&' !in parts[k] && '[' !in parts[k] && ']' !in parts[k] && '\'' !in parts[k]
    ensures TokensOf(parts, bound) == ValidParts(parts)
    decreases |parts|
  {
    if |parts| > 0 {
      var p := Strip(parts[0]);
      StripChars(parts[0]);
      CommaFreePart(p);
      StripTrimmed(p);
      TokensOfParts(parts[1..], bound);
    }
  }

  /** A multi-part value yields exactly the valid parts, in order, each
      taken from its own comma part; `False` when none is valid. */
  lemma ListValue(raw: string)
    requires |Strip(raw)| > 9
    requires |PartsOf(Strip(raw))| >= 2
    ensures var parts := PartsOf(Strip(raw));
      AssessmentFromText(raw) == (if ValidParts(parts) == [] then None else Some(ValidParts(parts)))
  {
    var s := Strip(raw);
    var n := JoinersToCommas(s);
    var parts := PartsOf(s);
    SplitFacts(n, ',');
    TokensOfParts(parts, |s|);
  }

  // ---------------------------------------------------------------------
  // Listing normaliser
  // ---------------------------------------------------------------------

  /** `re.match(r'^\d{8,9}$', s)`; `$` also matches before a final newline. */
  predicate CodePattern(s: string) {
    || (8 <= |s| <= 9 && AllDigits(s))
    || (9 <= |s| <= 10 && s[|s| - 1] == '\n' && AllDigits(s[..|s| - 1]))
  }

  predicate AllZeros(s: string) { |s| > 0 && forall i :: 0 <= i < |s| ==> s[i] == '0' }

  /** `re.match(r'^[0]+$', s)` */
  predicate ZeroPattern(s: string) {
    AllZeros(s) || (|s| >= 2 && s[|s| - 1] == '\n' && AllZeros(s[..|s| - 1]))
  }

  /** `re.match(r'^\d{6,10}\s+\d{6,10}$', s)` on a string with no trailing newline */
  predicate TwoSpacedCodes(s: string) {
    var i := DigitRunEnd(s, 0);
    6 <= i <= 10 &&
    var j := SpaceRunEnd(s, i);
    j > i && 6 <= |s| - j <= 10 && AllDigits(s[j..])
  }

  function SpaceRunEnd(s: string, i: nat): (j: nat)
    requires i <= |s|
    ensures i <= j <= |s|
    decreases |s| - i
  {
    if i < |s| && IsSpace(s[i]) then SpaceRunEnd(s, i + 1) else i
  }

  function RemoveLetters(s: string): (r: string)
    ensures |r| <= |s|
    ensures forall x :: x in r ==> x in s && !IsLetter(x)
  {
    if |s| == 0 then ""
    else if IsLetter(s[0]) then RemoveLetters(s[1..])
    else [s[0]] + RemoveLetters(s[1..])
  }

  /** `re.sub(r'^\d\s', '', s)` */
  function DropLeadingDigitSpace(s: string): (r: string)
    ensures |r| <= |s|
  {
    if |s| >= 2 && IsDigit(s[0]) && IsSpace(s[1]) then s[2..] else s
  }

  /** The separator clean-up applied to a long listing value before it is split. */
  function ListingSeparators(an: string): (r: string)
    ensures |r| <= |an|
  {
    var a := BracketsToCommas(an);
    var b := AndsToCommas(a);
    var c := if TwoSpacedCodes(b) then Replace(b, "  ", ",") else b;
    var d := DropLeadingDigitSpace(RemoveLetters(c));
    ParensAndAmpersands(d)
  }

  /** Drop `b`, brackets and quotes, turn `;` and `/` into commas, strip. */
  function BracketsToCommas(an: string): (r: string)
    ensures |r| <= |an|
  {
    Strip(Replace(Replace(Replace(Replace(Replace(Replace(an, "b", ""), "[", ""), "]", ""), "'", ""), ";", ","), "/", ","))
  }

  /** The word `and` as a separator, with or without a preceding comma. */
  function AndsToCommas(a: string): (r: string)
    ensures |r| <= |a|
  {
    Replace(Replace(Replace(a, ", and", ","), ",and", ","), "and", ",")
  }

  /** Drop parentheses; `&` separates. */
  function ParensAndAmpersands(d: string): (r: string)
    ensures |r| <= |d|
  {
    Replace(Replace(Replace(d, "(", ""), ")", ""), "&", ",")
  }

  /** What the recursion on a part can answer: `0` or a non-empty list. */
  predicate ZeroOrCodes(v: Value) {
    v == Int(0) || (v.List? && |v.items| > 0)
  }

  /** `clean_assn_nr` on a value that is not a list, after `str(an).strip()` */
  function CleanAssnString(an: string): (r: Value)
    ensures ZeroOrCodes(r)
    decreases |an|, 3
  {
    var l := Lower(an);
    if Contains(l, "vacant land") || Contains(l, "land") || Contains(l, "timeshare") then Int(0)
    else CleanAssnTail(an)
  }

  /** The shared tail of `clean_assn_nr` once the value is a stripped string. */
  function CleanAssnTail(an: string): (r: Value)
    ensures ZeroOrCodes(r)
    decreases |an|, 2
  {
    if ZeroPattern(an) then Int(0)
    else if CodePattern(an) then
      if |an| == 9 then List([an])
      else if |an| == 8 then List(["0" + an])
      else Int(0)
    else if |an| > 9 then CleanLong(an)
    else Int(0)
  }

  /** A long value that is neither zeros nor one code: split on the
      normalised separators and keep the first code of each part. */
  function CleanLong(an: string): (r: Value)
    ensures ZeroOrCodes(r)
    decreases |an|, 1
  {
    var n := ListingSeparators(an);
    var parts := Split(n, ',');
    if |parts| == 1 then List(parts)
    else
      SplitFacts(n, ',');
      var codes := CodesOf(parts, |an|);
      if |codes| == 0 then Int(0) else List(codes)
  }

  /** `[x[0] for x in [clean_assn_nr(p.strip()) for p in parts] if x]` */
  function CodesOf(parts: seq<string>, bound: nat): (r: seq<string>)
    requires forall k :: 0 <= k < |parts| ==> |parts[k]| < bound
    ensures |r| <= |parts|
    decreases bound, 0, |parts|
  {
    if |parts| == 0 then []
    else
      var x := CleanAssnString(Strip(parts[0]));
      (if x.List? then [x.items[0]] else []) + CodesOf(parts[1..], bound)
  }

  /** `clean_assn_nr(an)` */
  function CleanAssnNr(an: Value): (r: Value)
    ensures r == Int(0) || r.Str? || (r.List? && |r.items| > 0)
  {
    match an
    case List(items) =>
      if |items| == 1 then
        if ZeroPattern(items[0]) then Int(0)
        else if CodePattern(items[0]) then an
        else Str(Strip(ToStr(an)))
      else if |items| > 1 then
        if exists k :: 0 <= k < |items| && ZeroPattern(items[k]) then CleanAssnTail(Strip(ToStr(an)))
        else if forall k :: 0 <= k < |items| ==> CodePattern(items[k]) then an
        else CleanAssnTail(Strip(ToStr(an)))
      else CleanAssnString(Strip(ToStr(an)))
    case _ => CleanAssnString(Strip(ToStr(an)))
  }

  /** A plain string is normalised through its stripped text. */
  lemma CleanStr(s: string)
    ensures CleanAssnNr(Str(s)) == CleanAssnString(Strip(s))
  {
  }

  /** Text without the letter a (in either case) mentions no land and no
      timeshare, so only the tail decides. */
  lemma CleanNoLetterA(an: string)
    requires 'a' !in an && 'A' !in an
    ensures CleanAssnString(an) == CleanAssnTail(an)
  {
    var l := Lower(an);
    assert 'a' !in l by {
      forall i | 0 <= i < |l| ensures l[i] != 'a' {
        assert l[i] == LowerChar(an[i]);
      }
    }
    NotContainsChar(l, "vacant land", 'a');
    NotContainsChar(l, "land", 'a');
    NotContainsChar(l, "timeshare", 'a');
  }

  lemma DigitsNoLetterA(s: string)
    requires AllDigits(s)
    ensures 'a' !in s && 'A' !in s
  {
  }

  /** On a digit string the two anchored patterns reduce to their length
      and zero conditions: there is no trailing newline to absorb. */
  lemma DigitPatterns(s: string)
    requires AllDigits(s)
    ensures ZeroPattern(s) <==> AllZeros(s)
    ensures CodePattern(s) <==> 8 <= |s| <= 9
  {
    if |s| > 0 {
      assert IsDigit(s[|s| - 1]);
    }
  }

  /** A digit string is normalised by the tail alone. */
  lemma CleanDigitString(s: string)
    requires AllDigits(s)
    ensures CleanAssnNr(Str(s)) == CleanAssnTail(s)
  {
    DigitsTrimmed(s);
    DigitsNoLetterA(s);
    CleanStr(s);
    CleanNoLetterA(s);
  }

  /** All-zero values, alone or as the one element of a list, map to `0`. */
  lemma CleanZeros(s: string)
    requires AllZeros(s)
    ensures CleanAssnNr(Str(s)) == Int(0)
    ensures CleanAssnNr(List([s])) == Int(0)
  {
    assert CleanAssnNr(Str(s)) == Int(0) by {
      assert AllDigits(s);
      CleanDigitString(s);
    }
  }

  /** A 9-digit code comes back as itself; an 8-digit code is padded with one
      leading zero. */
  lemma CleanDigitCodes(s: string)
    requires AllDigits(s) && (|s| == 8 || |s| == 9) && !AllZeros(s)
    ensures |s| == 9 ==> CleanAssnNr(Str(s)) == List([s])
    ensures |s| == 8 ==> CleanAssnNr(Str(s)) == List(["0" + s])
  {
    CleanDigitString(s);
    DigitPatterns(s);
  }

  /** A non-list value mentioning land or a timeshare maps to `0`. */
  lemma CleanLandOrTimeshare(an: Value)
    requires !an.List?
    requires var l := Lower(Strip(ToStr(an)));
      Contains(l, "land") || Contains(l, "timeshare")
    ensures CleanAssnNr(an) == Int(0)
  {
  }

  /** The tail never yields a code from fewer than 8 characters. */
  lemma TailShort(an: string)
    requires |an| <= 7
    ensures CleanAssnTail(an) == Int(0)
  {
  }

  /** A string of at most 7 characters once stripped never yields a code. */
  lemma CleanShortString(s: string)
    requires |Strip(s)| <= 7
    ensures CleanAssnNr(Str(s)) == Int(0)
  {
    CleanStr(s);
    TailShort(Strip(s));
  }

  /** A non-empty list of well-formed, non-zero codes is returned unchanged. */
  lemma CleanCanonicalList(items: seq<string>)
    requires |items| >= 1
    requires forall k :: 0 <= k < |items| ==> CodePattern(items[k]) && !ZeroPattern(items[k])
    ensures CleanAssnNr(List(items)) == List(items)
  {
    if |items| > 1 {
      assert !exists k :: 0 <= k < |items| && ZeroPattern(items[k]);
    }
  }

  /** Normalising a normalised 8- or 9-digit code changes nothing. */
  lemma CleanIdempotentOnCodes(s: string)
    requires AllDigits(s) && (|s| == 8 || |s| == 9) && !AllZeros(s)
    ensures CleanAssnNr(CleanAssnNr(Str(s))) == CleanAssnNr(Str(s))
  {
    CleanDigitCodes(s);
    var c := if |s| == 9 then s else "0" + s;
    if |s| == 8 {
      PaddedCode(s);
    }
    DigitPatterns(c);
    CleanCanonicalList([c]);
  }

  /** Zero-padding keeps a code a non-zero digit string. */
  lemma PaddedCode(s: string)
    requires AllDigits(s) && |s| > 0 && !AllZeros(s)
    ensures AllDigits("0" + s) && !AllZeros("0" + s)
  {
    var c := "0" + s;
    var i :| 0 <= i < |s| && s[i] != '0';
    assert c[i + 1] == s[i];
  }

  /** The listing separator clean-up leaves a digit string of two or more
      characters untouched. */
  lemma SeparatorsOfDigits(s: string)
    requires AllDigits(s) && |s| >= 2
    ensures ListingSeparators(s) == s
  {
    SeparatorsFront(s);
    SeparatorsBack(s);
  }

  /** The first separator stages leave a digit string as it is. */
  lemma SeparatorsFront(s: string)
    requires AllDigits(s) && |s| >= 2
    ensures AndsToCommas(BracketsToCommas(s)) == s && !TwoSpacedCodes(s)
  {
    BracketsOfDigits(s);
    AndsOfDigits(s);
    assert DigitRunEnd(s, 0) == |s|;
  }

  /** So do the last ones. */
  lemma SeparatorsBack(s: string)
    requires AllDigits(s) && |s| >= 2
    ensures ParensAndAmpersands(DropLeadingDigitSpace(RemoveLetters(s))) == s
  {
    NoLettersKept(s);
    assert !IsSpace(s[1]);
    ParensOfDigits(s);
  }

  lemma BracketsOfDigits(s: string)
    requires AllDigits(s)
    ensures BracketsToCommas(s) == s
  {
    NotContainsChar(s, "b", 'b');
    ReplaceAbsent(s, "b", "");
    NotContainsChar(s, "[", '[');
    ReplaceAbsent(s, "[", "");
    NotContainsChar(s, "]", ']');
    ReplaceAbsent(s, "]", "");
    NotContainsChar(s, "'", '\'');
    ReplaceAbsent(s, "'", "");
    NotContainsChar(s, ";", ';');
    ReplaceAbsent(s, ";", ",");
    NotContainsChar(s, "/", '/');
    ReplaceAbsent(s, "/", ",");
    DigitsTrimmed(s);
  }

  lemma AndsOfDigits(s: string)
    requires AllDigits(s)
    ensures AndsToCommas(s) == s
  {
    DigitsNoLetterA(s);
    NotContainsChar(s, ", and", ',');
    ReplaceAbsent(s, ", and", ",");
    NotContainsChar(s, ",and", ',');
    ReplaceAbsent(s, ",and", ",");
    NotContainsChar(s, "and", 'a');
    ReplaceAbsent(s, "and", ",");
  }

  lemma ParensOfDigits(s: string)
    requires AllDigits(s)
    ensures ParensAndAmpersands(s) == s
  {
    NotContainsChar(s, "(", '(');
    ReplaceAbsent(s, "(", "");
    NotContainsChar(s, ")", ')');
    ReplaceAbsent(s, ")", "");
    NotContainsChar(s, "&", '&');
    ReplaceAbsent(s, "&", ",");
  }

  lemma {:induction false} NoLettersKept(s: string)
    requires AllDigits(s)
    ensures RemoveLetters(s) == s
  {
    if |s| > 0 {
      assert AllDigits(s[1..]);
      NoLettersKept(s[1..]);
      assert [s[0]] + s[1..] == s;
    }
  }

  /** A 10-digit code that is not all zeros is not trimmed: it comes back as
      a one-element list. */
  lemma CleanTenDigits(s: string)
    requires AllDigits(s) && |s| == 10 && !AllZeros(s)
    ensures CleanAssnNr(Str(s)) == List([s])
  {
    CleanDigitString(s);
    DigitPatterns(s);
    DigitsLong(s);
  }

  /** The long-value branch returns a digit string as a one-element list. */
  lemma DigitsLong(s: string)
    requires AllDigits(s) && |s| >= 2
    ensures CleanLong(s) == List([s])
  {
    SeparatorsOfDigits(s);
    SplitNoSep(s, ',');
  }
}

=== FILE: calendar.dfy ===
/**
 Calendar years of day numbers, as `Timestamp.year` reports them: the
 cross-feed address pass compares the years of two dates. A day number
 counts days from 1970-01-01 in the proleptic Gregorian calendar.
 */
module Calendar {

  /** A Gregorian leap year: divisible by 4, and by 400 when it is a
      century. */
  predicate LeapYear(y: int) { y % 4 == 0 && (y % 100 != 0 || y % 400 == 0) }

  /** The leap days of the years before `y` counted from year 0, that is,
      the multiples of 4, less those of 100, plus those of 400, up to y - 1. */
  function LeapsBefore(y: int): int { (y - 1) / 4 - (y - 1) / 100 + (y - 1) / 400 }

  /** The day number of 1 January of year `y`: 365 days a year, plus one
      for every leap day in between. */
  function YearStart(y: int): int { 365 * (y - 1970) + LeapsBefore(y) - LeapsBefore(1970) }

  /** `Timestamp.year` of a day number, computed by the usual civil-from-days
      algorithm: days are counted from 0000-03-01, split into 400-year eras
      of 146097 days, and each era into March-based years, so that the leap
      day is the last day of a year; January and February then belong to
      the next calendar year. */
  function YearOf(day: int): int {
    var z := day + 719468;
    var era := z / 146097;
    var doe := z - era * 146097;
    var yoe := YearOfEra(doe);
    var doy := doe - (365 * yoe + yoe / 4 - yoe / 100);
    var mp := (5 * doy + 2) / 153;
    var month := if mp < 10 then mp + 3 else mp - 9;
    yoe + era * 400 + (if month <= 2 then 1 else 0)
  }

  /** The March-based year, 0 to 399, of day `doe` of a 400-year era. */
  function YearOfEra(doe: int): int { (doe - doe / 1460 + doe / 36524 - doe / 146096) / 365 }

  /** The number of days from 0000-03-01 to 1 March of year `y`. */
  function MarchStart(y: int): int { 365 * y + y / 4 - y / 100 + y / 400 }

  // ---------------------------------------------------------------------
  // What the year extraction promises
  // ---------------------------------------------------------------------

  /** A day lies between the first day of its year and the first day of the
      next. */
  lemma YearOfBounds(day: int)
    ensures YearStart(YearOf(day)) <= day < YearStart(YearOf(day) + 1)
  {
    var era, doe := YearOfUnfolded(day);
    var y0, doy := EraMarchYear(era, doe);
    MarchToJanuary(y0, doy, day, YearOf(day));
  }

  /** The year of a day is the one year whose first day is not after it and
      whose successor's first day is after it. */
  lemma YearOfExact(day: int, y: int)
    ensures YearOf(day) == y <==> YearStart(y) <= day < YearStart(y + 1)
  {
    YearOfBounds(day);
    var x := YearOf(day);
    if x < y {
      YearStartIncreasing(x + 1, y);
    } else if y < x {
      YearStartIncreasing(y + 1, x);
    }
  }

  /** Years follow one another: a leap year has 366 days, any other 365. */
  lemma YearStartStep(y: int)
    ensures YearStart(y + 1) == YearStart(y) + (if LeapYear(y) then 366 else 365)
  {
    LeapCountSteps(y);
    CenturyDivisibility(y);
  }

  /** Later years start later (or on the same day, for the same year). */
  lemma YearStartIncreasing(a: int, b: int)
    requires a <= b
    ensures YearStart(a) <= YearStart(b)
  {
  }

  /** The epoch is the first day of 1970. */
  lemma EpochStartsYear()
    ensures YearStart(1970) == 0
  {
  }

  /** The epoch day is in 1970. */
  lemma EpochYear()
    ensures YearOf(0) == 1970
  {
    assert 719468 / 146097 == 4;
    assert YearOfEra(135080) == 369;
    assert (5 * 306 + 2) / 153 == 10;
  }

  /** The day before the epoch is in 1969. */
  lemma EpochEveYear()
    ensures YearOf(-1) == 1969
  {
    assert 719467 / 146097 == 4;
    assert YearOfEra(135079) == 369;
    assert (5 * 305 + 2) / 153 == 9;
  }

  // ---------------------------------------------------------------------
  // The proof, step by step
  // ---------------------------------------------------------------------

  /** Each count of multiples grows by one exactly at a multiple. */
  lemma LeapCountSteps(y: int)
    ensures y / 4 - (y - 1) / 4 == if y % 4 == 0 then 1 else 0
    ensures y / 100 - (y - 1) / 100 == if y % 100 == 0 then 1 else 0
    ensures y / 400 - (y - 1) / 400 == if y % 400 == 0 then 1 else 0
  {
  }

  lemma CenturyDivisibility(y: int)
    ensures y % 100 == 0 ==> y % 4 == 0
    ensures y % 400 == 0 ==> y % 100 == 0
  {
    if y % 100 == 0 {
      assert y == 100 * (y / 100) && 100 * (y / 100) == 4 * (25 * (y / 100));
    }
    if y % 400 == 0 {
      assert y == 400 * (y / 400) && 400 * (y / 400) == 100 * (4 * (y / 400));
    }
  }

  /** A March-based year has 365 or 366 days. */
  lemma MarchStartStep(y: int)
    ensures MarchStart(y) + 365 <= MarchStart(y + 1) <= MarchStart(y) + 366
  {
    LeapCountSteps(y + 1);
    CenturyDivisibility(y + 1);
  }

  /** Eras repeat every 400 years and 146097 days. */
  lemma MarchStartShift(e: int, k: int)
    ensures MarchStart(400 * e + k) == 146097 * e + MarchStart(k)
  {
    assert (400 * e + k) / 4 == 100 * e + k / 4;
    assert (400 * e + k) / 100 == 4 * e + k / 100;
    assert (400 * e + k) / 400 == e + k / 400;
  }

  /** 1 January of `y` is 306 days after 1 March of `y - 1`. */
  lemma YearStartFromMarch(y: int)
    ensures YearStart(y) == MarchStart(y - 1) + 306 - 719468
  {
  }

  /** The year of an era is the March-based year holding the day. */
  lemma YearOfEraBounds(doe: int)
    requires 0 <= doe < 146097
    ensures 0 <= YearOfEra(doe) < 400 && MarchStart(YearOfEra(doe)) <= doe < MarchStart(YearOfEra(doe) + 1)
  {
    if doe < 36524 {
      YearOfEraInCentury(doe, 0);
    } else if doe < 2 * 36524 {
      YearOfEraInCentury(doe, 1);
    } else if doe < 3 * 36524 {
      YearOfEraInCentury(doe, 2);
    } else if doe < 146096 {
      YearOfEraInCentury(doe, 3);
    } else {
      assert YearOfEra(doe) == 399;
    }
  }

  /** Within century `c` of an era, split the day into four-year blocks of
      1461 days. */
  lemma YearOfEraInCentury(doe: int, c: int)
    requires 0 <= c <= 3 && 36524 * c <= doe < 36524 * c + 36524 && doe < 146096
    ensures 0 <= YearOfEra(doe) < 400 && MarchStart(YearOfEra(doe)) <= doe < MarchStart(YearOfEra(doe) + 1)
  {
    var d := doe - 36524 * c;
    var q := d / 1461;
    var r := d % 1461;
    var delta := if 24 * c + q + r >= 1460 then 1 else 0;
    FourYearSplit(doe, c, q, r, delta);
    var j := (r - delta) / 365;
    YearOfEraInBlock(doe, c, q, r, delta, j);
    BlockYearBounds(c, q, r, delta, j);
  }

  lemma FourYearSplit(doe: int, c: int, q: int, r: int, delta: int)
    requires 0 <= c <= 3 && 0 <= q && 0 <= r < 1461 && doe == 36524 * c + 1461 * q + r
    requires 0 <= doe - 36524 * c < 36524
    requires delta == if 24 * c + q + r >= 1460 then 1 else 0
    ensures 0 <= q <= 24 && doe / 1460 == 25 * c + q + delta
  {
    assert doe == 1460 * (25 * c + q) + (24 * c + q + r);
  }

  lemma YearOfEraInBlock(doe: int, c: int, q: int, r: int, delta: int, j: int)
    requires 0 <= c <= 3 && 0 <= q <= 24 && 0 <= r < 1461 && doe == 36524 * c + 1461 * q + r && doe < 146096
    requires 1461 * q + r < 36524
    requires doe / 1460 == 25 * c + q + delta && 0 <= delta <= 1 && j == (r - delta) / 365
    ensures YearOfEra(doe) == 100 * c + 4 * q + j
  {
    assert doe / 36524 == c && doe / 146096 == 0;
  }

  lemma BlockYearBounds(c: int, q: int, r: int, delta: int, j: int)
    requires 0 <= c <= 3 && 0 <= q <= 24 && 0 <= r < 1461
    requires 36524 * c + 1461 * q + r < 36524 * c + 36524 && 36524 * c + 1461 * q + r < 146096
    requires delta == (if 24 * c + q + r >= 1460 then 1 else 0) && j == (r - delta) / 365
    ensures 0 <= j <= 3
    ensures MarchStart(100 * c + 4 * q + j) <= 36524 * c + 1461 * q + r < MarchStart(100 * c + 4 * q + j + 1)
  {
    BlockYearStart(c, q, r, delta, j);
    BlockYearEnd(c, q, r, delta, j);
  }

  /** The year `j` of a block starts `365 * j` days into it. */
  lemma BlockYearStart(c: int, q: int, r: int, delta: int, j: int)
    requires 0 <= c <= 3 && 0 <= q <= 24 && 0 <= r < 1461
    requires delta == (if 24 * c + q + r >= 1460 then 1 else 0) && j == (r - delta) / 365
    ensures 0 <= j <= 3
    ensures MarchStart(100 * c + 4 * q + j) == 36524 * c + 1461 * q + 365 * j <= 36524 * c + 1461 * q + r
  {
    var x := 100 * c + 4 * q + j;
    assert x / 4 == 25 * c + q && x / 100 == c && x / 400 == 0;
  }

  /** The next year starts after the day: only the last year of a block
      can be long, and the block's last year in a century is long only at
      the end of the era. */
  lemma BlockYearEnd(c: int, q: int, r: int, delta: int, j: int)
    requires 0 <= c <= 3 && 0 <= q <= 24 && 0 <= r < 1461
    requires 1461 * q + r < 36524 && 36524 * c + 1461 * q + r < 146096
    requires delta == (if 24 * c + q + r >= 1460 then 1 else 0) && j == (r - delta) / 365
    requires 0 <= j <= 3
    ensures 36524 * c + 1461 * q + r < MarchStart(100 * c + 4 * q + j + 1)
  {
    var y := 100 * c + 4 * q + j + 1;
    if j < 3 {
      assert y / 4 == 25 * c + q && y / 100 == c && y / 400 == 0;
    } else if q < 24 {
      assert y / 4 == 25 * c + q + 1 && y / 100 == c && y / 400 == 0;
    } else if c < 3 {
      assert y / 4 == 25 * c + q + 1 && y / 100 == c + 1 && y / 400 == 0;
    } else {
      assert y == 400;
    }
  }

  /** The era and day of era that `YearOf` computes, and its result in
      their terms. */
  lemma YearOfUnfolded(day: int) returns (era: int, doe: int)
    ensures day + 719468 == 146097 * era + doe && 0 <= doe < 146097
    ensures var yoe := YearOfEra(doe); var doy := doe - (365 * yoe + yoe / 4 - yoe / 100);
      YearOf(day) == 400 * era + yoe + (if doy >= 306 then 1 else 0)
  {
    era := (day + 719468) / 146097;
    doe := day + 719468 - era * 146097;
    var yoe := YearOfEra(doe);
    DayOfYearRange(doe);
    JanuaryFebruaryCut(doe - (365 * yoe + yoe / 4 - yoe / 100));
  }

  lemma DayOfYearRange(doe: int)
    requires 0 <= doe < 146097
    ensures var yoe := YearOfEra(doe); 0 <= doe - (365 * yoe + yoe / 4 - yoe / 100) < 366
  {
    YearOfEraBounds(doe);
    MarchStartStep(YearOfEra(doe));
  }

  /** Day 306 of a March-based year onwards is January or February. */
  lemma JanuaryFebruaryCut(doy: int)
    requires 0 <= doy < 366
    ensures var mp := (5 * doy + 2) / 153;
      (if mp < 10 then mp + 3 else mp - 9) <= 2 <==> doy >= 306
  {
  }

  /** The March-based year of a day, and the day's place in it. */
  lemma EraMarchYear(era: int, doe: int) returns (y0: int, doy: int)
    requires 0 <= doe < 146097
    ensures y0 == 400 * era + YearOfEra(doe) && doy == doe - (365 * YearOfEra(doe) + YearOfEra(doe) / 4 - YearOfEra(doe) / 100)
    ensures 0 <= doy && MarchStart(y0) + doy == 146097 * era + doe && 146097 * era + doe < MarchStart(y0 + 1)
  {
    var yoe := YearOfEra(doe);
    YearOfEraBounds(doe);
    doy := doe - (365 * yoe + yoe / 4 - yoe / 100);
    MarchStartShift(era, yoe);
    MarchStartShift(era, yoe + 1);
    y0 := 400 * era + yoe;
  }

  /** From the March-based year to the calendar year. */
  lemma MarchToJanuary(y0: int, doy: int, day: int, y: int)
    requires 0 <= doy && MarchStart(y0) + doy == day + 719468 && day + 719468 < MarchStart(y0 + 1)
    requires y == y0 + (if doy >= 306 then 1 else 0)
    ensures YearStart(y) <= day < YearStart(y + 1)
  {
    YearStartFromMarch(y);
    YearStartFromMarch(y + 1);
    if doy < 306 {
      MarchStartStep(y0 - 1);
    }
  }
}

=== FILE: crossfeed.dfy ===
/**
 The cross-feed de-duplicator: three passes that drop brokerage
 transactions already present in the registry's sales export, matched
 first by date, then by address, then (for fractional units) by unit code.
 Each pass only removes rows; a pass returns `None` when the source raises.
 */
module CrossFeed {
  import opened Text
  import opened PyValue
  import opened Stats
  import opened Tables
  import opened Calendar

  /** One row of the registry's sales export as the de-duplicator reads it. */
  datatype Recorded = Recorded(
    registration: Option<int>,
    acquisition: Option<int>,
    price: int,
    assessment: string,
    address: string,
    propertyType: Value)

  /** `series == date`: NaT equals nothing. */
  predicate SameDay(d: Option<int>, t: Option<int>) { d.Some? && d == t }

  /** The assessment number as text, `astype(str)` after `fillna(0)`. */
  function NumberText(t: Transaction): string {
    ToStr(FillNull(t.assessment, Int(0)))
  }

  /** The date pass rewrites the assessment column to that text. */
  function WithTextNumber(t: Transaction): (r: Transaction)
    ensures r.(assessment := t.assessment) == t
    ensures NumberText(r) == NumberText(t)
  {
    t.(assessment := Str(NumberText(t)))
  }

  function WithTextNumbers(rows: seq<Transaction>): (out: seq<Transaction>)
    ensures |out| == |rows|
    ensures forall i :: 0 <= i < |rows| ==> out[i] == WithTextNumber(rows[i])
  {
    seq(|rows|, i requires 0 <= i < |rows| => WithTextNumber(rows[i]))
  }

  /** The address the transaction feed's row spells out for fuzzy matching. */
  function SpelledAddress(t: Transaction): string {
    ToStr(t.buildingName) + ", " + ToStr(t.addressLine) + ", " + ToStr(t.parish) + " " + ToStr(t.postcode) + ", Bermuda"
  }

  // ---------------------------------------------------------------------
  // Date pass
  // ---------------------------------------------------------------------

  /** Registry rows registered or acquired on the transaction's date. */
  function OnDate(sa: seq<Recorded>, date: Option<int>): (m: seq<Recorded>)
    ensures forall a :: 0 <= a < |m| ==> m[a] in sa && (SameDay(m[a].registration, date) || SameDay(m[a].acquisition, date))
    ensures forall r :: r in sa && (SameDay(r.registration, date) || SameDay(r.acquisition, date)) ==> r in m
  {
    Filter(sa, (r: Recorded) => SameDay(r.registration, date) || SameDay(r.acquisition, date))
  }

  /** Registry rows at exactly this price. */
  function AtPrice(rs: seq<Recorded>, p: int): (m: seq<Recorded>)
    ensures forall a :: 0 <= a < |m| ==> m[a] in rs && m[a].price == p
  {
    Filter(rs, (r: Recorded) => r.price == p)
  }

  /** Registry rows strictly within five per cent of the price. */
  function NearPrice(rs: seq<Recorded>, p: int): (m: seq<Recorded>)
    ensures forall a :: 0 <= a < |m| ==> m[a] in rs && 95 * p < 100 * m[a].price < 105 * p
  {
    Filter(rs, (r: Recorded) => 95 * p < 100 * r.price < 105 * p)
  }

  /** Registry rows whose assessment text contains the number text. */
  function HoldingNumber(rs: seq<Recorded>, an: string): (m: seq<Recorded>)
    ensures forall a :: 0 <= a < |m| ==> m[a] in rs && Contains(m[a].assessment, an)
  {
    Filter(rs, (r: Recorded) => Contains(r.assessment, an))
  }

  /** The date and price match one registry row: drop when its assessment
      holds the number, and for a number of `"0"` only when the addresses
      match too. */
  predicate PriceAndNumber(ratio: Similarity, t: Transaction, pm: seq<Recorded>) {
    var an := NumberText(t);
    var am := HoldingNumber(pm, an);
    if |am| == 1 && an != "0" then true
    else if |am| == 1 then FuzzyAddressMatch(ratio, SpelledAddress(t), am[0].address).ok
    else false
  }

  /** The loop body of `date_filter_for_sss_LTRO_duplicates`: is this
      transaction a registry sale already? */
  predicate DateDuplicate(ratio: Similarity, sa: seq<Recorded>, t: Transaction) {
    var an := NumberText(t);
    var dm := OnDate(sa, t.date);
    var pm := AtPrice(dm, t.price);
    if |dm| == 1 then
      if |pm| == 1 then PriceAndNumber(ratio, t, pm)
      else if |pm| == 0 then
        |NearPrice(dm, t.price)| == 1 && |HoldingNumber(dm, an)| == 1 && an != "0"
      else false
    else if |dm| > 1 then
      if |pm| == 1 then PriceAndNumber(ratio, t, pm)
      else if |pm| > 1 then |HoldingNumber(pm, an)| == 1 && an != "0"
      else
        var ap := NearPrice(dm, t.price);
        if |ap| == 1 && |HoldingNumber(dm, an)| == 1 && an != "0" then true
        else if |ap| > 1 then |HoldingNumber(ap, an)| == 1
        else false
    else false
  }

  /** `date_filter_for_sss_LTRO_duplicates(df, sa)`: the assessment column
      becomes text, then every registry duplicate is dropped. */
  function DateFilter(ratio: Similarity, sa: seq<Recorded>, rows: seq<Transaction>): (out: seq<Transaction>)
    ensures SubsequenceOf(out, WithTextNumbers(rows))
    ensures forall a :: 0 <= a < |out| ==> !DateDuplicate(ratio, sa, out[a])
    ensures forall i :: 0 <= i < |rows| && !DateDuplicate(ratio, sa, WithTextNumber(rows[i])) ==> WithTextNumber(rows[i]) in out
  {
    FilterIsSubsequence(WithTextNumbers(rows), (t: Transaction) => !DateDuplicate(ratio, sa, t));
    Filter(WithTextNumbers(rows), (t: Transaction) => !DateDuplicate(ratio, sa, t))
  }

  /** The date pass drops a transaction only when some registry sale was
      registered or acquired on its date. */
  lemma DateDuplicateNeedsSameDay(ratio: Similarity, sa: seq<Recorded>, t: Transaction)
    requires DateDuplicate(ratio, sa, t)
    ensures exists r :: r in sa && (SameDay(r.registration, t.date) || SameDay(r.acquisition, t.date))
  {
    var dm := OnDate(sa, t.date);
    assert dm[0] in sa;
  }

  /** The date-and-price rule: a transaction is dropped only when exactly
      one registry row at its date and price holds its number text, and
      with a real number that is enough. */
  lemma PriceAndNumberExact(ratio: Similarity, t: Transaction, pm: seq<Recorded>)
    ensures PriceAndNumber(ratio, t, pm) ==> |HoldingNumber(pm, NumberText(t))| == 1
    ensures |HoldingNumber(pm, NumberText(t))| == 1 && NumberText(t) != "0" ==> PriceAndNumber(ratio, t, pm)
  {
  }

  /** A registry row registered or acquired on the date. */
  predicate RecordedOn(r: Recorded, date: Option<int>) {
    SameDay(r.registration, date) || SameDay(r.acquisition, date)
  }

  /** The date pass drops a transaction only on evidence from the registry
      rows of its date: one holds its number text, and one has its price or
      a price strictly within five per cent of it. */
  lemma DateDuplicateEvidence(ratio: Similarity, sa: seq<Recorded>, t: Transaction)
    requires DateDuplicate(ratio, sa, t)
    ensures exists r :: r in sa && RecordedOn(r, t.date) && Contains(r.assessment, NumberText(t))
    ensures exists r :: r in sa && RecordedOn(r, t.date) && (r.price == t.price || 95 * t.price < 100 * r.price < 105 * t.price)
  {
    var an := NumberText(t);
    var dm := OnDate(sa, t.date);
    var pm := AtPrice(dm, t.price);
    var ap := NearPrice(dm, t.price);
    if |pm| >= 1 && |HoldingNumber(pm, an)| == 1 {
      var r := HoldingNumber(pm, an)[0];
      assert r in pm && r in dm;
    } else if |pm| == 0 && |ap| == 1 && |HoldingNumber(dm, an)| == 1 {
      var r := HoldingNumber(dm, an)[0];
      assert r in dm;
      assert ap[0] in dm;
    } else {
      PriceAndNumberExact(ratio, t, pm);
      var r := HoldingNumber(ap, an)[0];
      assert r in ap && r in dm;
    }
  }

  /** The single-match rule: when one registry row was registered or
      acquired on the date, has the same price and holds the real number
      text, the transaction is dropped. */
  lemma SingleMatchDropped(ratio: Similarity, sa: seq<Recorded>, t: Transaction)
    requires |OnDate(sa, t.date)| == 1
    requires OnDate(sa, t.date)[0].price == t.price
    requires Contains(OnDate(sa, t.date)[0].assessment, NumberText(t)) && NumberText(t) != "0"
    ensures DateDuplicate(ratio, sa, t)
  {
    var dm := OnDate(sa, t.date);
    assert dm == [dm[0]];
    assert AtPrice(dm, t.price) == dm;
    assert HoldingNumber(dm, NumberText(t)) == dm;
  }

  /** When one registry sale shares the date and the price and the number
      text is `"0"`, the transaction is dropped only if the fuzzy address
      match accepts that sale's address. */
  lemma ZeroNumberNeedsAddress(ratio: Similarity, sa: seq<Recorded>, t: Transaction)
    requires NumberText(t) == "0"
    requires |OnDate(sa, t.date)| == 1 && |AtPrice(OnDate(sa, t.date), t.price)| == 1
    requires DateDuplicate(ratio, sa, t)
    ensures var am := HoldingNumber(AtPrice(OnDate(sa, t.date), t.price), "0");
      |am| == 1 && FuzzyAddressMatch(ratio, SpelledAddress(t), am[0].address).ok
  {
  }

  // ---------------------------------------------------------------------
  // Address pass
  // ---------------------------------------------------------------------

  /** `sa[sa.address.str.contains(p, regex=False) & ...]` for every pattern
      `p`; `None` when a pattern is not a string and there is a row to test
      it on. */
  function ContainingAll(rs: seq<Recorded>, pats: seq<Value>): (m: Option<seq<Recorded>>)
    ensures m.None? <==> |rs| > 0 && exists k :: 0 <= k < |pats| && !pats[k].Str?
    ensures m.Some? ==> forall a :: 0 <= a < |m.value| ==>
      m.value[a] in rs && forall k :: 0 <= k < |pats| ==> pats[k].Str? && Contains(m.value[a].address, pats[k].s)
    ensures m.Some? ==> forall r :: r in rs && (forall k :: 0 <= k < |pats| ==> pats[k].Str? && Contains(r.address, pats[k].s)) ==> r in m.value
  {
    if |rs| == 0 then Some([])
    else if exists k :: 0 <= k < |pats| && !pats[k].Str? then None
    else Some(Filter(rs, (r: Recorded) => forall k :: 0 <= k < |pats| ==> pats[k].Str? && Contains(r.address, pats[k].s)))
  }

  /** Registry dates within a calendar year of the transaction's, either way. */
  predicate YearNear(d: Option<int>, t: Option<int>) {
    d.Some? && t.Some? && -1 <= YearOf(d.value) - YearOf(t.value) <= 1
  }

  /** Registry rows of nearby years and within ten per cent of the price. */
  function NearYearAndPrice(rs: seq<Recorded>, t: Transaction): (m: seq<Recorded>)
    ensures forall a :: 0 <= a < |m| ==> m[a] in rs && 90 * t.price <= 100 * m[a].price <= 110 * t.price
  {
    Filter(rs, (r: Recorded) => (YearNear(r.registration, t.date) || YearNear(r.acquisition, t.date)) &&
                    90 * t.price <= 100 * r.price <= 110 * t.price)
  }

  /** The address the fuzzy fallback searches for, or `None` when the
      source sets it to `0`. */
  function FallbackAddress(t: Transaction): Option<string> {
    if !EqInt(t.addressLine, 0) && !EqInt(t.buildingName, 0) then
      Some(ToStr(t.buildingName) + ", " + ToStr(t.addressLine) + ", " + ToStr(t.parish) + " " + ToStr(t.postcode))
    else if EqInt(t.buildingName, 0) then
      Some(ToStr(t.addressLine) + ", " + ToStr(t.parish) + " " + ToStr(t.postcode))
    else None
  }

  /** The loop body of `address_filter_for_sss_LTRO_duplicates`; `None`
      when the source raises (a non-text pattern, or indexing the bare
      `False` that `are_dates_close` returns when the registry row has
      neither date). */
  function AddressDuplicate(ratio: Similarity, sa: seq<Recorded>, t: Transaction): (d: Option<bool>)
    ensures (d == Some(true) && !EqInt(t.addressLine, 0) && !EqInt(t.buildingName, 0) &&
             ContainingAll(sa, [t.addressLine, t.buildingName]) == Some([])) ==> (
      && FallbackAddress(t).Some?
      && var fm := Filter(sa, (r: Recorded) => AreAddressesClose(ratio, FallbackAddress(t).value, r.address));
         && |fm| == 1
         && var dc := AreDatesClose(t.date, fm[0].registration, fm[0].acquisition);
            dc.Gap? && dc.close)
  {
    var both := !EqInt(t.addressLine, 0) && !EqInt(t.buildingName, 0);
    var m := if both then ContainingAll(sa, [t.addressLine, t.buildingName]) else Some([]);
    if m.None? then None
    else if |m.value| == 1 then
      var r := m.value[0];
      var dc := AreDatesClose(t.date, r.registration, r.acquisition);
      if dc.Bare? then None
      else if dc.close then Some(ArePricesClose(t.price, r.price).close)
      else Some(ArePricesClose(t.price, r.price).diff <= 6000)
    else if |m.value| > 1 then
      Some(|NearYearAndPrice(m.value, t)| == 1)
    else
      var q := FallbackAddress(t);
      if q.None? then Some(false)
      else
        var fm := Filter(sa, (r: Recorded) => AreAddressesClose(ratio, q.value, r.address));
        if |fm| == 1 then
          var dc := AreDatesClose(t.date, fm[0].registration, fm[0].acquisition);
          if dc.Bare? then None else Some(dc.close)
        else Some(false)
  }

  /** In the fuzzy fallback the price plays no part: the source tests the
      truth of the price verdict pair, which is always true. Two transactions
      that differ only in price get the same decision. */
  lemma FallbackIgnoresPrice(ratio: Similarity, sa: seq<Recorded>, t: Transaction, p: int)
    requires !EqInt(t.addressLine, 0) && !EqInt(t.buildingName, 0)
    requires ContainingAll(sa, [t.addressLine, t.buildingName]) == Some([])
    ensures AddressDuplicate(ratio, sa, t.(price := p)) == AddressDuplicate(ratio, sa, t)
  {
    assert FallbackAddress(t.(price := p)) == FallbackAddress(t);
  }

  /** A single partial address match with dates far apart is dropped only
      when the prices are within 6,000 of each other. */
  lemma FarDatesNeedNearPrice(ratio: Similarity, sa: seq<Recorded>, t: Transaction)
    requires !EqInt(t.addressLine, 0) && !EqInt(t.buildingName, 0)
    requires var m := ContainingAll(sa, [t.addressLine, t.buildingName]);
      m.Some? && |m.value| == 1 && !AreDatesClose(t.date, m.value[0].registration, m.value[0].acquisition).Bare? &&
      !AreDatesClose(t.date, m.value[0].registration, m.value[0].acquisition).close
    requires AddressDuplicate(ratio, sa, t) == Some(true)
    ensures var r := ContainingAll(sa, [t.addressLine, t.buildingName]).value[0];
      Abs(t.price - r.price) <= 6000
  {
  }

  // ---------------------------------------------------------------------
  // Fractional pass
  // ---------------------------------------------------------------------

  /** The registry's fractional rows. */
  function FractionalRecords(sa: seq<Recorded>): (m: seq<Recorded>)
    ensures forall a :: 0 <= a < |m| ==> m[a] in sa && EqStr(m[a].propertyType, "fractional")
  {
    Filter(sa, (r: Recorded) => EqStr(r.propertyType, "fractional"))
  }

  /** The registry fractional rows a transaction's address and unit codes
      select; `None` when the source raises. At most two codes are used;
      with more the selection is empty. */
  function UnitMatches(sa: seq<Recorded>, t: Transaction): (m: Option<seq<Recorded>>)
    requires t.buildingName.Str?
    ensures |UnitCodes(t.buildingName.s, 0)| > 2 ==> m == Some([])
  {
    var fr := FractionalRecords(sa);
    var codes := UnitCodes(t.buildingName.s, 0);
    if |codes| == 0 then ContainingAll(fr, [t.addressLine, t.buildingName])
    else if |codes| == 1 then ContainingAll(fr, [t.addressLine, Str(codes[0])])
    else if |codes| == 2 then ContainingAll(fr, [t.addressLine, Str(codes[0]), Str(codes[1])])
    else Some([])
  }

  /** The loop body of `fractional_filter_for_sss_LTRO_duplicates`;
      rows not typed fractional are never dropped, and `None` when the
      source raises (a building name that is not text, or a non-text address). */
  function FractionalDuplicate(sa: seq<Recorded>, t: Transaction): (d: Option<bool>)
    ensures !EqStr(t.propertyType, "fractional") ==> d == Some(false)
    ensures d == Some(true) ==> t.buildingName.Str? && |UnitCodes(t.buildingName.s, 0)| <= 2
  {
    if !EqStr(t.propertyType, "fractional") then Some(false)
    else if !t.buildingName.Str? then None
    else
      var m := UnitMatches(sa, t);
      if m.None? then None
      else if |m.value| == 1 && m.value[0].price == t.price then Some(true)
      else if |m.value| > 1 && 95 * t.price <= 100 * m.value[0].price <= 105 * t.price then Some(true)
      else Some(false)
  }

  /** A unique unit match needs the same price; several need the first
      within five per cent. */
  lemma FractionalPriceRule(sa: seq<Recorded>, t: Transaction)
    requires FractionalDuplicate(sa, t) == Some(true)
    ensures var m := UnitMatches(sa, t).value;
      (|m| == 1 && m[0].price == t.price) || (|m| > 1 && 95 * t.price <= 100 * m[0].price <= 105 * t.price)
  {
  }

  // ---------------------------------------------------------------------
  // Dropping
  // ---------------------------------------------------------------------

  /** `df.drop(indexes_of_matches_to_delete)` after a loop whose body may raise. */
  function DropMarked(rows: seq<Transaction>, decide: Transaction -> Option<bool>): (out: Option<seq<Transaction>>)
    ensures out.None? <==> exists i :: 0 <= i < |rows| && decide(rows[i]).None?
    ensures out.Some? ==> SubsequenceOf(out.value, rows)
    ensures out.Some? ==> forall a :: 0 <= a < |out.value| ==> decide(out.value[a]) == Some(false)
    ensures out.Some? ==> forall i :: 0 <= i < |rows| && decide(rows[i]) == Some(false) ==> rows[i] in out.value
  {
    if exists i :: 0 <= i < |rows| && decide(rows[i]).None? then None
    else
      FilterIsSubsequence(rows, (t: Transaction) => decide(t) == Some(false));
      Some(Filter(rows, (t: Transaction) => decide(t) == Some(false)))
  }

  /** The address pass over a table: it raises when the decision raises on
      some row, and otherwise keeps exactly the rows it does not match. */
  function AddressFilter(ratio: Similarity, sa: seq<Recorded>, rows: seq<Transaction>): (out: Option<seq<Transaction>>)
    ensures out.None? <==> exists i :: 0 <= i < |rows| && AddressDuplicate(ratio, sa, rows[i]).None?
    ensures out.Some? ==> SubsequenceOf(out.value, rows)
    ensures out.Some? ==> forall a :: 0 <= a < |out.value| ==> AddressDuplicate(ratio, sa, out.value[a]) == Some(false)
    ensures out.Some? ==> forall i :: 0 <= i < |rows| && AddressDuplicate(ratio, sa, rows[i]) == Some(false) ==> rows[i] in out.value
  {
    DropMarked(rows, (t: Transaction) => AddressDuplicate(ratio, sa, t))
  }

  /** The fractional pass over a table: it raises when the decision raises
      on some row, and otherwise keeps exactly the rows it does not match;
      rows not typed fractional, and rows whose building name yields more
      than two unit codes, always stay. */
  function FractionalFilter(sa: seq<Recorded>, rows: seq<Transaction>): (out: Option<seq<Transaction>>)
    ensures out.None? <==> exists i :: 0 <= i < |rows| && FractionalDuplicate(sa, rows[i]).None?
    ensures out.Some? ==> SubsequenceOf(out.value, rows)
    ensures out.Some? ==> forall a :: 0 <= a < |out.value| ==> FractionalDuplicate(sa, out.value[a]) == Some(false)
    ensures out.Some? ==> forall i :: 0 <= i < |rows| && FractionalDuplicate(sa, rows[i]) == Some(false) ==> rows[i] in out.value
    ensures out.Some? ==> forall i :: 0 <= i < |rows| && !EqStr(rows[i].propertyType, "fractional") ==> rows[i] in out.value
    ensures out.Some? ==> forall i :: 0 <= i < |rows| && rows[i].buildingName.Str? && |UnitCodes(rows[i].buildingName.s, 0)| > 2 ==>
      rows[i] in out.value
  {
    DropMarked(rows, (t: Transaction) => FractionalDuplicate(sa, t))
  }

  /** A transaction no pass takes for a registry sale. */
  predicate CrossFeedNew(ratio: Similarity, sa: seq<Recorded>, t: Transaction) {
    && !DateDuplicate(ratio, sa, t)
    && AddressDuplicate(ratio, sa, t) == Some(false)
    && FractionalDuplicate(sa, t) == Some(false)
  }

  /** A transaction on which the passes raise: it survives the date pass
      and then the address decision raises, or the address pass keeps it
      and the fractional decision raises. */
  predicate CascadeRaises(ratio: Similarity, sa: seq<Recorded>, t: Transaction) {
    && !DateDuplicate(ratio, sa, t)
    && (|| AddressDuplicate(ratio, sa, t).None?
        || (AddressDuplicate(ratio, sa, t) == Some(false) && FractionalDuplicate(sa, t).None?))
  }

  /** The three passes in the order the pipeline runs them, each on the
      survivors of the one before: they raise exactly when some transaction
      raises, and otherwise keep exactly the new transactions. */
  function Cascade(ratio: Similarity, sa: seq<Recorded>, rows: seq<Transaction>): (out: Option<seq<Transaction>>)
    ensures out.None? <==> exists i :: 0 <= i < |rows| && CascadeRaises(ratio, sa, WithTextNumber(rows[i]))
    ensures out.Some? ==> SubsequenceOf(out.value, WithTextNumbers(rows))
    ensures out.Some? ==> forall a :: 0 <= a < |out.value| ==> CrossFeedNew(ratio, sa, out.value[a])
    ensures out.Some? ==> forall i :: 0 <= i < |rows| && CrossFeedNew(ratio, sa, WithTextNumber(rows[i])) ==>
      WithTextNumber(rows[i]) in out.value
  {
    var d := DateFilter(ratio, sa, rows);
    var a := AddressFilter(ratio, sa, d);
    CascadeRaisesExactly(ratio, sa, rows);
    if a.None? then None
    else
      var f := FractionalFilter(sa, a.value);
      if f.None? then None
      else
        SubsequenceTransitive(f.value, a.value, d);
        SubsequenceTransitive(f.value, d, WithTextNumbers(rows));
        SubsequenceMembers(f.value, a.value);
        SubsequenceMembers(f.value, d);
        CascadeKeepsNew(ratio, sa, rows);
        f
  }

  /** A survivor of the date pass is a transaction of the input, with its
      number as text, that the pass does not match. */
  lemma DateSurvivor(ratio: Similarity, sa: seq<Recorded>, rows: seq<Transaction>, k: nat)
    requires k < |DateFilter(ratio, sa, rows)|
    ensures var t := DateFilter(ratio, sa, rows)[k];
      !DateDuplicate(ratio, sa, t) && exists i :: 0 <= i < |rows| && t == WithTextNumber(rows[i])
  {
    var d := DateFilter(ratio, sa, rows);
    SubsequenceMembers(d, WithTextNumbers(rows));
    var w := WithTextNumbers(rows);
    var i :| 0 <= i < |w| && w[i] == d[k];
  }

  /** The passes raise exactly when some transaction raises. */
  lemma CascadeRaisesExactly(ratio: Similarity, sa: seq<Recorded>, rows: seq<Transaction>)
    ensures var d := DateFilter(ratio, sa, rows);
      var a := AddressFilter(ratio, sa, d);
      (a.None? || FractionalFilter(sa, a.value).None?) <==>
        exists i :: 0 <= i < |rows| && CascadeRaises(ratio, sa, WithTextNumber(rows[i]))
  {
    var d := DateFilter(ratio, sa, rows);
    var a := AddressFilter(ratio, sa, d);
    if a.None? {
      AddressRaises(ratio, sa, rows);
    } else if FractionalFilter(sa, a.value).None? {
      FractionalRaises(ratio, sa, rows);
    } else if i :| 0 <= i < |rows| && CascadeRaises(ratio, sa, WithTextNumber(rows[i])) {
      NoPassRaises(ratio, sa, rows, i);
    }
  }

  lemma AddressRaises(ratio: Similarity, sa: seq<Recorded>, rows: seq<Transaction>)
    requires AddressFilter(ratio, sa, DateFilter(ratio, sa, rows)).None?
    ensures exists i :: 0 <= i < |rows| && CascadeRaises(ratio, sa, WithTextNumber(rows[i]))
  {
    var d := DateFilter(ratio, sa, rows);
    var k :| 0 <= k < |d| && AddressDuplicate(ratio, sa, d[k]).None?;
    DateSurvivor(ratio, sa, rows, k);
    var i :| 0 <= i < |rows| && d[k] == WithTextNumber(rows[i]);
    assert CascadeRaises(ratio, sa, WithTextNumber(rows[i]));
  }

  lemma FractionalRaises(ratio: Similarity, sa: seq<Recorded>, rows: seq<Transaction>)
    requires AddressFilter(ratio, sa, DateFilter(ratio, sa, rows)).Some?
    requires FractionalFilter(sa, AddressFilter(ratio, sa, DateFilter(ratio, sa, rows)).value).None?
    ensures exists i :: 0 <= i < |rows| && CascadeRaises(ratio, sa, WithTextNumber(rows[i]))
  {
    var a := AddressFilter(ratio, sa, DateFilter(ratio, sa, rows)).value;
    var m :| 0 <= m < |a| && FractionalDuplicate(sa, a[m]).None?;
    AddressSurvivor(ratio, sa, rows, m);
    var i :| 0 <= i < |rows| && a[m] == WithTextNumber(rows[i]);
    assert CascadeRaises(ratio, sa, WithTextNumber(rows[i]));
  }

  /** A survivor of the address pass is a transaction of the input, with
      its number as text, that neither the date nor the address pass
      matches. */
  lemma AddressSurvivor(ratio: Similarity, sa: seq<Recorded>, rows: seq<Transaction>, m: nat)
    requires AddressFilter(ratio, sa, DateFilter(ratio, sa, rows)).Some?
    requires m < |AddressFilter(ratio, sa, DateFilter(ratio, sa, rows)).value|
    ensures var t := AddressFilter(ratio, sa, DateFilter(ratio, sa, rows)).value[m];
      && !DateDuplicate(ratio, sa, t) && AddressDuplicate(ratio, sa, t) == Some(false)
      && exists i :: 0 <= i < |rows| && t == WithTextNumber(rows[i])
  {
    var d := DateFilter(ratio, sa, rows);
    var a := AddressFilter(ratio, sa, d).value;
    assert AddressDuplicate(ratio, sa, a[m]) == Some(false);
    SubsequenceMembers(a, d);
    var k :| 0 <= k < |d| && d[k] == a[m];
    DateSurvivor(ratio, sa, rows, k);
  }

  lemma NoPassRaises(ratio: Similarity, sa: seq<Recorded>, rows: seq<Transaction>, i: nat)
    requires i < |rows| && CascadeRaises(ratio, sa, WithTextNumber(rows[i]))
    requires AddressFilter(ratio, sa, DateFilter(ratio, sa, rows)).Some?
    ensures FractionalFilter(sa, AddressFilter(ratio, sa, DateFilter(ratio, sa, rows)).value).None?
  {
    var d := DateFilter(ratio, sa, rows);
    var t := WithTextNumber(rows[i]);
    assert t in d;
    var k :| 0 <= k < |d| && d[k] == t;
    assert AddressDuplicate(ratio, sa, t) == Some(false);
    var a := AddressFilter(ratio, sa, d).value;
    assert t in a;
    var m :| 0 <= m < |a| && a[m] == t;
  }

  /** Every new transaction survives all three passes. */
  lemma CascadeKeepsNew(ratio: Similarity, sa: seq<Recorded>, rows: seq<Transaction>)
    requires AddressFilter(ratio, sa, DateFilter(ratio, sa, rows)).Some?
    requires FractionalFilter(sa, AddressFilter(ratio, sa, DateFilter(ratio, sa, rows)).value).Some?
    ensures forall i :: 0 <= i < |rows| && CrossFeedNew(ratio, sa, WithTextNumber(rows[i])) ==>
      WithTextNumber(rows[i]) in FractionalFilter(sa, AddressFilter(ratio, sa, DateFilter(ratio, sa, rows)).value).value
  {
    var d := DateFilter(ratio, sa, rows);
    var a := AddressFilter(ratio, sa, d).value;
    forall i | 0 <= i < |rows| && CrossFeedNew(ratio, sa, WithTextNumber(rows[i]))
      ensures WithTextNumber(rows[i]) in FractionalFilter(sa, a).value
    {
      var t := WithTextNumber(rows[i]);
      assert t in d;
      assert t in a;
    }
  }
}

=== FILE: duplicates.dfy ===
/**
 Consolidation of registry rows that share an application number.

 Rows are identified by their position in the table. The rows sharing one
 application number form a group; the group is handled once, when its
 first member is reached, and the decision depends only on the group's
 own cells:

 - every member has an assessment number: all members but the first are
   dropped, and every member receives the comma-joined first code of each
   member;
 - a number is missing and some member is fractional: only the first
   fractional member survives;
 - no member has a number: the first member whose assessment text is
   "unknown" is dropped, else the first whose text is "0"; otherwise the
   group drops nothing new (the source re-uses the deletion list left by an
   earlier group, and raises if there is none);
 - otherwise exactly the members without a number are dropped.
 */
module Duplicates {
  import opened Text
  import opened PyValue
  import opened Assessment
  import opened Registry

  // ---------------------------------------------------------------------
  // Groups
  // ---------------------------------------------------------------------

  /** The positions at or after `k` whose application number is `a`, in order. */
  function MembersFrom(rows: seq<Sale>, a: Value, k: nat): (g: seq<nat>)
    requires k <= |rows|
    ensures forall m :: 0 <= m < |g| ==> k <= g[m] < |rows| && rows[g[m]].application == a
    ensures forall j :: k <= j < |rows| && rows[j].application == a ==> j in g
    ensures forall m, n :: 0 <= m < n < |g| ==> g[m] < g[n]
    decreases |rows| - k
  {
    if k == |rows| then []
    else if rows[k].application == a then [k] + MembersFrom(rows, a, k + 1)
    else MembersFrom(rows, a, k + 1)
  }

  /** The positions of the rows with application number `a`. */
  function Members(rows: seq<Sale>, a: Value): (g: seq<nat>)
    ensures forall m :: 0 <= m < |g| ==> g[m] < |rows| && rows[g[m]].application == a
    ensures forall j :: 0 <= j < |rows| && rows[j].application == a ==> j in g
    ensures forall m, n :: 0 <= m < n < |g| ==> g[m] < g[n]
  {
    MembersFrom(rows, a, 0)
  }

  /** The group of the row at `i`. */
  function GroupOf(rows: seq<Sale>, i: nat): (g: seq<nat>)
    requires i < |rows|
    ensures i in g && |g| >= 1
  {
    Members(rows, rows[i].application)
  }

  /** `application_number.duplicated(keep=False)` */
  predicate Duplicated(rows: seq<Sale>, i: nat)
    requires i < |rows|
  {
    |GroupOf(rows, i)| >= 2
  }

  /** The first position of the row's group: where the group is handled. */
  function Head(rows: seq<Sale>, i: nat): (h: nat)
    requires i < |rows|
    ensures h <= i && h < |rows| && rows[h].application == rows[i].application
  {
    var g := GroupOf(rows, i);
    var m :| 0 <= m < |g| && g[m] == i;
    assert m > 0 ==> g[0] < g[m];
    g[0]
  }

  predicate ValidGroup(rows: seq<Sale>, g: seq<nat>) {
    forall m :: 0 <= m < |g| ==> g[m] < |rows|
  }

  // ---------------------------------------------------------------------
  // The decision for one group
  // ---------------------------------------------------------------------

  /** `xs.index(x)`, or `|xs|` when `x` is absent. */
  function IndexOf<T(==)>(xs: seq<T>, x: T): (k: nat)
    ensures k <= |xs|
    ensures k < |xs| ==> xs[k] == x
    ensures forall m :: 0 <= m < k ==> xs[m] != x
    ensures k == |xs| <==> x !in xs
  {
    if |xs| == 0 then 0
    else if xs[0] == x then 0
    else 1 + IndexOf(xs[1..], x)
  }

  /** What handling one group does: the positions it marks for deletion,
      whether it binds the re-used deletion list, whether it falls back on
      that list, and the joined assessment text it writes, if any. */
  datatype Outcome = Outcome(deleted: set<nat>, bindsList: bool, reusesList: bool, joined: Option<string>)

  function Numbers(rows: seq<Sale>, g: seq<nat>): (an: seq<Option<seq<string>>>)
    requires ValidGroup(rows, g)
    ensures |an| == |g|
    ensures forall m :: 0 <= m < |g| ==> an[m] == GetAssessmentNumber(rows[g[m]].assessment)
  {
    seq(|g|, m requires 0 <= m < |g| => GetAssessmentNumber(rows[g[m]].assessment))
  }

  function Types(rows: seq<Sale>, g: seq<nat>): (ts: seq<Value>)
    requires ValidGroup(rows, g)
    ensures |ts| == |g|
    ensures forall m :: 0 <= m < |g| ==> ts[m] == rows[g[m]].propertyType
  {
    seq(|g|, m requires 0 <= m < |g| => rows[g[m]].propertyType)
  }

  /** `[str(x).lower() for x in assessment_number_list]` over the group */
  function AssessmentTexts(rows: seq<Sale>, g: seq<nat>): (ts: seq<string>)
    requires ValidGroup(rows, g)
    ensures |ts| == |g|
    ensures forall m :: 0 <= m < |g| ==> ts[m] == LowerStr(rows[g[m]].assessment)
  {
    seq(|g|, m requires 0 <= m < |g| => LowerStr(rows[g[m]].assessment))
  }

  /** `','.join([x[0] for x in an])` */
  function JoinedCodes(an: seq<Option<seq<string>>>): string
    requires forall m :: 0 <= m < |an| ==> an[m].Some? && |an[m].value| > 0
  {
    Join(seq(|an|, m requires 0 <= m < |an| => an[m].value[0]), ",")
  }

  predicate AllNumbered(rows: seq<Sale>, g: seq<nat>)
    requires ValidGroup(rows, g)
  {
    forall m :: 0 <= m < |g| ==> HasAssessment(rows[g[m]].assessment)
  }

  /** The joined first codes of a group whose members all have a number. */
  function GroupCodes(rows: seq<Sale>, g: seq<nat>): string
    requires ValidGroup(rows, g) && AllNumbered(rows, g)
  {
    JoinedCodes(Numbers(rows, g))
  }

  predicate NoneNumbered(rows: seq<Sale>, g: seq<nat>)
    requires ValidGroup(rows, g)
  {
    forall m :: 0 <= m < |g| ==> !HasAssessment(rows[g[m]].assessment)
  }

  /** The members of `g` other than the one at index `keep`. */
  function AllBut(g: seq<nat>, keep: int): (s: set<nat>)
    ensures forall j :: j in s <==> exists m :: 0 <= m < |g| && m != keep && g[m] == j
  {
    set m | 0 <= m < |g| && m != keep :: g[m]
  }

  /** The members of `g` without an assessment number. */
  function Unnumbered(rows: seq<Sale>, g: seq<nat>): (s: set<nat>)
    requires ValidGroup(rows, g)
    ensures forall j :: j in s <==> exists m :: 0 <= m < |g| && g[m] == j && !HasAssessment(rows[j].assessment)
  {
    set m | 0 <= m < |g| && !HasAssessment(rows[g[m]].assessment) :: g[m]
  }

  /** The first member whose text is "unknown", else the first whose text
      is "0", else nobody. */
  function Placeholder(rows: seq<Sale>, g: seq<nat>): (s: set<nat>)
    requires ValidGroup(rows, g)
    ensures forall a, b :: a in s && b in s ==> a == b
    ensures forall j :: j in s ==> j in g
    ensures s == {} <==> "unknown" !in AssessmentTexts(rows, g) && "0" !in AssessmentTexts(rows, g)
  {
    var texts := AssessmentTexts(rows, g);
    if "unknown" in texts then {g[IndexOf(texts, "unknown")]}
    else if "0" in texts then {g[IndexOf(texts, "0")]}
    else {}
  }

  /** The decision for one group, from its own cells alone. */
  function GroupOutcome(rows: seq<Sale>, g: seq<nat>): (o: Outcome)
    requires ValidGroup(rows, g)
    ensures o.deleted <= set m | 0 <= m < |g| :: g[m]
    ensures o.reusesList ==> o.deleted == {} && !o.bindsList
    ensures o.joined.Some? <==> AllNumbered(rows, g)
  {
    if AllNumbered(rows, g) then
      Outcome(AllBut(g, 0), false, false, Some(GroupCodes(rows, g)))
    else if Str("fractional") in Types(rows, g) then
      Outcome(AllBut(g, IndexOf(Types(rows, g), Str("fractional"))), true, false, None)
    else if NoneNumbered(rows, g) then
      var texts := AssessmentTexts(rows, g);
      if "unknown" in texts || "0" in texts then Outcome(Placeholder(rows, g), true, false, None)
      else Outcome({}, false, true, None)
    else
      Outcome(Unnumbered(rows, g), true, false, None)
  }

  /** The decision that applies to the row at `i`: its group's. */
  function OutcomeAt(rows: seq<Sale>, i: nat): Outcome
    requires i < |rows|
  {
    GroupOutcome(rows, GroupOf(rows, i))
  }

  // ---------------------------------------------------------------------
  // The whole table
  // ---------------------------------------------------------------------

  /** The row at `i` is the first of a duplicated group. */
  predicate IsGroupHead(rows: seq<Sale>, i: nat)
    requires i < |rows|
  {
    Duplicated(rows, i) && Head(rows, i) == i
  }

  /** `duplis.iloc[0]` needs at least one duplicated row. */
  predicate HasDuplicate(rows: seq<Sale>) {
    exists i :: 0 <= i < |rows| && Duplicated(rows, i)
  }

  /** Some group falls back on the deletion list before any earlier group
      has bound it: the source raises. */
  predicate DuplicatesCrash(rows: seq<Sale>) {
    exists i :: 0 <= i < |rows| && IsGroupHead(rows, i) && OutcomeAt(rows, i).reusesList &&
      forall j :: 0 <= j < i && IsGroupHead(rows, j) ==> !OutcomeAt(rows, j).bindsList
  }

  /** The row at `i` is marked for deletion. */
  predicate Dropped(rows: seq<Sale>, i: nat)
    requires i < |rows|
  {
    Duplicated(rows, i) && i in OutcomeAt(rows, i).deleted
  }

  /** The row at `i` after its group's assessment rewrite. */
  function Rewritten(rows: seq<Sale>, i: nat): (r: Sale)
    requires i < |rows|
    ensures r.(assessment := rows[i].assessment) == rows[i]
  {
    if Duplicated(rows, i) && OutcomeAt(rows, i).joined.Some? then
      rows[i].(assessment := Str(OutcomeAt(rows, i).joined.value))
    else rows[i]
  }

  /** The surviving rows from position `k` on, rewritten, in order. */
  function KeptFrom(rows: seq<Sale>, k: nat): (out: seq<Sale>)
    requires k <= |rows|
    ensures |out| <= |rows| - k
    decreases |rows| - k
  {
    if k == |rows| then []
    else if Dropped(rows, k) then KeptFrom(rows, k + 1)
    else [Rewritten(rows, k)] + KeptFrom(rows, k + 1)
  }

  /** The reference result of `process_duplicates`. */
  function Consolidated(rows: seq<Sale>): seq<Sale> {
    KeptFrom(rows, 0)
  }

  // ---------------------------------------------------------------------
  // The loop, as the source runs it
  // ---------------------------------------------------------------------

  /** Rows whose group has been handled once the loop has reached `i`. */
  /** `processed` holds exactly the rows of the groups handled before `i`. */
  ghost predicate HandledBefore(rows: seq<Sale>, processed: set<nat>, i: nat) {
    forall j :: j in processed <==> 0 <= j < |rows| && Duplicated(rows, j) && Head(rows, j) < i
  }

  /** `marked` holds exactly the dropped rows of the groups handled before `i`. */
  ghost predicate MarkedBefore(rows: seq<Sale>, marked: set<nat>, i: nat) {
    forall j :: j in marked <==> 0 <= j < |rows| && Dropped(rows, j) && Head(rows, j) < i
  }

  /** The positions listed in `g`, as a set. */
  function Elements(g: seq<nat>): (s: set<nat>)
    ensures forall j :: j in s <==> j in g
  {
    set m | 0 <= m < |g| :: g[m]
  }

  /** Two rows of one group share the group, its head and its decision. */
  lemma SameGroup(rows: seq<Sale>, i: nat, j: nat)
    requires i < |rows| && j < |rows| && rows[i].application == rows[j].application
    ensures GroupOf(rows, i) == GroupOf(rows, j)
    ensures Head(rows, i) == Head(rows, j)
    ensures OutcomeAt(rows, i) == OutcomeAt(rows, j)
    ensures Duplicated(rows, i) == Duplicated(rows, j)
  {
  }

  /** A row is handled exactly when the loop reaches its group's head: the
      rows whose head is `i` are the members of `i`'s group, if `i` heads
      a duplicated group, and none otherwise. */
  lemma HeadedBy(rows: seq<Sale>, i: nat, j: nat)
    requires i < |rows| && j < |rows|
    ensures Head(rows, j) == i && Duplicated(rows, j) <==> IsGroupHead(rows, i) && j in GroupOf(rows, i)
  {
    if Head(rows, j) == i {
      SameGroup(rows, i, j);
    }
    if j in GroupOf(rows, i) {
      SameGroup(rows, i, j);
    }
  }

  /** What handling position `i` adds to the processed rows. */
  function HandleAt(rows: seq<Sale>, processed: set<nat>, i: nat): set<nat>
    requires i < |rows|
  {
    if IsGroupHead(rows, i) then processed + Elements(GroupOf(rows, i)) else processed
  }

  /** What handling position `i` adds to the rows marked for deletion. */
  function MarkAt(rows: seq<Sale>, marked: set<nat>, i: nat): set<nat>
    requires i < |rows|
  {
    if IsGroupHead(rows, i) then marked + OutcomeAt(rows, i).deleted else marked
  }

  lemma HandledStep(rows: seq<Sale>, processed: set<nat>, i: nat)
    requires i < |rows| && HandledBefore(rows, processed, i)
    ensures HandledBefore(rows, HandleAt(rows, processed, i), i + 1)
  {
    forall j | 0 <= j < |rows|
      ensures Head(rows, j) == i && Duplicated(rows, j) <==> IsGroupHead(rows, i) && j in GroupOf(rows, i)
    {
      HeadedBy(rows, i, j);
    }
  }

  lemma MarkedStep(rows: seq<Sale>, marked: set<nat>, i: nat)
    requires i < |rows| && MarkedBefore(rows, marked, i)
    ensures MarkedBefore(rows, MarkAt(rows, marked, i), i + 1)
  {
    var next := MarkAt(rows, marked, i);
    forall j
      ensures j in next <==> 0 <= j < |rows| && Dropped(rows, j) && Head(rows, j) < i + 1
    {
      if 0 <= j < |rows| {
        HeadedBy(rows, i, j);
        if Head(rows, j) == i {
          SameGroup(rows, i, j);
        }
      }
      if IsGroupHead(rows, i) && j in OutcomeAt(rows, i).deleted {
        assert j in Elements(GroupOf(rows, i));
        SameGroup(rows, i, j);
      }
    }
  }

  /** The rows of groups handled before `i` carry their rewritten
      assessment; the others are as given. */
  predicate UpdatedBefore(rows: seq<Sale>, updated: seq<Sale>, i: nat) {
    && |updated| == |rows|
    && forall j :: 0 <= j < |rows| ==>
         updated[j] == (if Head(rows, j) < i then Rewritten(rows, j) else rows[j])
  }

  /** What handling position `i` does to the table being rewritten. */
  function RewriteAt(rows: seq<Sale>, updated: seq<Sale>, i: nat): seq<Sale>
    requires i < |rows|
  {
    if IsGroupHead(rows, i) && OutcomeAt(rows, i).joined.Some?
    then RewriteGroup(updated, GroupOf(rows, i), OutcomeAt(rows, i).joined.value)
    else updated
  }

  lemma {:induction false} RewriteStep(rows: seq<Sale>, updated: seq<Sale>, i: nat)
    requires i < |rows| && UpdatedBefore(rows, updated, i)
    ensures UpdatedBefore(rows, RewriteAt(rows, updated, i), i + 1)
  {
    var next := RewriteAt(rows, updated, i);
    forall j | 0 <= j < |rows|
      ensures next[j] == (if Head(rows, j) < i + 1 then Rewritten(rows, j) else rows[j])
    {
      HeadedBy(rows, i, j);
      if Head(rows, j) == i {
        SameGroup(rows, i, j);
      }
    }
  }

  /** `process_duplicates(df)`: the loop over the duplicated rows, handling
      each group at its first member and dropping the marked rows at the end. */
  method ProcessDuplicates(rows: seq<Sale>) returns (out: seq<Sale>)
    requires HasDuplicate(rows)
    requires !DuplicatesCrash(rows)
    ensures out == Consolidated(rows)
  {
    var processed: set<nat> := {};
    var marked: set<nat> := {};
    var updated := rows;
    var i := 0;
    while i < |rows|
      invariant 0 <= i <= |rows|
      invariant HandledBefore(rows, processed, i)
      invariant MarkedBefore(rows, marked, i)
      invariant UpdatedBefore(rows, updated, i)
    {
      HandledStep(rows, processed, i);
      MarkedStep(rows, marked, i);
      RewriteStep(rows, updated, i);
      if Duplicated(rows, i) && i !in processed {
        var g := GroupOf(rows, i);
        var o := OutcomeAt(rows, i);
        marked := marked + o.deleted;
        if o.joined.Some? {
          updated := RewriteGroup(updated, g, o.joined.value);
        }
        processed := processed + Elements(g);
      }
      i := i + 1;
    }
    out := DropMarked(rows, updated, marked);
  }

  /** `df.drop(marked_for_delete)`, once every group has been handled. */
  method DropMarked(rows: seq<Sale>, updated: seq<Sale>, marked: set<nat>) returns (out: seq<Sale>)
    requires MarkedBefore(rows, marked, |rows|)
    requires UpdatedBefore(rows, updated, |rows|)
    ensures out == Consolidated(rows)
  {
    out := [];
    var k := |rows|;
    while k > 0
      invariant 0 <= k <= |rows|
      invariant out == KeptFrom(rows, k)
    {
      k := k - 1;
      DropStep(rows, updated, marked, k, out);
      if k !in marked {
        out := [updated[k]] + out;
      }
    }
  }

  /** One step of the drop, from the back: the row at `k` joins the
      survivors exactly when it is not marked, in its rewritten form. */
  lemma DropStep(rows: seq<Sale>, updated: seq<Sale>, marked: set<nat>, k: nat, out: seq<Sale>)
    requires MarkedBefore(rows, marked, |rows|)
    requires UpdatedBefore(rows, updated, |rows|)
    requires k < |rows| && out == KeptFrom(rows, k + 1)
    ensures (if k in marked then out else [updated[k]] + out) == KeptFrom(rows, k)
  {
    FinalCells(rows, updated, marked, k);
  }

  /** Once every group is handled, a row is marked exactly when it is
      dropped, and its cell holds its rewritten value. */
  lemma FinalCells(rows: seq<Sale>, updated: seq<Sale>, marked: set<nat>, k: nat)
    requires MarkedBefore(rows, marked, |rows|)
    requires UpdatedBefore(rows, updated, |rows|)
    requires k < |rows|
    ensures k in marked <==> Dropped(rows, k)
    ensures updated[k] == Rewritten(rows, k)
  {
    assert Head(rows, k) < |rows|;
  }

  /** Writes `text` into the assessment cell of every member of `g`. */
  function RewriteGroup(rows: seq<Sale>, g: seq<nat>, text: string): (out: seq<Sale>)
    ensures |out| == |rows|
    ensures forall j :: 0 <= j < |rows| ==>
      out[j] == (if j in g then rows[j].(assessment := Str(text)) else rows[j])
  {
    seq(|rows|, j requires 0 <= j < |rows| => if j in g then rows[j].(assessment := Str(text)) else rows[j])
  }

  // ---------------------------------------------------------------------
  // The four kinds of group
  // ---------------------------------------------------------------------

  /** Every member has a number: all but the first are dropped. */
  lemma NumberedOutcome(rows: seq<Sale>, g: seq<nat>)
    requires ValidGroup(rows, g) && AllNumbered(rows, g)
    ensures GroupOutcome(rows, g).deleted == AllBut(g, 0)
    ensures GroupOutcome(rows, g).joined == Some(GroupCodes(rows, g))
  {
  }

  /** A number is missing and some member is fractional: all but the first
      fractional member are dropped. */
  lemma FractionalOutcome(rows: seq<Sale>, g: seq<nat>)
    requires ValidGroup(rows, g) && !AllNumbered(rows, g) && Str("fractional") in Types(rows, g)
    ensures GroupOutcome(rows, g).deleted == AllBut(g, IndexOf(Types(rows, g), Str("fractional")))
    ensures GroupOutcome(rows, g).joined == None
  {
  }

  /** Some but not all members have a number, none is fractional: the
      members without one are dropped. */
  lemma MixedOutcome(rows: seq<Sale>, g: seq<nat>)
    requires ValidGroup(rows, g) && !AllNumbered(rows, g) && !NoneNumbered(rows, g)
    requires Str("fractional") !in Types(rows, g)
    ensures GroupOutcome(rows, g).deleted == Unnumbered(rows, g)
    ensures GroupOutcome(rows, g).joined == None
  {
  }

  /** No member has a number and none is fractional: one member at most is
      dropped, the first whose text is "unknown", else the first "0". */
  lemma UnnumberedOutcome(rows: seq<Sale>, g: seq<nat>)
    requires ValidGroup(rows, g) && |g| >= 1 && NoneNumbered(rows, g)
    requires Str("fractional") !in Types(rows, g)
    ensures GroupOutcome(rows, g).deleted == Placeholder(rows, g)
    ensures GroupOutcome(rows, g).joined == None
  {
    NoneNotAll(rows, g);
  }

  /** A non-empty group none of whose members has a number is not complete. */
  lemma NoneNotAll(rows: seq<Sale>, g: seq<nat>)
    requires ValidGroup(rows, g) && |g| >= 1 && NoneNumbered(rows, g)
    ensures !AllNumbered(rows, g)
  {
    assert !HasAssessment(rows[g[0]].assessment);
  }

  // ---------------------------------------------------------------------
  // What consolidation promises
  // ---------------------------------------------------------------------

  /** A position occurs once in its group. */
  lemma GroupIndex(rows: seq<Sale>, i: nat) returns (m: nat)
    requires i < |rows|
    ensures m < |GroupOf(rows, i)| && GroupOf(rows, i)[m] == i
    ensures forall n :: 0 <= n < |GroupOf(rows, i)| && GroupOf(rows, i)[n] == i ==> n == m
  {
    var g := GroupOf(rows, i);
    m :| 0 <= m < |g| && g[m] == i;
  }

  /** A row whose application number is unique is kept as it is. */
  lemma UniqueRowsKept(rows: seq<Sale>, i: nat)
    requires i < |rows| && !Duplicated(rows, i)
    ensures !Dropped(rows, i) && Rewritten(rows, i) == rows[i]
  {
  }

  /** When every member has a number, only the group's first row survives,
      and every member carries the comma-joined first codes of the group. */
  lemma CompleteGroup(rows: seq<Sale>, i: nat)
    requires i < |rows| && Duplicated(rows, i) && AllNumbered(rows, GroupOf(rows, i))
    ensures Dropped(rows, i) <==> i != Head(rows, i)
    ensures Rewritten(rows, i).assessment == Str(GroupCodes(rows, GroupOf(rows, i)))
  {
    var m := GroupIndex(rows, i);
    var g := GroupOf(rows, i);
    NumberedOutcome(rows, g);
    if m != 0 {
      assert g[0] < g[m];
    }
  }

  /** When a number is missing and a member is fractional, the group's
      first fractional row is the only one that survives. */
  lemma FractionalGroup(rows: seq<Sale>, i: nat)
    requires i < |rows| && Duplicated(rows, i)
    requires !AllNumbered(rows, GroupOf(rows, i)) && Str("fractional") in Types(rows, GroupOf(rows, i))
    ensures !Dropped(rows, i) <==>
      rows[i].propertyType == Str("fractional") &&
      forall j :: 0 <= j < i && rows[j].application == rows[i].application ==> rows[j].propertyType != Str("fractional")
  {
    var m := GroupIndex(rows, i);
    var g := GroupOf(rows, i);
    var ts := Types(rows, g);
    var f := IndexOf(ts, Str("fractional"));
    FractionalOutcome(rows, g);
    if m == f {
      forall j | 0 <= j < i && rows[j].application == rows[i].application
        ensures rows[j].propertyType != Str("fractional")
      {
        assert j in g;
      }
    } else if m > f {
      assert g[f] < g[m] && rows[g[f]].application == rows[i].application;
      assert ts[f] == Str("fractional");
    }
  }

  /** In a group where some members have a number and some do not, and
      none is fractional, exactly the members without one are dropped. */
  lemma MixedGroup(rows: seq<Sale>, i: nat)
    requires i < |rows| && Duplicated(rows, i)
    requires !AllNumbered(rows, GroupOf(rows, i)) && !NoneNumbered(rows, GroupOf(rows, i))
    requires Str("fractional") !in Types(rows, GroupOf(rows, i))
    ensures Dropped(rows, i) <==> !HasAssessment(rows[i].assessment)
  {
    var m := GroupIndex(rows, i);
    MixedOutcome(rows, GroupOf(rows, i));
  }

  /** When no member has a number, at most one member is dropped. */
  lemma UnnumberedGroup(rows: seq<Sale>, i: nat, j: nat)
    requires i < |rows| && j < |rows| && rows[i].application == rows[j].application
    requires NoneNumbered(rows, GroupOf(rows, i)) && Str("fractional") !in Types(rows, GroupOf(rows, i))
    requires Dropped(rows, i) && Dropped(rows, j)
    ensures i == j
  {
    SameGroup(rows, i, j);
    UnnumberedOutcome(rows, GroupOf(rows, i));
  }

  /** Every application number of the input is still present afterwards:
      each group keeps at least one member. */
  lemma {:induction false} SomeMemberKept(rows: seq<Sale>, i: nat) returns (k: nat)
    requires i < |rows|
    ensures k < |rows| && rows[k].application == rows[i].application && !Dropped(rows, k)
  {
    var g := GroupOf(rows, i);
    if !Duplicated(rows, i) {
      return i;
    }
    if AllNumbered(rows, g) {
      k := g[0];
      SameGroup(rows, i, k);
      CompleteGroup(rows, k);
    } else if Str("fractional") in Types(rows, g) {
      var f := IndexOf(Types(rows, g), Str("fractional"));
      k := g[f];
      SameGroup(rows, i, k);
      var m := GroupIndex(rows, k);
      FractionalOutcome(rows, g);
    } else if NoneNumbered(rows, g) {
      assert g[0] < g[1];
      SameGroup(rows, i, g[0]);
      SameGroup(rows, i, g[1]);
      if Dropped(rows, g[0]) && Dropped(rows, g[1]) {
        UnnumberedGroup(rows, g[0], g[1]);
      }
      k := if Dropped(rows, g[0]) then g[1] else g[0];
    } else {
      var m :| 0 <= m < |g| && HasAssessment(rows[g[m]].assessment);
      k := g[m];
      SameGroup(rows, i, k);
      MixedGroup(rows, k);
    }
  }

  /** The entries of `xs` from `k` on whose flag in `keep` is set, in order. */
  function Select<T>(keep: seq<bool>, xs: seq<T>, k: nat): (r: seq<T>)
    requires |keep| == |xs| && k <= |xs|
    ensures forall x :: x in r ==> exists j :: k <= j < |xs| && keep[j] && x == xs[j]
    ensures forall j :: k <= j < |xs| && keep[j] ==> xs[j] in r
    decreases |xs| - k
  {
    if k == |xs| then []
    else if keep[k] then [xs[k]] + Select(keep, xs, k + 1)
    else Select(keep, xs, k + 1)
  }

  /** Which rows survive consolidation. */
  function Survives(rows: seq<Sale>): (keep: seq<bool>)
    ensures |keep| == |rows|
    ensures forall j :: 0 <= j < |rows| ==> keep[j] == !Dropped(rows, j)
  {
    seq(|rows|, j requires 0 <= j < |rows| => !Dropped(rows, j))
  }

  /** Every row with its group's rewrite applied. */
  function RewrittenAll(rows: seq<Sale>): (r: seq<Sale>)
    ensures |r| == |rows|
    ensures forall j :: 0 <= j < |rows| ==> r[j] == Rewritten(rows, j)
  {
    seq(|rows|, j requires 0 <= j < |rows| => Rewritten(rows, j))
  }

  /** Consolidation only deletes and rewrites: it keeps, in order, the
      rewritten rows that survive, and nothing else. */
  lemma {:induction false} KeptRows(rows: seq<Sale>, k: nat)
    requires k <= |rows|
    ensures KeptFrom(rows, k) == Select(Survives(rows), RewrittenAll(rows), k)
    decreases |rows| - k
  {
    if k < |rows| {
      KeptRows(rows, k + 1);
      var keep, xs := Survives(rows), RewrittenAll(rows);
      assert keep[k] == !Dropped(rows, k) && xs[k] == Rewritten(rows, k);
    }
  }

  /** Every application number of the input keeps a row after
      consolidation. */
  lemma ApplicationSurvives(rows: seq<Sale>, i: nat)
    requires i < |rows|
    ensures exists r :: r in Consolidated(rows) && r.application == rows[i].application
  {
    var k := SomeMemberKept(rows, i);
    KeptRows(rows, 0);
    assert Survives(rows)[k];
    assert RewrittenAll(rows)[k] in Consolidated(rows);
  }

  /** Every row after consolidation is an input row, at most with its
      assessment cell rewritten. */
  lemma ConsolidatedFrom(rows: seq<Sale>, r: Sale)
    requires r in Consolidated(rows)
    ensures exists j :: 0 <= j < |rows| && r.(assessment := rows[j].assessment) == rows[j]
  {
    KeptRows(rows, 0);
    var j :| 0 <= j < |rows| && Survives(rows)[j] && r == RewrittenAll(rows)[j];
    assert r == Rewritten(rows, j);
  }
}

=== FILE: keywords.dfy ===
/**
 The fixed keyword lists the property-type classifiers search for, and the
 substring test that drives every pass: a field matches when some keyword
 occurs in it.
 */
module Keywords {
  import opened Text

  /** "1/2 th" .. "1/20 th" followed by "1/2th" .. "1/20th" */
  function UsualFractions(): (r: seq<string>)
    ensures |r| == 38
    ensures forall n :: 2 <= n <= 20 ==>
      r[n - 2] == "1/" + NatToString(n) + " th" && r[n + 17] == "1/" + NatToString(n) + "th"
    ensures forall n :: 2 <= n <= 20 ==>
      ("1/" + NatToString(n) + " th") in r && ("1/" + NatToString(n) + "th") in r
  {
    seq(19, k requires 0 <= k < 19 => "1/" + NatToString(k + 2) + " th")
    + seq(19, k requires 0 <= k < 19 => "1/" + NatToString(k + 2) + "th")
  }

  /** The registry and brokerage-transaction fractional keywords. */
  function FractionalKeywords(): seq<string> {
    ["fraction", "frational", "factional", "fractional", "1/10 share",
     "th share", "one tenth", "one sixth", "timeshares", "timeshare",
     "081265514", "081248016", "071919105", "1/10 fraction", "1/10 fractionof"]
    + UsualFractions()
  }

  /** The listing feed's longer fractional keyword list. */
  function ListingFractionalKeywords(): seq<string> {
    ["fraction", "frational", "factional", "fractional", "1/10 share",
     "th share", "one tenth", "one sixth", "timeshares", "timeshare", "fractional ownership",
     "harbour court residences", "harbour court", "tuckers point golf villa",
     "belmont hills unit", "tucker's point golf villa", "golf villas residence club",
     "081265514", "081248016", "071919105", "1/10 fraction", "1/10 fractionof"]
    + UsualFractions()
  }

  /** Assessment numbers of compounds sold as fractional units. */
  function CompoundCodes(): seq<string> {
    ["081265514", "081248016", "071919105"]
  }

  function LandKeywords(): seq<string> {
    ["vacant lot", "lot of land", "land on", "lot", "land lying",
     "land situate", "land situated", "share in land", "government land"]
  }

  /** Place names that contain a land keyword but are not land. */
  function LandAntiKeywords(): seq<string> {
    ["fairyland lane", "fruitland lane", "camelot", "jiblot", "treslot", "3 scenic lane"]
  }

  /** `any(k in s for k in keywords)` */
  predicate AnyIn(keywords: seq<string>, s: string) {
    exists k :: 0 <= k < |keywords| && Contains(s, keywords[k])
  }

  /** "fractional" is on both fractional lists, so a field that already
      says fractional keeps matching. */
  lemma FractionalIsKeyword(s: string)
    requires Contains(s, "fractional")
    ensures AnyIn(FractionalKeywords(), s)
    ensures AnyIn(ListingFractionalKeywords(), s)
  {
    assert FractionalKeywords()[3] == "fractional";
    assert ListingFractionalKeywords()[3] == "fractional";
  }

  lemma ContainsSelf(s: string)
    ensures Contains(s, s)
  {
    assert OccursAt(s, s, 0);
  }
}

=== FILE: listing.dfy ===
/**
 The brokerage listing feed's per-row passes: the address and assessment
 cleaners, the fractional classifier, the three review flags (price,
 assessment number, address), the agent-list parser and the parish
 (city) simplification.
 */
module Listings {
  import opened Text
  import opened PyValue
  import opened Keywords
  import opened Assessment

  /** One listing as the feed delivers it; every cell may be missing or of
      an unexpected type, so each is a `Value`. `indexLabel` is the row's index
      label, which a row-wise `apply` exposes as the row's `name`
      attribute. */
  datatype Listing = Listing(
    indexLabel: Value,
    url: Value,
    name: Value,
    shortDescription: Value,
    longDescription: Value,
    propertyType: Value,
    assessment: Value,
    price: Value,
    isSale: Value,
    city: Value)

  // ---------------------------------------------------------------------
  // Address cleaning
  // ---------------------------------------------------------------------

  /** `clean_address(addr)`: a missing address, or one that `int()`
      accepts, becomes `0`; anything else is kept. */
  function CleanAddress(addr: Value): (r: Value)
    ensures r == Int(0) || r == addr
    ensures r != Int(0) ==> !addr.Null? && PyInt(addr).None?
    ensures addr.Null? ==> r == Int(0)
  {
    if addr.Null? then Int(0)
    else if PyInt(addr).Some? then Int(0)
    else addr
  }

  /** A cleaned address is `0` or something `int()` rejects, and cleaning
      it again changes nothing. */
  lemma CleanAddressIdempotent(addr: Value)
    ensures CleanAddress(CleanAddress(addr)) == CleanAddress(addr)
    ensures CleanAddress(addr) == Int(0) || PyInt(CleanAddress(addr)).None?
  {
  }

  /** `contains_number(value)`: `re.findall('[0-9]+', value)` finds a run. */
  function ContainsNumber(s: string): (b: bool)
    ensures b <==> HasDigit(s)
  {
    |DigitRuns(s)| > 0
  }

  // ---------------------------------------------------------------------
  // Fractional classifier
  // ---------------------------------------------------------------------

  /** Some listing fractional keyword occurs in the lower-cased text of the
      url, name, short or long description, or property type. */
  predicate KeywordHit(l: Listing) {
    || AnyIn(ListingFractionalKeywords(), LowerStr(l.url))
    || AnyIn(ListingFractionalKeywords(), LowerStr(l.name))
    || AnyIn(ListingFractionalKeywords(), LowerStr(l.shortDescription))
    || AnyIn(ListingFractionalKeywords(), LowerStr(l.longDescription))
    || AnyIn(ListingFractionalKeywords(), LowerStr(l.propertyType))
  }

  /** The assessment text holds the number of a compound sold in fractions. */
  predicate CompoundHit(l: Listing) {
    AnyIn(CompoundCodes(), ToStr(l.assessment))
  }

  /** `"Reefs" in str(df.name)` and the type is condo. Inside a row-wise
      `apply`, `df.name` is the row's index label, not its `name` column. */
  predicate ReefsCondo(l: Listing) {
    Contains(ToStr(l.indexLabel), "Reefs") && EqStr(l.propertyType, "condo")
  }

  /** The decimal text of an integer holds no letter. */
  lemma IntTextHasNoLetterR(n: int)
    ensures 'R' !in IntToString(n)
  {
    var d := NatToString(if n < 0 then -n else n);
    assert forall k :: 0 <= k < |d| ==> IsDigit(d[k]);
    if n < 0 {
      assert IntToString(n) == "-" + d;
      assert forall k :: 0 <= k < |"-" + d| ==> ("-" + d)[k] == '-' || IsDigit(("-" + d)[k]);
    }
  }

  /** A table read without an index column labels its rows 0, 1, 2, …, so
      the Reefs test never fires: only the keywords, the compound codes and
      an existing fractional type make a listing fractional. */
  lemma IntegerLabelNeverReefs(l: Listing)
    requires l.indexLabel.Int?
    ensures !ReefsCondo(l)
    ensures FractionalFilter(l) == Str("fractional") <==>
      KeywordHit(l) || (!l.propertyType.Null? && (CompoundHit(l) || l.propertyType == Str("fractional")))
  {
    IntTextHasNoLetterR(l.indexLabel.i);
    NotContainsChar(ToStr(l.indexLabel), "Reefs", 'R');
  }

  /** `_fractional_filter(row)`: the type the listing's fractional pass gives one row. */
  function FractionalFilter(l: Listing): (t: Value)
    ensures t == Str("fractional") || t == Int(0) || t == l.propertyType
    ensures t == Str("fractional") <==>
      KeywordHit(l) || (!l.propertyType.Null? && (CompoundHit(l) || ReefsCondo(l) || l.propertyType == Str("fractional")))
    ensures t == Int(0) && l.propertyType != Int(0) ==> l.propertyType.Null? && !KeywordHit(l)
  {
    if KeywordHit(l) then Str("fractional")
    else if l.propertyType.Null? then Int(0)
    else if CompoundHit(l) then Str("fractional")
    else if ReefsCondo(l) then Str("fractional")
    else l.propertyType
  }

  /** `identify_fractionals(df)` on the listing table: only the type changes. */
  function IdentifyListingFractionals(rows: seq<Listing>): (out: seq<Listing>)
    ensures |out| == |rows|
    ensures forall i :: 0 <= i < |rows| ==> out[i] == rows[i].(propertyType := FractionalFilter(rows[i]))
  {
    seq(|rows|, i requires 0 <= i < |rows| => rows[i].(propertyType := FractionalFilter(rows[i])))
  }

  /** A listing already typed fractional stays fractional. */
  lemma FractionalListingStays(l: Listing)
    requires l.propertyType == Str("fractional")
    ensures FractionalFilter(l) == Str("fractional")
  {
    assert LowerStr(l.propertyType) == "fractional";
    ContainsSelf("fractional");
    FractionalIsKeyword(LowerStr(l.propertyType));
  }

  /** No keyword is shorter than two characters, so a one-character text
      matches none. */
  lemma ShortTextNoKeyword(s: string)
    requires |s| < 2
    ensures !AnyIn(ListingFractionalKeywords(), s)
  {
    var ks := ListingFractionalKeywords();
    forall k | 0 <= k < |ks|
      ensures !Contains(s, ks[k])
    {
      assert |ks[k]| >= 2;
    }
  }

  /** Running the pass a second time changes a row only in one case: the
      type was missing, no keyword matched, and the assessment names a
      fractional compound. The first pass then wrote `0`, which is no longer
      missing, so the second pass reaches the compound test and says
      fractional. */
  lemma {:induction false} FractionalFilterTwice(l: Listing)
    ensures var l1 := l.(propertyType := FractionalFilter(l));
      FractionalFilter(l1) == (if l.propertyType.Null? && !KeywordHit(l) && CompoundHit(l) then Str("fractional") else FractionalFilter(l))
  {
    var t := FractionalFilter(l);
    var l1 := l.(propertyType := t);
    if t == Str("fractional") {
      FractionalListingStays(l1);
    } else if t == Int(0) && l.propertyType.Null? {
      assert LowerStr(l1.propertyType) == "0";
      ShortTextNoKeyword("0");
      assert !KeywordHit(l1);
      assert !ReefsCondo(l1);
    } else {
      assert t == l.propertyType;
      assert l1 == l;
    }
  }

  // ---------------------------------------------------------------------
  // Review flags
  // ---------------------------------------------------------------------

  /** `_price_filter(row)`; `None` when `int(price)` raises. A missing or
      zero price is always flagged; otherwise a sale under 20,000 is. */
  function PriceFlag(price: Value, isSale: Value): (f: Option<string>)
    ensures f.Some? ==> f.value == "PRICE" || f.value == ""
    ensures price.Null? || EqInt(price, 0) || EqStr(price, "0") ==> f == Some("PRICE")
    ensures f.None? <==> !price.Null? && !EqInt(price, 0) && !EqStr(price, "0") && PyInt(price).None?
    ensures f == Some("PRICE") && !price.Null? && !EqInt(price, 0) && !EqStr(price, "0") ==>
      PyInt(price).value < 20000 && EqInt(isSale, 1)
  {
    if price.Null? then Some("PRICE")
    else if EqInt(price, 0) || EqStr(price, "0") then Some("PRICE")
    else
      var n := PyInt(price);
      if n.None? then None
      else if n.value < 20000 && EqInt(isSale, 1) then Some("PRICE")
      else Some("")
  }

  /** A rental with a known non-zero price is never flagged for its price,
      however low, and a sale at 20,000 or more is not either. */
  lemma PriceFlagOnlyCheapSales(price: Value, isSale: Value, n: int)
    requires PyInt(price) == Some(n) && n != 0
    requires !EqInt(isSale, 1) || n >= 20000
    ensures PriceFlag(price, isSale) == Some("")
  {
  }

  /** `_assessment_number_filter(row)`: land and fractional rows are never
      flagged; otherwise a missing number is, an eight- or nine-character
      one is not, and a longer one is unless the normaliser finds a code in it. */
  function AssessmentFlag(propertyType: Value, an: Value): (f: string)
    ensures f == "" || f == "ASSN#"
    ensures EqStr(propertyType, "land") || EqStr(propertyType, "fractional") ==> f == ""
    ensures f == "" <==>
      || EqStr(propertyType, "land") || EqStr(propertyType, "fractional")
      || (Truthy(an) && (|ToStr(an)| == 8 || |ToStr(an)| == 9))
      || (Truthy(an) && |ToStr(an)| > 9 && CleanAssnNr(an) != Int(0))
  {
    if EqStr(propertyType, "land") || EqStr(propertyType, "fractional") then ""
    else if !Truthy(an) then "ASSN#"
    else if EqInt(an, 0) then "ASSN#"
    else
      var n := |ToStr(an)|;
      if n == 8 || n == 9 then ""
      else if n > 9 then
        if !EqInt(CleanAssnNr(an), 0) then "" else "ASSN#"
      else "ASSN#"
  }

  /** A seven-digit number, which the registry accepts as an assessment
      number, is flagged on a listing that is neither land nor fractional. */
  lemma SevenDigitsFlagged(propertyType: Value, t: string)
    requires |t| == 7 && AllDigits(t)
    requires !EqStr(propertyType, "land") && !EqStr(propertyType, "fractional")
    ensures AssessmentFlag(propertyType, Str(t)) == "ASSN#"
  {
  }

  /** A listing whose assessment cell is a one-code list the normaliser
      accepts (eight or nine digits, not all zero) is not flagged. */
  lemma ListedCodeNotFlagged(propertyType: Value, t: string)
    requires 8 <= |t| <= 9 && AllDigits(t) && !AllZeros(t)
    ensures AssessmentFlag(propertyType, List([t])) == ""
  {
    ListText(t);
    assert !ZeroPattern(t);
    assert CodePattern(t);
    assert CleanAssnNr(List([t])) == List([t]);
  }

  /** `len(name)`; `None` when `len` raises. */
  function NameLength(name: Value): (n: Option<nat>)
    ensures name.Str? ==> n == Some(|name.s|)
  {
    match name
    case Str(s) => Some(|s|)
    case List(items) => Some(|items|)
    case _ => None
  }

  /** `contains_number(name)`; `None` when the regex search raises on a non-string. */
  function NameHasNumber(name: Value): (b: Option<bool>)
    ensures name.Str? <==> b.Some?
    ensures name.Str? ==> b == Some(ContainsNumber(name.s))
  {
    if name.Str? then Some(ContainsNumber(name.s)) else None
  }

  /** `_address_filter(row)`, with Python's lazy `and` / `or` kept: `None`
      when `len` or the regex search raises, `Some(Null)` when the function
      falls off its end (Python `None`). */
  function AddressFlag(propertyType: Value, an: Value, name: Value): (f: Option<Value>)
    ensures !Truthy(name) ==> f == Some(Str(""))
    ensures f.Some? ==> f.value == Str("") || f.value == Str("ADDRESS") || f.value == Null
    ensures name.Str? && |name.s| > 0 ==> f.Some?
  {
    var flag := Some(Str("ADDRESS"));
    if !Truthy(name) then Some(Str(""))
    else
      var len := NameLength(name);
      var num := NameHasNumber(name);
      if EqStr(propertyType, "land") then
        if len.None? then None
        else if len.value < 10 then flag
        else if num.None? then None
        else if !num.value then flag
        else Some(Null)
      else if EqStr(propertyType, "fractional") then
        if num.None? then None
        else if !num.value then flag
        else if len.None? then None
        else if len.value < 10 then flag
        else Some(Null)
      else if !Truthy(an) then
        if len.None? then None
        else if len.value < 10 then flag
        else if num.None? then None
        else if !num.value then flag
        else Some(Null)
      else
        if len.None? then None
        else if len.value >= 10 then Some(Null)
        else if num.None? then None
        else if !num.value then flag
        else Some(Null)
  }

  /** For a non-empty text name the flag is raised exactly when the name is
      short or has no number, except on a row with an assessment number that
      is neither land nor fractional, which needs both. */
  lemma AddressFlagOfText(propertyType: Value, an: Value, s: string)
    requires |s| > 0
    ensures var short := |s| < 10;
      var num := HasDigit(s);
      var lenient := !EqStr(propertyType, "land") && !EqStr(propertyType, "fractional") && Truthy(an);
      AddressFlag(propertyType, an, Str(s)) ==
        Some(if (if lenient then short && !num else short || !num) then Str("ADDRESS") else Null)
  {
  }

  // ---------------------------------------------------------------------
  // Agents
  // ---------------------------------------------------------------------

  /** `remove_extra_chars(x)`: every `b`, `[`, `]` and `'` removed, then
      surrounding white space stripped (a one-character `replace` is the
      removal of that character). */
  function RemoveExtraChars(x: string): (r: string)
    ensures 'b' !in r && '[' !in r && ']' !in r && '\'' !in r
    ensures forall c :: c in r ==> c in x
    ensures |r| > 0 ==> !IsSpace(r[0]) && !IsSpace(r[|r| - 1])
    ensures forall c :: c in x && c != 'b' && c != '[' && c != ']' && c != '\'' && !IsSpace(c) ==> c in r
  {
    var a := RemoveChar(RemoveChar(RemoveChar(RemoveChar(x, 'b'), '['), ']'), '\'');
    StripChars(a);
    StripKeepsNonSpace(a);
    Strip(a)
  }

  /** Cleaning an agent field twice is cleaning it once. */
  lemma RemoveExtraCharsIdempotent(x: string)
    ensures RemoveExtraChars(RemoveExtraChars(x)) == RemoveExtraChars(x)
  {
    var r := RemoveExtraChars(x);
    RemoveCharAbsent(r, 'b');
    RemoveCharAbsent(r, '[');
    RemoveCharAbsent(r, ']');
    RemoveCharAbsent(r, '\'');
    StripTrimmed(r);
  }

  /** The letter `b` goes too, not only the byte-string prefix: the agent
      "b'Bob'" comes out as "Bo". */
  lemma RemoveExtraCharsDropsLetterB()
    ensures RemoveExtraChars("b'Bob'") == "Bo"
  {
    BobWithoutB();
    BobWithoutBrackets();
    BobWithoutQuotes();
    StripTrimmed("Bo");
  }

  lemma BobWithoutB()
    ensures RemoveChar("b'Bob'", 'b') == "'Bo'"
  {
    RemoveCharCons('b', "'Bob'", 'b');
    RemoveCharCons('\'', "Bob'", 'b');
    RemoveCharCons('B', "ob'", 'b');
    RemoveCharCons('o', "b'", 'b');
    RemoveCharCons('b', "'", 'b');
    RemoveCharCons('\'', "", 'b');
  }

  lemma BobWithoutBrackets()
    ensures RemoveChar(RemoveChar("'Bo'", '['), ']') == "'Bo'"
  {
    RemoveCharAbsent("'Bo'", '[');
    RemoveCharAbsent("'Bo'", ']');
  }

  lemma BobWithoutQuotes()
    ensures RemoveChar("'Bo'", '\'') == "Bo"
  {
    RemoveCharCons('\'', "Bo'", '\'');
    RemoveCharCons('B', "o'", '\'');
    RemoveCharCons('o', "'", '\'');
    RemoveCharCons('\'', "", '\'');
  }

  /** `clean_up_agent_list(s)`: the comma-separated fields, each cleaned. */
  function CleanUpAgentList(s: string): (r: seq<string>)
    ensures |r| == |Split(s, ',')| && |r| >= 1
    ensures forall k, c :: 0 <= k < |r| && c in r[k] ==> c in s
    ensures forall k :: 0 <= k < |r| ==> r[k] == RemoveExtraChars(Split(s, ',')[k])
    ensures forall k :: 0 <= k < |r| ==> CleanField(r[k])
  {
    var parts := Split(s, ',');
    SplitFacts(s, ',');
    seq(|parts|, k requires 0 <= k < |parts| => RemoveExtraChars(parts[k]))
  }

  /** An agent field as the parser leaves it: no comma, no `b`, no bracket
      or quote, and no white space at either end. */
  predicate CleanField(f: string) {
    && ',' !in f && 'b' !in f && '[' !in f && ']' !in f && '\'' !in f
    && (|f| > 0 ==> !IsSpace(f[0]) && !IsSpace(f[|f| - 1]))
  }

  /** Cleaning leaves a clean field as it is. */
  lemma CleanFieldFixed(f: string)
    requires CleanField(f)
    ensures RemoveExtraChars(f) == f
  {
    RemoveCharAbsent(f, 'b');
    RemoveCharAbsent(f, '[');
    RemoveCharAbsent(f, ']');
    RemoveCharAbsent(f, '\'');
    StripTrimmed(f);
  }

  /** Clean fields joined with commas are parsed back into the same
      fields. */
  lemma CleanFieldsRoundTrip(fields: seq<string>)
    requires |fields| >= 1
    requires forall k :: 0 <= k < |fields| ==> CleanField(fields[k])
    ensures CleanUpAgentList(Join(fields, ",")) == fields
  {
    SplitJoin(fields, ',');
    forall k | 0 <= k < |fields|
      ensures CleanUpAgentList(Join(fields, ","))[k] == fields[k]
    {
      CleanFieldFixed(fields[k]);
    }
  }

  /** Parsing the comma-joined result of a parse gives that result again. */
  lemma CleanUpAgentListStable(s: string)
    ensures CleanUpAgentList(Join(CleanUpAgentList(s), ",")) == CleanUpAgentList(s)
  {
    CleanFieldsRoundTrip(CleanUpAgentList(s));
  }

  /** The index of the first field holding `@`, if any. */
  function FirstEmail(xs: seq<string>): (k: Option<nat>)
    ensures k.Some? ==> k.value < |xs| && '@' in xs[k.value]
    ensures k.Some? ==> forall j :: 0 <= j < k.value ==> '@' !in xs[j]
    ensures k.None? ==> forall j :: 0 <= j < |xs| ==> '@' !in xs[j]
  {
    if |xs| == 0 then None
    else if '@' in xs[0] then Some(0)
    else
      var k := FirstEmail(xs[1..]);
      if k.None? then None else Some(k.value + 1)
  }

  /** `agent_list_to_dict(agent_list)`; `None` when a six-field list has no
      field with `@` (the source indexes an empty list). */
  function AgentListToDict(xs: seq<string>): (d: Option<map<string, string>>)
    ensures d.None? <==> |xs| == 6 && forall j :: 0 <= j < 6 ==> '@' !in xs[j]
    ensures d.Some? && 4 <= |xs| <= 6 ==>
      "id" in d.value && "name" in d.value && "company" in d.value &&
      d.value["id"] == xs[0] && d.value["name"] == xs[1] && d.value["company"] == xs[2]
    ensures d.Some? && |xs| == 6 ==> d.value.Keys == {"id", "name", "company", "email"}
    ensures d.Some? && |xs| == 4 ==> d.value.Keys == {"id", "name", "company", "phone"}
    ensures d.Some? && !(4 <= |xs| <= 6) ==> d.value == map["id" := "Unknown", "name" := "Unknown", "company" := "Unknown", "email" := "Unknown", "phone" := "Unknown"]
  {
    if |xs| == 5 then
      Some(map["id" := xs[0], "name" := xs[1], "company" := xs[2], "email" := xs[3], "phone" := xs[4]])
    else if |xs| == 4 then
      Some(map["id" := xs[0], "name" := xs[1], "company" := xs[2], "phone" := xs[3]])
    else if |xs| == 6 then
      var k := FirstEmail(xs);
      if k.None? then None
      else Some(map["id" := xs[0], "name" := xs[1], "company" := xs[2], "email" := xs[k.value]])
    else
      Some(map["id" := "Unknown", "name" := "Unknown", "company" := "Unknown", "email" := "Unknown", "phone" := "Unknown"])
  }

  /** A five-field agent list is read back from its dictionary in field order. */
  lemma AgentDictRoundTrip(xs: seq<string>)
    requires |xs| == 5
    ensures var d := AgentListToDict(xs).value;
      [d["id"], d["name"], d["company"], d["email"], d["phone"]] == xs
  {
  }

  /** In a six-field list the email is the first field holding `@`, even
      when that is the id, name or company. */
  lemma AgentEmailIsFirstAt(xs: seq<string>, k: nat)
    requires |xs| == 6 && k < 6 && '@' in xs[k]
    requires forall j :: 0 <= j < k ==> '@' !in xs[j]
    ensures AgentListToDict(xs).Some? && AgentListToDict(xs).value["email"] == xs[k]
  {
    var f := FirstEmail(xs);
    assert f.Some?;
    assert f.value == k;
  }

  // ---------------------------------------------------------------------
  // Parishes
  // ---------------------------------------------------------------------

  /** The city spellings the listing feed's parish simplification replaces. */
  function ReplacedCities(): set<Value> {
    {Str("Town of St. George"), Str("City of Hamilton"), Str("City Of Hamilton"),
     Str("CIty of Hamilton"), Str("Hamilton Parish"), Str("St. Georges"), Str("Smith's")}
  }

  /** `df.city.replace([...], [...])` on one cell: seven whole-value
      replacements, no substring matching. */
  function SimplifyCity(c: Value): (r: Value)
    ensures r !in ReplacedCities()
    ensures c !in ReplacedCities() ==> r == c
  {
    if c == Str("Town of St. George") then Str("St. George's")
    else if c == Str("City of Hamilton") then Str("Pembroke")
    else if c == Str("City Of Hamilton") then Str("Pembroke")
    else if c == Str("CIty of Hamilton") then Str("Pembroke")
    else if c == Str("Hamilton Parish") then Str("Hamilton")
    else if c == Str("St. Georges") then Str("St. George's")
    else if c == Str("Smith's") then Str("Smiths")
    else c
  }

  /** No replacement produces a value that is itself replaced, so the
      simplification is idempotent. */
  lemma SimplifyCityIdempotent(c: Value)
    ensures SimplifyCity(SimplifyCity(c)) == SimplifyCity(c)
  {
  }

  /** `simplify_parishes(df)` on the listing table: only the city (renamed
      parish) column changes. */
  function SimplifyCities(rows: seq<Listing>): (out: seq<Listing>)
    ensures |out| == |rows|
    ensures forall i :: 0 <= i < |rows| ==> out[i].(city := rows[i].city) == rows[i]
    ensures forall i :: 0 <= i < |rows| ==> out[i].city == SimplifyCity(rows[i].city)
  {
    seq(|rows|, i requires 0 <= i < |rows| => rows[i].(city := SimplifyCity(rows[i].city)))
  }
}

=== FILE: numeric.dfy ===
/**
 `pd.to_numeric(..., errors='coerce')` on one cell. Text is read by pandas'
 own float parser, not by Python's `int()`: an optional sign, digits with
 at most one decimal point, and an optional exponent, with white space
 allowed around it and no digit-group underscores. What does not read
 becomes NaN, `None` here. A numeral's value is kept rounded down to an
 integer: every price the importer compares it with is an integer, and
 `x >= 1000` holds exactly when it holds of the rounded-down value.
 */
module Numeric {
  import opened Text
  import opened PyValue

  /** The length of an optional leading sign. */
  function SignLength(t: string): (k: nat)
    ensures k <= 1 && k <= |t|
    ensures k == 1 <==> |t| > 0 && (t[0] == '+' || t[0] == '-')
  {
    if |t| > 0 && (t[0] == '+' || t[0] == '-') then 1 else 0
  }

  predicate IsExponentMark(c: char) { c == 'e' || c == 'E' }

  /** The index of the first exponent mark, or `|u|` when there is none. */
  function ExponentMark(u: string): (k: nat)
    ensures k <= |u|
    ensures k < |u| ==> IsExponentMark(u[k])
    ensures forall i :: 0 <= i < k ==> !IsExponentMark(u[i])
  {
    if |u| == 0 then 0
    else if IsExponentMark(u[0]) then 0
    else
      var k := ExponentMark(u[1..]);
      assert forall i :: 1 <= i < k + 1 ==> u[i] == u[1..][i - 1];
      k + 1
  }

  /** The number of decimal points in `m`. */
  function Points(m: string): nat
    decreases |m|
  {
    if |m| == 0 then 0 else Points(m[..|m| - 1]) + (if m[|m| - 1] == '.' then 1 else 0)
  }

  /** Digits with at most one decimal point, and at least one digit. */
  predicate IsMantissa(m: string) {
    && (forall i :: 0 <= i < |m| ==> IsDigit(m[i]) || m[i] == '.')
    && Points(m) <= 1
    && HasDigit(m)
  }

  /** An optional sign followed by at least one digit. */
  predicate IsExponent(e: string) {
    SignLength(e) < |e| && AllDigits(e[SignLength(e)..])
  }

  /** The mantissa of a stripped text: what follows the sign, up to the
      exponent mark. */
  function Mantissa(t: string): string {
    var u := t[SignLength(t)..];
    u[..ExponentMark(u)]
  }

  /** What follows the exponent mark; empty when there is none. */
  function ExponentPart(t: string): string {
    var u := t[SignLength(t)..];
    var k := ExponentMark(u);
    if k < |u| then u[k + 1..] else ""
  }

  /** A stripped text pandas reads as a number. */
  predicate IsNumeral(t: string) {
    var u := t[SignLength(t)..];
    && IsMantissa(Mantissa(t))
    && (ExponentMark(u) < |u| ==> IsExponent(ExponentPart(t)))
  }

  /** The number of digits after the decimal point. */
  function FractionLength(m: string): nat
    decreases |m|
  {
    if |m| == 0 || m[|m| - 1] == '.' || '.' !in m then 0
    else 1 + FractionLength(m[..|m| - 1])
  }

  function Pow10(n: nat): (p: nat)
    ensures p >= 1
  {
    if n == 0 then 1 else 10 * Pow10(n - 1)
  }

  /** A signed digit string's value, the sign being optional. */
  function SignedDigits(e: string): int {
    var d: int := DigitsValue(e[SignLength(e)..]);
    if SignLength(e) == 1 && e[0] == '-' then -d else d
  }

  /** The value of a numeral, rounded down: the mantissa's digits as one
      integer, scaled by ten to the exponent less the fraction length. */
  function NumeralValue(t: string): int {
    var m := Mantissa(t);
    var magnitude: int := DigitsValue(m);
    var signed := if SignLength(t) == 1 && t[0] == '-' then -magnitude else magnitude;
    var shift := SignedDigits(ExponentPart(t)) - FractionLength(m);
    if shift >= 0 then signed * Pow10(shift) else signed / Pow10(-shift)
  }

  /** `pd.to_numeric(v, errors='coerce')`, `None` for the NaN it gives. A
      number or boolean keeps its value; a missing cell or a list does not
      read; text reads when its stripped form is a numeral. On text `int()`
      accepts it agrees with `int()`, except that digit-group underscores
      never read. */
  function ToNumeric(v: Value): (r: Option<int>)
    ensures !v.Str? ==> r == PyInt(v)
    ensures v.Str? ==> (r.Some? <==> IsNumeral(Strip(v.s)))
    ensures v.Str? && ParsesAsInt(v.s) && '_' !in v.s ==> r == PyInt(v)
    ensures v.Str? && '_' in v.s ==> r.None?
  {
    match v
    case Str(s) =>
      if ParsesAsInt(s) && '_' !in s then
        IntLiteralReads(s); Some(NumeralValue(Strip(s)))
      else if '_' in s then
        UnderscoreNeverReads(s); None
      else if IsNumeral(Strip(s)) then Some(NumeralValue(Strip(s)))
      else None
    case _ => PyInt(v)
  }

  /** An underscore-free integer literal is a numeral with the value
      `int()` gives it. */
  lemma IntLiteralReads(s: string)
    requires ParsesAsInt(s) && '_' !in s
    ensures IsNumeral(Strip(s)) && NumeralValue(Strip(s)) == IntValue(s)
  {
    StripKeepsChars(s, '_');
    IntLiteralNumeral(Strip(s));
    IntValueSigned(s);
  }

  /** `int()`'s value is the signed digits of the stripped text. */
  lemma IntValueSigned(s: string)
    requires ParsesAsInt(s)
    ensures IntValue(s) == SignedDigits(Strip(s))
  {
    var t := Strip(s);
    assert t[0..] == t;
  }

  /** An integer literal without underscores is a numeral whose value is
      its signed digits. */
  lemma IntLiteralNumeral(t: string)
    requires IsIntLiteral(t) && '_' !in t
    ensures IsNumeral(t) && NumeralValue(t) == SignedDigits(t)
  {
    var u := t[SignLength(t)..];
    assert IsDigitGroupSeq(u);
    assert '_' !in u by {
      forall i | 0 <= i < |u| ensures u[i] != '_' {
        assert u[i] == t[SignLength(t) + i];
      }
    }
    GroupsWithoutUnderscore(u);
    SignedDigitsNumeral(t);
  }

  /** Digit groups without an underscore are plain digits. */
  lemma GroupsWithoutUnderscore(u: string)
    requires IsDigitGroupSeq(u) && '_' !in u
    ensures |u| > 0 && AllDigits(u)
  {
    forall i | 0 <= i < |u| ensures IsDigit(u[i]) {
      assert u[i] in u;
    }
  }

  /** A sign followed by digits is a numeral whose value is that of the
      digits, negated after a minus. */
  lemma SignedDigitsNumeral(t: string)
    requires SignLength(t) < |t| && AllDigits(t[SignLength(t)..])
    ensures IsNumeral(t)
    ensures NumeralValue(t) == SignedDigits(t)
  {
    var u := t[SignLength(t)..];
    DigitsShape(u);
    NoMark(u);
    assert u[..|u|] == u;
    assert Mantissa(t) == u;
    assert ExponentPart(t) == "";
    assert SignedDigits("") == 0;
  }

  /** `Strip` keeps every character that is not white space. */
  lemma StripKeepsChars(s: string, c: char)
    requires !IsSpace(c)
    ensures c in s <==> c in Strip(s)
  {
    StripKeepsNonSpace(s);
    if c in Strip(s) {
      var j :| 0 <= j < |Strip(s)| && Strip(s)[j] == c;
      var o := |s| - |StripLeft(s)|;
      assert Strip(s)[j] == s[o + j];
    }
  }

  /** Digits alone have no fraction. */
  lemma {:induction false} NoPointNoFraction(m: string)
    requires AllDigits(m)
    ensures FractionLength(m) == 0
  {
    if |m| > 0 {
      assert IsDigit(m[|m| - 1]);
      assert '.' !in m by {
        forall i | 0 <= i < |m| ensures m[i] != '.' { assert IsDigit(m[i]); }
      }
    }
  }

  /** No numeral holds an underscore, so pandas never reads `1_000`. */
  lemma UnderscoreNeverReads(s: string)
    requires '_' in s
    ensures !IsNumeral(Strip(s))
  {
    StripKeepsChars(s, '_');
    if IsNumeral(Strip(s)) {
      NoUnderscoreInNumeral(Strip(s));
    }
  }

  lemma NoUnderscoreInNumeral(t: string)
    requires IsNumeral(t)
    ensures '_' !in t
  {
    forall j | 0 <= j < |t| ensures t[j] != '_' {
      NumeralChar(t, j);
    }
  }

  /** The characters a numeral is written with. */
  predicate IsNumeralChar(c: char) {
    IsDigit(c) || c == '+' || c == '-' || c == '.' || IsExponentMark(c)
  }

  /** Each character of a numeral is a sign, a digit, a point or an
      exponent mark. */
  lemma NumeralChar(t: string, j: nat)
    requires IsNumeral(t) && j < |t|
    ensures IsNumeralChar(t[j])
  {
    var k := SignLength(t);
    if j < k {
      assert j == 0 && (t[0] == '+' || t[0] == '-');
    } else {
      var u := t[k..];
      var e := ExponentMark(u);
      assert |u| == |t| - k;
      if j - k < e {
        assert IsMantissa(Mantissa(t));
        MantissaPartChar(t, j - k);
      } else if j - k > e {
        assert IsExponent(ExponentPart(t));
        ExponentPartChar(t, j - k);
      } else {
        assert t[j] == u[e];
        assert IsExponentMark(u[e]);
      }
    }
  }

  lemma MantissaPartChar(t: string, i: nat)
    requires IsMantissa(Mantissa(t)) && i < ExponentMark(t[SignLength(t)..])
    ensures IsNumeralChar(t[SignLength(t) + i])
  {
    MantissaIndex(t, i);
    MantissaChar(Mantissa(t), i);
  }

  lemma ExponentPartChar(t: string, i: nat)
    requires ExponentMark(t[SignLength(t)..]) < i < |t[SignLength(t)..]|
    requires IsExponent(ExponentPart(t))
    ensures IsNumeralChar(t[SignLength(t) + i])
  {
    ExponentIndex(t, i);
    ExponentChar(ExponentPart(t), i - ExponentMark(t[SignLength(t)..]) - 1);
  }

  /** Index `i` past the sign, before the exponent mark, is the mantissa's. */
  lemma MantissaIndex(t: string, i: nat)
    requires i < ExponentMark(t[SignLength(t)..])
    ensures i < |Mantissa(t)| && t[SignLength(t) + i] == Mantissa(t)[i]
  {
    var u := t[SignLength(t)..];
    assert u[i] == t[SignLength(t) + i];
  }

  /** Index `i` past the sign and the exponent mark is the exponent's. */
  lemma ExponentIndex(t: string, i: nat)
    requires ExponentMark(t[SignLength(t)..]) < i < |t[SignLength(t)..]|
    ensures var e := ExponentMark(t[SignLength(t)..]);
      i - e - 1 < |ExponentPart(t)| && t[SignLength(t) + i] == ExponentPart(t)[i - e - 1]
  {
    var u := t[SignLength(t)..];
    assert u[i] == t[SignLength(t) + i];
  }

  lemma MantissaChar(m: string, i: nat)
    requires IsMantissa(m) && i < |m|
    ensures IsNumeralChar(m[i])
  {
  }

  lemma ExponentChar(x: string, i: nat)
    requires IsExponent(x) && i < |x|
    ensures IsNumeralChar(x[i])
  {
    var k := SignLength(x);
    if i >= k {
      assert x[i] == x[k..][i - k];
    }
  }

  /** A text with no white space reads as its numeral's value. */
  lemma ReadsAs(t: string)
    requires forall i :: 0 <= i < |t| ==> !IsSpace(t[i])
    requires IsNumeral(t)
    ensures ToNumeric(Str(t)) == Some(NumeralValue(t))
  {
    StripOfSpaceless(t);
  }

  /** Where no exponent mark occurs, the mark index is the length. */
  lemma NoMark(u: string)
    requires forall i :: 0 <= i < |u| ==> !IsExponentMark(u[i])
    ensures ExponentMark(u) == |u|
  {
  }

  /** The mark index is the first exponent mark. */
  lemma MarkAt(u: string, k: nat)
    requires k < |u| && IsExponentMark(u[k])
    requires forall i :: 0 <= i < k ==> !IsExponentMark(u[i])
    ensures ExponentMark(u) == k
  {
  }

  /** A digit string carries no sign, point or exponent mark. */
  lemma DigitsShape(d: string)
    requires |d| > 0 && AllDigits(d)
    ensures SignLength(d) == 0 && d[0..] == d
    ensures forall i :: 0 <= i < |d| ==> !IsExponentMark(d[i]) && !IsSpace(d[i]) && d[i] != '.'
    ensures IsMantissa(d) && FractionLength(d) == 0
  {
    assert IsDigit(d[0]);
    assert forall i :: 0 <= i < |d| ==> IsDigit(d[i]);
    NoPointNoFraction(d);
    DigitsHaveNoPoints(d);
  }

  lemma {:induction false} DigitsHaveNoPoints(d: string)
    requires AllDigits(d)
    ensures Points(d) == 0
    decreases |d|
  {
    if |d| > 0 {
      var init := d[..|d| - 1];
      assert forall i :: 0 <= i < |init| ==> init[i] == d[i];
      DigitsHaveNoPoints(init);
      assert IsDigit(d[|d| - 1]);
    }
  }

  /** `d.0` is a numeral with the mantissa `d.0` and no exponent. */
  lemma ZeroFractionShape(d: string)
    requires |d| > 0 && AllDigits(d)
    ensures forall i :: 0 <= i < |d + ".0"| ==> !IsSpace((d + ".0")[i])
    ensures IsNumeral(d + ".0")
    ensures SignLength(d + ".0") == 0
    ensures Mantissa(d + ".0") == d + ".0" && ExponentPart(d + ".0") == ""
  {
    var t := d + ".0";
    DigitsShape(d);
    assert forall i :: 0 <= i < |d| ==> t[i] == d[i];
    assert t[|d|] == '.' && t[|d| + 1] == '0';
    assert SignLength(t) == 0 by { assert t[0] == d[0]; }
    assert t[0..] == t;
    NoMark(t);
    assert t[..|t|] == t;
    assert IsMantissa(t) by {
      assert t[..|t| - 1] == d + "." && (d + ".")[..|d|] == d;
      DigitsHaveNoPoints(d);
      assert Points(d + ".") == Points(d) + 1;
      assert t[|t| - 1] == '0';
      assert Points(t) == Points(d + ".");
      assert IsDigit(t[|t| - 1]);
    }
  }

  /** `d.0` has one fraction digit and the digits of `d` followed by 0. */
  lemma ZeroFractionDigits(d: string)
    requires |d| > 0 && AllDigits(d)
    ensures FractionLength(d + ".0") == 1
    ensures DigitsValue(d + ".0") == DigitsValue(d) * 10
  {
    var t := d + ".0";
    var p := d + ".";
    assert t[..|t| - 1] == p;
    assert p[..|p| - 1] == d;
    assert '.' in t by { assert t[|d|] == '.'; }
    assert FractionLength(p) == 0;
    assert DigitsValue(p) == DigitsValue(d);
  }

  /** A decimal with a zero fraction, `d.0`, reads as the integer `d`. */
  lemma ZeroFractionReads(d: string)
    requires |d| > 0 && AllDigits(d)
    ensures ToNumeric(Str(d + ".0")) == Some(DigitsValue(d))
  {
    var t := d + ".0";
    ZeroFractionShape(d);
    ZeroFractionDigits(d);
    assert SignedDigits("") == 0;
    assert Pow10(1) == 10;
    var v := DigitsValue(d);
    assert NumeralValue(t) == (v * 10) / 10;
    assert (v * 10) / 10 == v;
    ReadsAs(t);
  }

  /** `d e x` is a numeral with mantissa `d` and exponent part `x`. */
  lemma ExponentShape(d: string, x: string)
    requires |d| > 0 && AllDigits(d) && |x| > 0 && AllDigits(x)
    ensures forall i :: 0 <= i < |d + "e" + x| ==> !IsSpace((d + "e" + x)[i])
    ensures IsNumeral(d + "e" + x)
    ensures SignLength(d + "e" + x) == 0
    ensures Mantissa(d + "e" + x) == d && ExponentPart(d + "e" + x) == x
  {
    var t := d + "e" + x;
    DigitsShape(d);
    DigitsShape(x);
    assert forall i :: 0 <= i < |d| ==> t[i] == d[i];
    assert forall i :: 0 <= i < |x| ==> t[|d| + 1 + i] == x[i];
    assert t[|d|] == 'e';
    assert SignLength(t) == 0 by { assert t[0] == d[0]; }
    assert t[0..] == t;
    MarkAt(t, |d|);
    assert t[..|d|] == d;
    assert t[|d| + 1..] == x;
  }

  /** An unsigned numeral with a whole mantissa and a non-negative exponent
      is its digits times ten to the exponent. */
  lemma WholeValue(t: string, m: string, x: string)
    requires SignLength(t) == 0 && Mantissa(t) == m && ExponentPart(t) == x
    requires FractionLength(m) == 0 && AllDigits(x)
    ensures NumeralValue(t) == DigitsValue(m) * Pow10(DigitsValue(x))
  {
    var n := DigitsValue(x);
    assert SignLength(x) == 0 by {
      if |x| > 0 { assert IsDigit(x[0]); }
    }
    assert x[0..] == x;
    assert SignedDigits(x) == n;
  }

  /** `d e x` reads as `d` times ten to the `x`. */
  lemma ExponentReads(d: string, x: string)
    requires |d| > 0 && AllDigits(d) && |x| > 0 && AllDigits(x)
    ensures ToNumeric(Str(d + "e" + x)) == Some(DigitsValue(d) * Pow10(DigitsValue(x)))
  {
    var t := d + "e" + x;
    ExponentShape(d, x);
    DigitsShape(d);
    DigitsShape(x);
    WholeValue(t, d, x);
    ReadsAs(t);
  }

  /** A text whose every character is a digit, point, sign or exponent mark
      is its own stripped form. */
  lemma StripOfSpaceless(t: string)
    requires forall i :: 0 <= i < |t| ==> !IsSpace(t[i])
    ensures Strip(t) == t
  {
    assert StripLeft(t) == t by {
      if |t| > 0 { assert !IsSpace(t[0]); }
    }
    assert StripRight(t) == t by {
      if |t| > 0 { assert !IsSpace(t[|t| - 1]); }
    }
  }

  /** A price written with a digit-group underscore does not read, though
      `int()` accepts it. */
  lemma GroupedPriceUnread()
    ensures ParsesAsInt("1_000")
    ensures ToNumeric(Str("1_000")).None?
  {
    var t := "1_000";
    assert t[0] == '1' && t[1] == '_' && t[2] == '0' && t[3] == '0' && t[4] == '0';
    assert '_' in t;
    StripOfSpaceless(t);
    GroupedThousand();
  }

  /** `1_000` is digits in underscore-separated groups. */
  lemma GroupedThousand()
    ensures IsDigitGroupSeq("1_000")
  {
    var t := "1_000";
    assert t == ['1', '_', '0', '0', '0'];
    forall i | 0 <= i < |t| ensures IsDigit(t[i]) || t[i] == '_' {
      assert i == 0 || i == 1 || i == 2 || i == 3 || i == 4;
    }
    forall i | 0 <= i < |t| - 1 ensures !(t[i] == '_' && t[i + 1] == '_') {
      assert i == 0 || i == 1 || i == 2 || i == 3;
    }
  }

  /** A price with a zero fraction reads as the whole number. */
  lemma DecimalPriceRead()
    ensures ToNumeric(Str("1000.0")) == Some(1000)
  {
    assert "1000.0" == "1000" + ".0";
    assert DigitsValue("1000") == 1000 by {
      assert "1000"[..3] == "100" && "100"[..2] == "10" && "10"[..1] == "1" && "1"[..0] == "";
    }
    ZeroFractionReads("1000");
  }

  /** A price in exponent notation reads as its value. */
  lemma ExponentPriceRead()
    ensures ToNumeric(Str("1e6")) == Some(1000000)
  {
    var d, x := "1", "6";
    assert d + "e" + x == "1e6";
    assert DigitsValue(d) == 1 by { assert d[..0] == ""; }
    assert DigitsValue(x) == 6 by { assert x[..0] == ""; }
    var p := Pow10(DigitsValue(x));
    assert p == 1000000;
    ExponentReads(d, x);
    assert ToNumeric(Str(d + "e" + x)) == Some(1 * p);
  }
}

=== FILE: parcels.dfy ===
/**
 Repair of registry rows whose address is a parcel code (a short text such
 as "PE-3121") rather than a street address, from the valuation register
 when the row has assessment numbers and from the parcel table when it
 does not. Both tables are parameters.
 */
module Parcels {
  import opened Text
  import opened PyValue
  import opened Registry
  import opened Valuation

  /** One row of the parcel table: parcel code, street address, and the
      assessment-number cell as read. */
  datatype Parcel = Parcel(parcelId: string, street: string, assn: Value)

  /** `nw[nw.parcel_id == v]`: the parcels whose code equals the cell `v`. */
  function ParcelsFor(nw: seq<Parcel>, v: Value): (m: seq<Parcel>)
    ensures |m| <= |nw|
    ensures forall p :: p in m <==> p in nw && v == Str(p.parcelId)
  {
    if |nw| == 0 then []
    else (if v == Str(nw[0].parcelId) then [nw[0]] else []) + ParcelsFor(nw[1..], v)
  }

  /** The character strip applied to a list repr before splitting on
      commas: `"['"`, `"'"`, `"']"`, `'"'`, `" "`, `"["`, `"]"` in turn. */
  function BareCodes(s: string): string {
    var a := Replace(s, "['", "");
    var b := Replace(a, "'", "");
    var c := Replace(b, "']", "");
    var d := Replace(c, "\"", "");
    var e := Replace(d, " ", "");
    var f := Replace(e, "[", "");
    Replace(f, "]", "")
  }

  /** `str(cell)` has the shape of a list repr: it starts with `['` and ends with `']`. */
  predicate LooksLikeList(s: string) {
    |s| >= 2 && s[..2] == "['" && s[|s| - 2..] == "']"
  }

  /** The register rows of every number, or `None` when some text is not
      an integer or some number has no register row (the source raises). */
  function RegisterRows(lv: seq<Entry>, parts: seq<string>): (r: Option<seq<Entry>>)
    ensures r.Some? ==> |r.value| == |parts|
    ensures r.Some? ==> forall k :: 0 <= k < |parts| ==> r.value[k] in lv
  {
    if |parts| == 0 then Some([])
    else if !ParsesAsInt(parts[0]) then None
    else
      var m := Lookup(lv, IntValue(parts[0]));
      var rest := RegisterRows(lv, parts[1..]);
      if |m| == 0 || rest.None? then None else Some([m[0]] + rest.value)
  }

  /** `building_name + ", " + address` for every register row, joined with `" + "`. */
  function JoinedAddresses(es: seq<Entry>): string {
    Join(seq(|es|, k requires 0 <= k < |es| => es[k].buildingName + ", " + es[k].address), " + ")
  }

  /** The loop body of `clean_parcel_id_based_addresses` on one row; `None`
      when the source raises. */
  function RepairRow(nw: seq<Parcel>, lv: seq<Entry>, r: Sale): (o: Option<Sale>)
    ensures o.Some? ==> o.value.(address := r.address, assessment := r.assessment) == r
    ensures o.Some? && o.value.assessment != r.assessment ==> ToStr(r.assessment) == "False"
    ensures |ToStr(r.address)| >= 10 ==> o == Some(r)
  {
    var assn := ToStr(r.assessment);
    var addr := ToStr(r.address);
    if |addr| < 10 && assn != "False" then
      if LooksLikeList(assn) then
        var es := RegisterRows(lv, Split(BareCodes(Strip(assn)), ','));
        if es.None? then None else Some(r.(address := Str(JoinedAddresses(es.value))))
      else Some(r)
    else if |addr| < 10 && addr != "0" && assn == "False" then
      var m := ParcelsFor(nw, r.address);
      if |m| == 1 then Some(r.(address := Str(m[0].street), assessment := m[0].assn))
      else if |m| == 0 && '/' in addr then
        if !r.address.Str? then None
        else
          var m2 := ParcelsFor(nw, Str(Split(r.address.s, '/')[0]));
          if |m2| == 1 then Some(r.(address := Str(m2[0].street))) else Some(r)
      else Some(r)
    else Some(r)
  }

  /** No row of the table makes the source raise. */
  predicate RepairSafe(nw: seq<Parcel>, lv: seq<Entry>, rows: seq<Sale>) {
    forall i :: 0 <= i < |rows| ==> RepairRow(nw, lv, rows[i]).Some?
  }

  /** `clean_parcel_id_based_addresses(df)` with the parcel table `nw` and
      the register `lv` passed in. */
  function CleanParcelAddresses(rows: seq<Sale>, nw: seq<Parcel>, lv: seq<Entry>): (out: seq<Sale>)
    requires RepairSafe(nw, lv, rows)
    ensures |out| == |rows|
    ensures forall i :: 0 <= i < |rows| ==> out[i].(address := rows[i].address, assessment := rows[i].assessment) == rows[i]
    ensures forall i :: 0 <= i < |rows| && |ToStr(rows[i].address)| >= 10 ==> out[i] == rows[i]
  {
    seq(|rows|, i requires 0 <= i < |rows| => RepairRow(nw, lv, rows[i]).value)
  }

  // ---------------------------------------------------------------------
  // A one-code list
  // ---------------------------------------------------------------------

  /** Replacing a pattern containing a character the text lacks changes nothing. */
  lemma ReplaceMissing(s: string, pat: string, c: char)
    requires |pat| > 0 && c in pat && c !in s
    ensures Replace(s, pat, "") == s
  {
    NotContainsChar(s, pat, c);
    ReplaceAbsent(s, pat, "");
  }

  /** Deleting a character from text that ends with it and holds it nowhere else. */
  lemma DropTrailing(t: string, tail: string, c: char)
    requires c !in t && |tail| > 0 && tail[0] == c && c !in tail[1..]
    ensures Replace(t + tail, [c], "") == t + tail[1..]
  {
    ReplaceOneCharIsRemove(t + tail, c);
    RemoveCharAppend(t, tail, c);
    RemoveCharAbsent(t, c);
    assert tail == [c] + tail[1..];
    RemoveCharAppend([c], tail[1..], c);
    RemoveCharAbsent(tail[1..], c);
  }

  lemma OpeningRemoved(t: string)
    requires AllDigits(t)
    ensures Replace("['" + t + "']", "['", "") == t + "']"
  {
    var s := "['" + t + "']";
    assert s[..2] == "['" && s[2..] == t + "']";
    ReplaceMissing(t + "']", "['", '[');
  }

  /** Stripping the repr of a one-code list leaves the code. */
  lemma BareCodesOfOne(t: string)
    requires AllDigits(t)
    ensures BareCodes("['" + t + "']") == t
  {
    var s := "['" + t + "']";
    var a := Replace(s, "['", "");
    OpeningRemoved(t);
    var b := Replace(a, "'", "");
    DropTrailing(t, "']", '\'');
    var c := Replace(b, "']", "");
    ReplaceMissing(b, "']", '\'');
    var d := Replace(c, "\"", "");
    ReplaceMissing(c, "\"", '"');
    var e := Replace(d, " ", "");
    ReplaceMissing(d, " ", ' ');
    var f := Replace(e, "[", "");
    ReplaceMissing(e, "[", '[');
    DropTrailing(t, "]", ']');
  }

  /** A digit string `int()` accepts is worth its digits. */
  lemma DigitsParse(t: string)
    requires |t| > 0 && AllDigits(t)
    ensures ParsesAsInt(t) && IntValue(t) == DigitsValue(t)
  {
    StripTrimmed(t);
  }

  /** The text of a one-code list looks like a list and yields that code alone. */
  lemma OneCodeText(t: string)
    requires |t| > 0 && AllDigits(t)
    ensures LooksLikeList(ToStr(List([t])))
    ensures ToStr(List([t])) != "False"
    ensures Split(BareCodes(Strip(ToStr(List([t])))), ',') == [t]
  {
    var s := "['" + t + "']";
    ListText(t);
    assert s[..2] == "['" && s[|s| - 2..] == "']";
    StripTrimmed(s);
    BareCodesOfOne(t);
    SplitNoSep(t, ',');
  }

  /** A code the register knows selects its first register row. */
  lemma OneCodeRow(lv: seq<Entry>, t: string, n: int)
    requires ParsesAsInt(t) && IntValue(t) == n && Lookup(lv, n) != []
    ensures RegisterRows(lv, [t]) == Some([Lookup(lv, n)[0]])
  {
    assert [t][0] == t && [t][1..] == [];
    assert RegisterRows(lv, []) == Some([]);
    var m := Lookup(lv, n);
    assert RegisterRows(lv, [t]) == Some([m[0]] + []);
    assert [m[0]] + [] == [m[0]];
  }

  /** A row whose address is a parcel code and whose assessment cell is a
      one-code list known to the register gets the register row's building
      name and address. */
  lemma OneCodeRepaired(nw: seq<Parcel>, lv: seq<Entry>, r: Sale, t: string)
    requires |t| > 0 && AllDigits(t) && r.assessment == List([t]) && |ToStr(r.address)| < 10
    requires Lookup(lv, DigitsValue(t)) != []
    ensures RepairRow(nw, lv, r) ==
      Some(r.(address := Str(Lookup(lv, DigitsValue(t))[0].buildingName + ", " + Lookup(lv, DigitsValue(t))[0].address)))
  {
    OneCodeText(t);
    DigitsParse(t);
    OneCodeRow(lv, t, DigitsValue(t));
    var e := Lookup(lv, DigitsValue(t))[0];
    assert JoinedAddresses([e]) == e.buildingName + ", " + e.address;
  }

  /** A row whose address is a parcel code, whose assessment is `False`,
      and whose code names exactly one parcel takes that parcel's street
      and assessment number. */
  lemma ParcelCodeRepaired(nw: seq<Parcel>, lv: seq<Entry>, r: Sale, p: Parcel)
    requires r.assessment == Bool(false) && r.address == Str(p.parcelId)
    requires |p.parcelId| < 10 && p.parcelId != "0"
    requires ParcelsFor(nw, r.address) == [p]
    ensures RepairRow(nw, lv, r) == Some(r.(address := Str(p.street), assessment := p.assn))
  {
  }
}

=== FILE: pipelines.dfy ===
/**
 The registry import: the new workbook's rows are coerced and screened,
 appended to the rows already imported, and run through the registry
 passes in the order the import script applies them.
 */
module RegistryImport {
  import opened PyValue
  import opened Registry
  import opened Duplicates
  import opened Valuation
  import opened Tables
  import opened Numeric
  import Listings

  /** A row of the new registry workbook with its price cell as read; the
      `price` field of `sale` is not used. */
  datatype RawSale = RawSale(sale: Sale, priceCell: Value)

  /** `pd.to_numeric(errors='coerce')` and then NaN to 0: a cell that
      reads as a number keeps its value, anything else becomes 0. A text
      price `int()` would accept reads the same, unless it groups its digits
      with underscores. */
  function NumericPrice(v: Value): (p: int)
    ensures ToNumeric(v).None? ==> p == 0
    ensures ToNumeric(v).Some? ==> ToNumeric(v) == Some(p)
    ensures v.Str? && Text.ParsesAsInt(v.s) && '_' !in v.s ==> Some(p) == PyInt(v)
    ensures !v.Str? && PyInt(v).Some? ==> Some(p) == PyInt(v)
  {
    match ToNumeric(v)
    case Some(n) => n
    case None => 0
  }

  /** No cell of the row is missing. */
  predicate Filled(s: Sale) {
    && !s.application.Null? && !s.parish.Null? && !s.assessment.Null?
    && !s.address.Null? && !s.mode.Null? && !s.nature.Null? && !s.propertyType.Null?
  }

  /** The row after price coercion and `replace(np.nan, 0)`: every missing
      cell becomes 0, every present cell stays, and the price is the
      coerced number. */
  function Loaded(r: RawSale): (s: Sale)
    ensures Filled(s) && !s.reread
    ensures s.price == NumericPrice(r.priceCell)
    ensures && s.application == FillNull(r.sale.application, Int(0))
            && s.parish == FillNull(r.sale.parish, Int(0))
            && s.assessment == FillNull(r.sale.assessment, Int(0))
            && s.address == FillNull(r.sale.address, Int(0))
            && s.mode == FillNull(r.sale.mode, Int(0))
            && s.nature == FillNull(r.sale.nature, Int(0))
            && s.propertyType == FillNull(r.sale.propertyType, Int(0))
    ensures Filled(r.sale) ==> s == r.sale.(price := NumericPrice(r.priceCell), reread := false)
    ensures s.(application := r.sale.application, parish := r.sale.parish, assessment := r.sale.assessment,
               address := r.sale.address, mode := r.sale.mode, nature := r.sale.nature,
               propertyType := r.sale.propertyType, price := r.sale.price, reread := r.sale.reread) == r.sale
  {
    var z := Int(0);
    r.sale.(application := FillNull(r.sale.application, z), parish := FillNull(r.sale.parish, z),
            assessment := FillNull(r.sale.assessment, z), address := FillNull(r.sale.address, z),
            mode := FillNull(r.sale.mode, z), nature := FillNull(r.sale.nature, z),
            propertyType := FillNull(r.sale.propertyType, z), price := NumericPrice(r.priceCell),
            reread := false)
  }

  /** A real sale: leases for a token price fall below the floor. */
  predicate AtLeastFloor(s: Sale) { s.price >= 1000 }

  /** No street address (`address.str.len() < 10`) and no number (0 or
      "Unknown"): the row cannot be placed. */
  predicate Unidentifiable(s: Sale) {
    var n := Listings.NameLength(s.address);
    n.Some? && n.value < 10 && (EqInt(s.assessment, 0) || EqStr(s.assessment, "Unknown"))
  }

  predicate Identifiable(s: Sale) { !Unidentifiable(s) }

  function LoadedAll(raw: seq<RawSale>): (rows: seq<Sale>)
    ensures |rows| == |raw|
    ensures forall i :: 0 <= i < |raw| ==> rows[i] == Loaded(raw[i])
  {
    seq(|raw|, i requires 0 <= i < |raw| => Loaded(raw[i]))
  }

  /** The new workbook's rows that enter the import. */
  function NewRows(raw: seq<RawSale>): (rows: seq<Sale>)
    ensures |rows| <= |raw|
    ensures forall a :: 0 <= a < |rows| ==>
      Filled(rows[a]) && rows[a].price >= 1000 && !Unidentifiable(rows[a]) && !rows[a].reread
    ensures forall a :: 0 <= a < |rows| ==> exists i :: 0 <= i < |raw| && rows[a] == Loaded(raw[i])
    ensures forall i :: 0 <= i < |raw| && NumericPrice(raw[i].priceCell) >= 1000 && !Unidentifiable(Loaded(raw[i])) ==>
      Loaded(raw[i]) in rows
  {
    var loaded := LoadedAll(raw);
    var priced := Filter(loaded, AtLeastFloor);
    var placed := Filter(priced, Identifiable);
    forall i | 0 <= i < |raw| && NumericPrice(raw[i].priceCell) >= 1000 && !Unidentifiable(Loaded(raw[i]))
      ensures Loaded(raw[i]) in placed
    {
      assert loaded[i] == Loaded(raw[i]);
      var k :| 0 <= k < |priced| && priced[k] == Loaded(raw[i]);
    }
    placed
  }

  /** A price cell that does not read as a number removes the row. */
  lemma TextPriceDropped(raw: seq<RawSale>, i: nat)
    requires i < |raw| && ToNumeric(raw[i].priceCell).None?
    ensures Loaded(raw[i]) !in NewRows(raw)
  {
  }

  /** A text price with a digit-group underscore removes the row, though
      `int()` would read it. */
  lemma GroupedPriceDropped(raw: seq<RawSale>, i: nat)
    requires i < |raw| && raw[i].priceCell.Str? && '_' in raw[i].priceCell.s
    ensures Loaded(raw[i]) !in NewRows(raw)
  {
    TextPriceDropped(raw, i);
  }

  /** A row with a short code for an address and a missing assessment
      number is dropped, because the missing number became 0. */
  lemma MissingNumberDropped(raw: seq<RawSale>, i: nat)
    requires i < |raw| && raw[i].sale.assessment.Null?
    requires raw[i].sale.address.Str? && |raw[i].sale.address.s| < 10
    ensures Loaded(raw[i]) !in NewRows(raw)
  {
    assert Unidentifiable(Loaded(raw[i]));
  }

  /** The rows read back from the earlier export, marked as such and
      otherwise unchanged. */
  function Reread(older: seq<Sale>): (rows: seq<Sale>)
    ensures |rows| == |older|
    ensures forall i :: 0 <= i < |older| ==> rows[i] == older[i].(reread := true)
  {
    seq(|older|, i requires 0 <= i < |older| => older[i].(reread := true))
  }

  /** The columns `drop_duplicates` compares, with the table the row came
      from: a text date never equals a `datetime.date`, so two rows match
      only when they come from the same table. */
  function ExactKey(s: Sale): (Value, Option<int>, Option<int>, Value, int, bool) {
    (s.application, s.registration, s.acquisition, s.assessment, s.price, s.reread)
  }

  /** A new row is the first of its key in the combined table whenever it
      is the first among the new rows: no older row ever duplicates it. */
  lemma {:induction false} NewFirstStaysFirst(older: seq<Sale>, added: seq<Sale>, j: nat)
    requires j < |added| && !added[j].reread && FirstOfKey(added, ExactKey, j)
    ensures FirstOfKey(Reread(older) + added, ExactKey, |older| + j)
  {
    var rows := Reread(older) + added;
    forall i | 0 <= i < |older| + j
      ensures ExactKey(rows[i]) != ExactKey(rows[|older| + j])
    {
      assert rows[|older| + j] == added[j];
      if i < |older| {
        assert rows[i].reread;
      } else {
        assert rows[i] == added[i - |older|];
      }
    }
  }

  /** A row first of its key among the added rows survives the
      de-duplication of the reread rows followed by the added ones. */
  lemma KeptAfterOlder(older: seq<Sale>, added: seq<Sale>, j: nat)
    requires j < |added| && !added[j].reread && FirstOfKey(added, ExactKey, j)
    ensures added[j] in KeepFirst(Reread(older) + added, ExactKey)
  {
    NewFirstStaysFirst(older, added, j);
    var rows := Reread(older) + added;
    assert rows[|older| + j] == added[j];
    KeepFirstKeepsFirst(rows, ExactKey, |older| + j);
  }

  /** Every new row that is the first of its cells among the new rows
      survives the exact de-duplication, even when an older row holds the
      same cells. */
  lemma NewRowSurvivesDeduplication(older: seq<Sale>, raw: seq<RawSale>, j: nat)
    requires j < |NewRows(raw)| && FirstOfKey(NewRows(raw), ExactKey, j)
    ensures NewRows(raw)[j] in KeepFirst(Reread(older) + NewRows(raw), ExactKey)
  {
    var added := NewRows(raw);
    assert !added[j].reread;
    KeptAfterOlder(older, added, j);
  }

  /** A row of the earlier export and the same sale in the new workbook are
      both kept by the exact de-duplication. */
  lemma CrossTableCopiesKept(s: Sale)
    ensures KeepFirst([s.(reread := true), s.(reread := false)], ExactKey)
         == [s.(reread := true), s.(reread := false)]
  {
    var xs := [s.(reread := true), s.(reread := false)];
    assert xs[..1] == [s.(reread := true)];
    assert xs[..|xs| - 1] == [s.(reread := true)];
    assert [s.(reread := true)][..0] == [];
  }

  /** Rent of three years reaches the price: not an arm's-length sale. */
  predicate BelowThreeYearsRent(s: Sale) { !(s.combinedArv * 3 >= s.price) }

  /** The import from the concatenation of the older rows and the new
      workbook to the filtered table, stage by stage; `None` when a stage
      raises. `lv` is the valuation register and `choose` picks among
      candidate types. */
  function ProcessRegistry(older: seq<Sale>, raw: seq<RawSale>, lv: seq<Entry>, choose: seq<string> -> nat)
    : (out: Option<seq<Sale>>)
    ensures out.Some? ==> |out.value| <= |older| + |raw|
    ensures out.Some? ==> forall a :: 0 <= a < |out.value| ==> 3 * out.value[a].combinedArv < out.value[a].price
  {
    Stages(Reread(older) + NewRows(raw), lv, choose)
  }

  /** The registry passes on the combined table, from classification to
      the final filter. */
  function Stages(rows: seq<Sale>, lv: seq<Entry>, choose: seq<string> -> nat): (out: Option<seq<Sale>>)
    ensures out.Some? ==> |out.value| <= |rows|
    ensures out.Some? ==> forall a :: 0 <= a < |out.value| ==> 3 * out.value[a].combinedArv < out.value[a].price
  {
    var typed := Classify(rows);
    if typed.None? then None
    else
      var merged := Consolidate(typed.value);
      if merged.None? then None
      else
        var retyped := Enrich(merged.value, lv, choose);
        if retyped.None? then None
        else Some(Filter(retyped.value, BelowThreeYearsRent))
  }

  /** The two classifiers in turn (`process_LTRO.py` lines 84-85); `None`
      when the second raises on some row. Only the type changes; a
      row ends fractional exactly when the fractional pass made it so, and
      with one of the five registry types. */
  function Classify(rows: seq<Sale>): (out: Option<seq<Sale>>)
    ensures out.Some? ==> ClassifiedFrom(rows, out.value)
  {
    var marked := IdentifyFractionals(rows);
    if exists i :: 0 <= i < |marked| && LandHouseCondoCrashes(marked[i]) then None
    else
      ClassifiersCompose(rows);
      Some(IdentifyLandHouseCondo(marked))
  }

  /** Classification raises exactly when the land / house / condo pass
      meets a row, as the fractional pass left it, that makes it raise. */
  lemma ClassifyRaisesExactly(rows: seq<Sale>)
    ensures Classify(rows).None? <==>
      exists i :: 0 <= i < |rows| && LandHouseCondoCrashes(IdentifyFractionals(rows)[i])
  {
  }

  /** `after` is `before` with only the types changed: fractional exactly
      where the fractional pass said so, and one of the five registry types
      everywhere. */
  predicate ClassifiedFrom(before: seq<Sale>, after: seq<Sale>) {
    |after| == |before| && forall i :: 0 <= i < |before| ==>
      && after[i].(propertyType := before[i].propertyType) == before[i]
      && (after[i].propertyType == Str("fractional") <==> FractionalType(before[i]) == Str("fractional"))
      && after[i].propertyType in {Str("fractional"), Str("land"), Str("condo"), Str("house"), Int(0)}
  }

  /** Exact duplicates removed, then groups sharing an application number
      consolidated; `None` when consolidation raises. No application
      number is lost, and every row left is an input row, at most with its
      assessment cell rewritten. */
  function Consolidate(typed: seq<Sale>): (out: Option<seq<Sale>>)
    ensures out.Some? ==> |out.value| <= |typed|
    ensures out.Some? ==> ApplicationsKept(typed, out.value) && OnlyNumbersRewritten(typed, out.value)
  {
    var unique := KeepFirst(typed, ExactKey);
    if !HasDuplicate(unique) || DuplicatesCrash(unique) then None
    else
      var merged := Consolidated(unique);
      ConsolidatedShrinks(unique);
      ConsolidateKeepsApplications(typed);
      ConsolidateKeepsRows(typed);
      Some(merged)
  }

  /** Every application number of `before` has a row in `after`. */
  predicate ApplicationsKept(before: seq<Sale>, after: seq<Sale>) {
    forall i :: 0 <= i < |before| ==> exists r :: r in after && r.application == before[i].application
  }

  /** Every row of `after` is a row of `before`, at most with its
      assessment cell rewritten. */
  predicate OnlyNumbersRewritten(before: seq<Sale>, after: seq<Sale>) {
    forall r :: r in after ==> exists j :: 0 <= j < |before| && r.(assessment := before[j].assessment) == before[j]
  }

  /** Every application number survives de-duplication and consolidation. */
  lemma ConsolidateKeepsApplications(typed: seq<Sale>)
    ensures ApplicationsKept(typed, Consolidated(KeepFirst(typed, ExactKey)))
  {
    var unique := KeepFirst(typed, ExactKey);
    forall i | 0 <= i < |typed|
      ensures exists r :: r in Consolidated(unique) && r.application == typed[i].application
    {
      var j := FirstOfItsKey(typed, ExactKey, i);
      KeepFirstKeepsFirst(typed, ExactKey, j);
      var m :| 0 <= m < |unique| && unique[m] == typed[j];
      ApplicationSurvives(unique, m);
    }
  }

  /** Every consolidated row is an input row, at most with its assessment
      cell rewritten. */
  lemma ConsolidateKeepsRows(typed: seq<Sale>)
    ensures OnlyNumbersRewritten(typed, Consolidated(KeepFirst(typed, ExactKey)))
  {
    var unique := KeepFirst(typed, ExactKey);
    forall r | r in Consolidated(unique)
      ensures exists j :: 0 <= j < |typed| && r.(assessment := typed[j].assessment) == typed[j]
    {
      ConsolidatedFrom(unique, r);
      var m :| 0 <= m < |unique| && r.(assessment := unique[m].assessment) == unique[m];
      var j :| 0 <= j < |typed| && typed[j] == unique[m];
    }
  }

  /** Rents added, then types corrected from the register; `None` exactly
      when the rent lookup raises. Only the two rent columns and the type
      change, and the combined rent follows the rent cell. */
  function Enrich(merged: seq<Sale>, lv: seq<Entry>, choose: seq<string> -> nat): (out: Option<seq<Sale>>)
    ensures out.Some? <==> ArvColumn(lv, NumberColumn(merged), None).Some?
    ensures out.Some? ==> EnrichedFrom(merged, out.value)
  {
    var priced := AddArv(merged, lv);
    if priced.None? then None
    else Some(CleanPropertyType(priced.value, lv, choose))
  }

  /** `after` is `before` with only the two rent columns and the type
      changed, and the combined rent following the rent cell. */
  predicate EnrichedFrom(before: seq<Sale>, after: seq<Sale>) {
    |after| == |before| && forall i :: 0 <= i < |before| ==>
      && after[i].(arv := before[i].arv, combinedArv := before[i].combinedArv,
                   propertyType := before[i].propertyType) == before[i]
      && after[i].combinedArv == CombinedArv(after[i].arv)
  }

  /** Consolidation never adds rows. */
  lemma ConsolidatedShrinks(rows: seq<Sale>)
    ensures |Consolidated(rows)| <= |rows|
  {
  }

  /** The last stage keeps a row exactly when three years of its combined
      rent stay below its price. */
  lemma FinalFilterExact(rows: seq<Sale>, i: nat)
    requires i < |rows|
    ensures rows[i] in Filter(rows, BelowThreeYearsRent) <==> 3 * rows[i].combinedArv < rows[i].price
  {
  }
}

/**
 The brokerage-feed import: sold transactions are de-duplicated, screened
 and classified, then the cross-feed passes drop those the registry
 already holds.
 */
module FeedImport {
  import opened PyValue
  import opened Stats
  import opened CrossFeed
  import opened Tables
  import Registry

  /** `status == "Sold"`. */
  predicate IsSold(t: Transaction) { EqStr(t.status, "Sold") }

  /** The columns `duplicated` compares. */
  function FeedKey(t: Transaction): (Option<int>, Value, Value, Value, Value, int, Value) {
    (t.date, t.parish, t.buildingName, t.addressLine, t.postcode, t.price, t.assessment)
  }

  /** No cell of the row is missing. */
  predicate Filled(t: Transaction) {
    && !t.status.Null? && !t.parish.Null? && !t.buildingName.Null? && !t.addressLine.Null?
    && !t.postcode.Null? && !t.assessment.Null? && !t.propertyType.Null?
    && !t.isLand.Null? && !t.isFractionalUnit.Null?
  }

  /** `replace(np.nan, 0)` on one row: a missing cell becomes 0, every
      other cell, the date and the price stay. */
  function Zeroed(t: Transaction): (r: Transaction)
    ensures Filled(r)
    ensures && r.status == FillNull(t.status, Int(0))
            && r.parish == FillNull(t.parish, Int(0))
            && r.buildingName == FillNull(t.buildingName, Int(0))
            && r.addressLine == FillNull(t.addressLine, Int(0))
            && r.postcode == FillNull(t.postcode, Int(0))
            && r.assessment == FillNull(t.assessment, Int(0))
            && r.propertyType == FillNull(t.propertyType, Int(0))
            && r.isLand == FillNull(t.isLand, Int(0))
            && r.isFractionalUnit == FillNull(t.isFractionalUnit, Int(0))
    ensures Filled(t) ==> r == t
    ensures r.date == t.date && r.price == t.price
  {
    var z := Int(0);
    t.(status := FillNull(t.status, z), parish := FillNull(t.parish, z),
       buildingName := FillNull(t.buildingName, z), addressLine := FillNull(t.addressLine, z),
       postcode := FillNull(t.postcode, z), assessment := FillNull(t.assessment, z),
       propertyType := FillNull(t.propertyType, z), isLand := FillNull(t.isLand, z),
       isFractionalUnit := FillNull(t.isFractionalUnit, z))
  }

  /** `price > 1000`. */
  predicate AboveFloor(t: Transaction) { t.price > 1000 }

  /** A sold sale the later stages may see. */
  predicate Admitted(t: Transaction) { t.status == Str("Sold") && t.price > 1000 }

  function ZeroedAll(rows: seq<Transaction>): (out: seq<Transaction>)
    ensures |out| == |rows|
    ensures forall i :: 0 <= i < |rows| ==> out[i] == Zeroed(rows[i])
  {
    seq(|rows|, i requires 0 <= i < |rows| => Zeroed(rows[i]))
  }

  /** Sold rows, the first of each key, missing cells zeroed, and only
      prices above 1000: every remaining row is the zeroed first sold row
      of its key, and every such row priced above 1000 remains. */
  function SoldSales(rows: seq<Transaction>): (out: seq<Transaction>)
    ensures |out| <= |rows|
    ensures forall a :: 0 <= a < |out| ==> Admitted(out[a]) && Filled(out[a])
    ensures forall a :: 0 <= a < |out| ==> ZeroedFirstOfKey(Filter(rows, IsSold), out[a])
    ensures forall k :: 0 <= k < |Filter(rows, IsSold)| ==>
      (FirstOfKey(Filter(rows, IsSold), FeedKey, k) && Filter(rows, IsSold)[k].price > 1000 ==>
         Zeroed(Filter(rows, IsSold)[k]) in out)
  {
    var sold := Filter(rows, IsSold);
    var out := Screen(sold);
    forall a | 0 <= a < |out|
      ensures Admitted(out[a])
      ensures ZeroedFirstOfKey(sold, out[a])
    {
      var k := ScreenOrigin(sold, a);
      assert IsSold(sold[k]);
    }
    forall k | 0 <= k < |sold| && FirstOfKey(sold, FeedKey, k) && sold[k].price > 1000
      ensures Zeroed(sold[k]) in out
    {
      ScreenComplete(sold, k);
    }
    out
  }

  /** `x` is the first row of its key in `sold`, zero-filled. */
  predicate ZeroedFirstOfKey(sold: seq<Transaction>, x: Transaction) {
    exists k :: 0 <= k < |sold| && FirstOfKey(sold, FeedKey, k) && x == Zeroed(sold[k])
  }

  /** The de-duplication, zero fill and price floor applied to the sold rows. */
  function Screen(sold: seq<Transaction>): (out: seq<Transaction>)
    ensures |out| <= |sold|
    ensures forall a :: 0 <= a < |out| ==> AboveFloor(out[a]) && Filled(out[a])
  {
    Filter(ZeroedAll(KeepFirst(sold, FeedKey)), AboveFloor)
  }

  /** Every screened row is the zeroed first row of its key. */
  lemma ScreenOrigin(sold: seq<Transaction>, a: nat) returns (k: nat)
    requires a < |Screen(sold)|
    ensures k < |sold| && FirstOfKey(sold, FeedKey, k) && Screen(sold)[a] == Zeroed(sold[k])
  {
    var distinct := KeepFirst(sold, FeedKey);
    var zeroed := ZeroedAll(distinct);
    var i :| 0 <= i < |zeroed| && zeroed[i] == Screen(sold)[a];
    KeepFirstKeepsFirsts(sold, FeedKey, i);
    k :| 0 <= k < |sold| && sold[k] == distinct[i] && FirstOfKey(sold, FeedKey, k);
  }

  /** The first row of every key, priced above 1000, is screened in. */
  lemma ScreenComplete(sold: seq<Transaction>, k: nat)
    requires k < |sold| && FirstOfKey(sold, FeedKey, k) && sold[k].price > 1000
    ensures Zeroed(sold[k]) in Screen(sold)
  {
    var distinct := KeepFirst(sold, FeedKey);
    KeepFirstKeepsFirst(sold, FeedKey, k);
    var i :| 0 <= i < |distinct| && distinct[i] == sold[k];
    assert ZeroedAll(distinct)[i] == Zeroed(sold[k]);
  }

  /** A sold row priced above 1000 is represented after de-duplication by
      the first sold row with its key, which has the same price. */
  lemma SoldRowRepresented(rows: seq<Transaction>, i: nat)
    requires i < |rows| && IsSold(rows[i]) && rows[i].price > 1000
    ensures exists k :: (0 <= k < |Filter(rows, IsSold)| && FeedKey(Filter(rows, IsSold)[k]) == FeedKey(rows[i]) &&
      Zeroed(Filter(rows, IsSold)[k]) in SoldSales(rows))
  {
    var sold := Filter(rows, IsSold);
    var m :| 0 <= m < |sold| && sold[m] == rows[i];
    var k := FirstOfItsKey(sold, FeedKey, m);
    assert sold[k].price == rows[i].price;
  }

  /** The feed's own flags, in the script's order: `is_land` first, then
      `is_fractional_unit`, which wins while both stand. */
  function FlagOverrides(t: Transaction): (r: Transaction)
    ensures r.(propertyType := t.propertyType) == t
    ensures FlaggedFractional(t) ==> r.propertyType == Str("fractional")
    ensures FlaggedLand(t) && !FlaggedFractional(t) ==> r.propertyType == Str("land")
    ensures !FlaggedLand(t) && !FlaggedFractional(t) ==> r == t
  {
    var u := if FlaggedLand(t) then t.(propertyType := Str("land")) else t;
    if FlaggedFractional(u) then u.(propertyType := Str("fractional")) else u
  }

  /** One row through the flag overrides and the two keyword passes. */
  function Classified(t: Transaction): (r: Transaction)
    ensures r.status == t.status && r.price == t.price && r.date == t.date && r.parish == t.parish
  {
    LandRow(FractionalRow(FlagOverrides(t)))
  }

  /** A row the feed flags as both land and a fractional unit ends as land,
      without an assessment number: the land pass reapplies the land flag
      after the fractional pass. */
  lemma BothFlagsEndLand(t: Transaction)
    requires FlaggedLand(t) && FlaggedFractional(t)
    ensures Classified(t).propertyType == Str("land")
    ensures Classified(t).assessment.Null?
  {
    var f := FractionalRow(FlagOverrides(t));
    assert f.assessment.Null?;
  }

  /** One screened row classified and with its parish name simplified. */
  function PreparedRow(t: Transaction): Transaction {
    var c := Classified(t);
    c.(parish := Registry.SimplifyParish(c.parish))
  }

  /** The table after screening, classification, the hand-curated drops
      (`dropped`), parish names and the zero-price filter: the input of
      the cross-feed passes. A screened row is there, classified and
      renamed, exactly when the hand-curated lists do not name it. */
  function Prepared(rows: seq<Transaction>, dropped: Transaction -> bool): (out: seq<Transaction>)
    ensures forall a :: 0 <= a < |out| ==> Admitted(out[a])
    ensures forall a :: 0 <= a < |out| ==> PreparedFrom(SoldSales(rows), dropped, out[a])
    ensures forall j :: 0 <= j < |SoldSales(rows)| ==>
      (!dropped(Classified(SoldSales(rows)[j])) ==> PreparedRow(SoldSales(rows)[j]) in out)
  {
    var named := Kept(SoldSales(rows), dropped);
    NonzeroFilterRemovesNothing(named);
    Filter(named, Priced)
  }

  /** `x` is a screened row the hand-curated lists do not name, classified
      and renamed. */
  predicate PreparedFrom(screened: seq<Transaction>, dropped: Transaction -> bool, x: Transaction) {
    exists j :: 0 <= j < |screened| && !dropped(Classified(screened[j])) && x == PreparedRow(screened[j])
  }

  /** The screened rows classified, without those the hand-curated lists
      name, with simplified parish names. */
  function Kept(screened: seq<Transaction>, dropped: Transaction -> bool): (out: seq<Transaction>)
    requires forall i :: 0 <= i < |screened| ==> Admitted(screened[i])
    ensures forall a :: 0 <= a < |out| ==> Admitted(out[a])
    ensures forall a :: 0 <= a < |out| ==> PreparedFrom(screened, dropped, out[a])
    ensures forall j :: 0 <= j < |screened| ==>
      (!dropped(Classified(screened[j])) ==> PreparedRow(screened[j]) in out)
  {
    KeptOrigin(screened, dropped);
    KeptComplete(screened, dropped);
    Renamed(Undropped(ClassifiedAll(screened), dropped))
  }

  lemma KeptOrigin(screened: seq<Transaction>, dropped: Transaction -> bool)
    requires forall i :: 0 <= i < |screened| ==> Admitted(screened[i])
    ensures var out := Renamed(Undropped(ClassifiedAll(screened), dropped));
      forall a :: 0 <= a < |out| ==> PreparedFrom(screened, dropped, out[a])
  {
    var classified := ClassifiedAll(screened);
    var kept := Undropped(classified, dropped);
    var named := Renamed(kept);
    forall a | 0 <= a < |named|
      ensures PreparedFrom(screened, dropped, named[a])
    {
      var j :| 0 <= j < |classified| && classified[j] == kept[a];
      assert named[a] == PreparedRow(screened[j]);
    }
  }

  lemma KeptComplete(screened: seq<Transaction>, dropped: Transaction -> bool)
    requires forall i :: 0 <= i < |screened| ==> Admitted(screened[i])
    ensures var out := Renamed(Undropped(ClassifiedAll(screened), dropped));
      forall j :: 0 <= j < |screened| ==> (!dropped(Classified(screened[j])) ==> PreparedRow(screened[j]) in out)
  {
    var classified := ClassifiedAll(screened);
    var kept := Undropped(classified, dropped);
    var named := Renamed(kept);
    forall j | 0 <= j < |screened| && !dropped(Classified(screened[j]))
      ensures PreparedRow(screened[j]) in named
    {
      assert classified[j] in kept;
      var a :| 0 <= a < |kept| && kept[a] == classified[j];
      assert named[a] == PreparedRow(screened[j]);
    }
  }

  function ClassifiedAll(rows: seq<Transaction>): (out: seq<Transaction>)
    requires forall i :: 0 <= i < |rows| ==> Admitted(rows[i])
    ensures |out| == |rows|
    ensures forall i :: 0 <= i < |rows| ==> out[i] == Classified(rows[i]) && Admitted(out[i])
  {
    var out := seq(|rows|, i requires 0 <= i < |rows| => Classified(rows[i]));
    forall i | 0 <= i < |rows|
      ensures Admitted(out[i])
    {
      assert out[i] == Classified(rows[i]);
      assert Admitted(rows[i]);
    }
    out
  }

  /** The rows the hand-curated lists do not name. */
  function Undropped(rows: seq<Transaction>, dropped: Transaction -> bool): (out: seq<Transaction>)
    requires forall i :: 0 <= i < |rows| ==> Admitted(rows[i])
    ensures forall a :: 0 <= a < |out| ==> Admitted(out[a]) && !dropped(out[a]) && out[a] in rows
    ensures forall i :: 0 <= i < |rows| && !dropped(rows[i]) ==> rows[i] in out
  {
    Filter(rows, (t: Transaction) => !dropped(t))
  }

  /** `simplify_parishes` on the feed's table. */
  function Renamed(rows: seq<Transaction>): (out: seq<Transaction>)
    requires forall i :: 0 <= i < |rows| ==> Admitted(rows[i])
    ensures |out| == |rows|
    ensures forall i :: 0 <= i < |rows| ==>
      out[i] == rows[i].(parish := Registry.SimplifyParish(rows[i].parish)) && Admitted(out[i])
  {
    var out := seq(|rows|, i requires 0 <= i < |rows| => rows[i].(parish := Registry.SimplifyParish(rows[i].parish)));
    forall i | 0 <= i < |rows|
      ensures Admitted(out[i])
    {
      assert Admitted(rows[i]);
    }
    out
  }

  /** `price != 0`. */
  predicate Priced(t: Transaction) { t.price != 0 }

  /** After the floor of 1000 the zero-price filter removes nothing. */
  lemma NonzeroFilterRemovesNothing(rows: seq<Transaction>)
    requires forall i :: 0 <= i < |rows| ==> rows[i].price > 1000
    ensures Filter(rows, Priced) == rows
  {
    FilterKeepsAll(rows, Priced);
  }

  /** The feed import up to its export; `None` when a pass raises on some
      prepared row, and otherwise exactly the prepared rows no pass takes
      for a registry sale. */
  function ProcessFeed(rows: seq<Transaction>, dropped: Transaction -> bool, ratio: Similarity, sa: seq<Recorded>)
    : (out: Option<seq<Transaction>>)
    ensures var prepared := Prepared(rows, dropped);
      out.None? <==> exists j :: 0 <= j < |prepared| && CascadeRaises(ratio, sa, WithTextNumber(prepared[j]))
    ensures var prepared := Prepared(rows, dropped);
      out.Some? ==> SubsequenceOf(out.value, WithTextNumbers(prepared))
    ensures out.Some? ==> forall a :: 0 <= a < |out.value| ==> Admitted(out.value[a]) && CrossFeedNew(ratio, sa, out.value[a])
    ensures var prepared := Prepared(rows, dropped);
      out.Some? ==> forall j :: 0 <= j < |prepared| ==>
        (CrossFeedNew(ratio, sa, WithTextNumber(prepared[j])) ==> WithTextNumber(prepared[j]) in out.value)
  {
    var prepared := Prepared(rows, dropped);
    CrossFeedPasses(ratio, sa, prepared)
  }

  /** The cross-feed passes on admitted rows keep them admitted. */
  function CrossFeedPasses(ratio: Similarity, sa: seq<Recorded>, prepared: seq<Transaction>): (out: Option<seq<Transaction>>)
    requires forall i :: 0 <= i < |prepared| ==> Admitted(prepared[i])
    ensures out.None? <==> exists j :: 0 <= j < |prepared| && CascadeRaises(ratio, sa, WithTextNumber(prepared[j]))
    ensures out.Some? ==> SubsequenceOf(out.value, WithTextNumbers(prepared))
    ensures out.Some? ==> forall a :: 0 <= a < |out.value| ==> Admitted(out.value[a]) && CrossFeedNew(ratio, sa, out.value[a])
    ensures out.Some? ==> forall j :: 0 <= j < |prepared| ==>
      (CrossFeedNew(ratio, sa, WithTextNumber(prepared[j])) ==> WithTextNumber(prepared[j]) in out.value)
  {
    var out := Cascade(ratio, sa, prepared);
    if out.Some? then
      AdmittedKept(out.value, prepared);
      out
    else out
  }

  /** A sold transaction that is the first of its key, priced above 1000,
      not named by the hand-curated lists and new to the registry once
      prepared is exported. */
  lemma NewSaleExported(rows: seq<Transaction>, dropped: Transaction -> bool, ratio: Similarity, sa: seq<Recorded>, k: nat)
    requires ProcessFeed(rows, dropped, ratio, sa).Some?
    requires k < |Filter(rows, IsSold)| && FirstOfKey(Filter(rows, IsSold), FeedKey, k)
    requires Filter(rows, IsSold)[k].price > 1000
    requires !dropped(Classified(Zeroed(Filter(rows, IsSold)[k])))
    requires CrossFeedNew(ratio, sa, WithTextNumber(PreparedRow(Zeroed(Filter(rows, IsSold)[k]))))
    ensures WithTextNumber(PreparedRow(Zeroed(Filter(rows, IsSold)[k]))) in ProcessFeed(rows, dropped, ratio, sa).value
  {
    var s := SoldSales(rows);
    var z := Zeroed(Filter(rows, IsSold)[k]);
    var j :| 0 <= j < |s| && s[j] == z;
    var p := Prepared(rows, dropped);
    var m :| 0 <= m < |p| && p[m] == PreparedRow(z);
  }

  /** Rewriting the assessment to text and dropping rows keeps every row
      admitted. */
  lemma AdmittedKept(xs: seq<Transaction>, ys: seq<Transaction>)
    requires SubsequenceOf(xs, WithTextNumbers(ys))
    requires forall i :: 0 <= i < |ys| ==> Admitted(ys[i])
    ensures forall a :: 0 <= a < |xs| ==> Admitted(xs[a])
  {
    SubsequenceMembers(xs, WithTextNumbers(ys));
  }
}

=== FILE: pyvalue.dfy ===
/**
 The dynamically typed cell values the importer passes around: a table
 cell, the `False` / `0` / list results of the assessment-number
 normalisers, and the property-type column that holds `0`, `False` or a
 type name. `Null` is the missing cell and behaves as Python's `None`:
 `str` gives "None", it is falsy and it equals `None`. Pandas' NaN differs
 on all three, and the model does not tell it apart. The feed tables and
 the new registry workbook have NaN replaced by 0 before the row passes run
 (process_propertyskipper.py:43, process_LTRO.py:52,
 process_skipperstats.py:70). In them, the NaN that can still reach a pass
 is a price that `pd.to_numeric` could not read, or a missing date, and
 those are only ever tested with `pd.isnull` / `pd.isna`, which treat NaN
 and `None` alike. The older registry rows, read back from CSV and
 appended after that replacement (process_LTRO.py:19, :76), can keep NaN
 cells, which this model reads as `Null`.
 */
module PyValue {
  import opened Text

  datatype Option<+T> = None | Some(value: T)

  datatype Value =
    | Null
    | Bool(b: bool)
    | Int(i: int)
    | Str(s: string)
    | List(items: seq<string>)

  /** `bool(v)` */
  predicate Truthy(v: Value) {
    match v
    case Null => false
    case Bool(b) => b
    case Int(i) => i != 0
    case Str(s) => |s| > 0
    case List(items) => |items| > 0
  }

  /** `v == n` for an integer `n` (`False == 0` and `True == 1` in Python) */
  predicate EqInt(v: Value, n: int) {
    (v.Int? && v.i == n) || (v.Bool? && (if v.b then 1 else 0) == n)
  }

  /** `v == s` for a string `s` */
  predicate EqStr(v: Value, s: string) { v.Str? && v.s == s }

  /** `repr(s)` for a string: single quotes unless the text holds a single
      quote and no double quote; backslash, the quote, and the common
      control characters are escaped. */
  function Repr(s: string): string {
    var q := if '\'' in s && '"' !in s then '"' else '\'';
    [q] + Escape(s, q) + [q]
  }

  function Escape(s: string, q: char): string {
    if |s| == 0 then ""
    else
      var c := s[0];
      var e :=
        if c == '\\' then "\\\\"
        else if c == q then ['\\', q]
        else if c == '\n' then "\\n"
        else if c == '\r' then "\\r"
        else if c == '\t' then "\\t"
        else [c];
      e + Escape(s[1..], q)
  }

  /** `str(v)` */
  function ToStr(v: Value): string {
    match v
    case Null => "None"
    case Bool(b) => if b then "True" else "False"
    case Int(i) => IntToString(i)
    case Str(s) => s
    case List(items) => "[" + Join(ReprAll(items), ", ") + "]"
  }

  function ReprAll(items: seq<string>): (r: seq<string>)
    ensures |r| == |items|
    ensures forall k :: 0 <= k < |items| ==> r[k] == Repr(items[k])
  {
    if |items| == 0 then [] else [Repr(items[0])] + ReprAll(items[1..])
  }

  /** Escaping leaves text without quotes, backslashes or control
      characters as it is. */
  lemma {:induction false} EscapeDigits(t: string, q: char)
    requires AllDigits(t) && !IsDigit(q)
    ensures Escape(t, q) == t
  {
    if |t| > 0 {
      EscapeDigits(t[1..], q);
    }
  }

  /** `str([t])` for a digit string `t` is `['t']`. */
  lemma ListText(t: string)
    requires AllDigits(t)
    ensures ToStr(List([t])) == "['" + t + "']"
  {
    EscapeDigits(t, '\'');
    assert '\'' !in t;
    var r := Repr(t);
    assert r == "'" + t + "'";
    assert ReprAll([t]) == [r];
    assert Join([r], ", ") == r;
    assert ToStr(List([t])) == "[" + r + "]";
    assert "['" == "[" + "'" && "']" == "'" + "]";
  }

  /** `int(v)`; `None` when it raises. NaN and `None` raise, as does a
      list or a string that is not an integer literal. */
  function PyInt(v: Value): (n: Option<int>)
    ensures v.Int? ==> n == Some(v.i)
    ensures v.Null? || v.List? ==> n == None
    ensures v.Bool? ==> n.Some? && 0 <= n.value <= 1
    ensures v.Str? ==> (n.Some? <==> ParsesAsInt(v.s))
  {
    match v
    case Null => None
    case Bool(b) => Some(if b then 1 else 0)
    case Int(i) => Some(i)
    case Str(s) => if ParsesAsInt(s) then Some(IntValue(s)) else None
    case List(_) => None
  }

  /** `pd.isnull(v)` */
  predicate IsNull(v: Value) { v.Null? }

  /** `series.str.lower()` on one cell: non-strings become NaN */
  function StrLower(v: Value): (r: Value)
    ensures r.Str? <==> v.Str?
    ensures v.Str? ==> r.s == Lower(v.s)
  {
    if v.Str? then Str(Lower(v.s)) else Null
  }

  /** `series.fillna(x)` on one cell */
  function FillNull(v: Value, x: Value): (r: Value)
    ensures v.Null? ==> r == x
    ensures !v.Null? ==> r == v
  {
    if v.Null? then x else v
  }

  /** `str(v).lower()` */
  function LowerStr(v: Value): string { Lower(ToStr(v)) }
}

=== FILE: registry.dfy ===
/**
 The land-title registry's sale records and the row-by-row passes over
 them that need nothing but the record itself: the fractional and the
 land / house / condo classifiers, the parish simplification and the
 area-unit scan.
 */
module Registry {
  import opened Text
  import opened PyValue
  import opened Keywords
  import opened Assessment
  import Tables

  /** The ARV cell the enrichment pass writes: nothing yet, a scalar, a
      numpy array of matches, or a Python list of first matches. */
  datatype Arv =
    | Unset
    | Scalar(n: int)
    | Values(vs: seq<int>)
    | Firsts(vs: seq<int>)

  /** One registry sale. Cells whose type varies across rows are `Value`s;
      dates are day numbers (`None` for NaT); the price is already numeric.
      `reread` marks a row read back from the earlier CSV export, whose date
      cells are text, while the new workbook's registration dates are
      `datetime.date`s: no cell of the one ever equals the other's. */
  datatype Sale = Sale(
    application: Value,
    registration: Option<int>,
    acquisition: Option<int>,
    parish: Value,
    assessment: Value,
    address: Value,
    mode: Value,
    nature: Value,
    price: int,
    propertyType: Value,
    arv: Arv,
    combinedArv: int,
    reread: bool)

  // ---------------------------------------------------------------------
  // Fractional pass
  // ---------------------------------------------------------------------

  /** Some fractional keyword occurs in the lower-cased text of the
      assessment, address or nature-of-interest cell. */
  predicate FractionalMatch(r: Sale) {
    || AnyIn(FractionalKeywords(), LowerStr(r.assessment))
    || AnyIn(FractionalKeywords(), LowerStr(r.address))
    || AnyIn(FractionalKeywords(), LowerStr(r.nature))
  }

  /** The type `identify_fractionals` gives one row. */
  function FractionalType(r: Sale): (t: Value)
    ensures t == Str("fractional") || t == Int(0)
    ensures t == Str("fractional") <==>
      FractionalMatch(r) && !Contains(LowerStr(r.assessment), "vacant lot")
  {
    if FractionalMatch(r) && !Contains(LowerStr(r.assessment), "vacant lot") then Str("fractional")
    else Int(0)
  }

  /** `identify_fractionals`: every row's type is overwritten, nothing else. */
  function IdentifyFractionals(rows: seq<Sale>): (out: seq<Sale>)
    ensures |out| == |rows|
    ensures forall i :: 0 <= i < |rows| ==> out[i].(propertyType := rows[i].propertyType) == rows[i]
    ensures forall i :: 0 <= i < |rows| ==>
      (out[i].propertyType == Str("fractional") <==>
        FractionalMatch(rows[i]) && !Contains(LowerStr(rows[i].assessment), "vacant lot"))
    ensures forall i :: 0 <= i < |rows| ==> out[i].propertyType != Str("fractional") ==> out[i].propertyType == Int(0)
  {
    seq(|rows|, i requires 0 <= i < |rows| => rows[i].(propertyType := FractionalType(rows[i])))
  }

  /** A registry row whose assessment text mentions a vacant lot is never
      fractional, whatever its address says. */
  lemma VacantLotNeverFractional(r: Sale)
    requires Contains(LowerStr(r.assessment), "vacant lot")
    ensures FractionalType(r) == Int(0)
  {
  }

  /** A row that already says "fractional" in its address or nature stays
      fractional unless the assessment cell mentions a vacant lot. */
  lemma FractionalWordIsFractional(r: Sale)
    requires Contains(LowerStr(r.address), "fractional") || Contains(LowerStr(r.nature), "fractional")
    requires !Contains(LowerStr(r.assessment), "vacant lot")
    ensures FractionalType(r) == Str("fractional")
  {
    if Contains(LowerStr(r.address), "fractional") {
      FractionalIsKeyword(LowerStr(r.address));
    } else {
      FractionalIsKeyword(LowerStr(r.nature));
    }
  }

  // ---------------------------------------------------------------------
  // Land / house / condo pass
  // ---------------------------------------------------------------------

  /** Some land keyword occurs in the lower-cased assessment or address text. */
  predicate LandMatch(r: Sale) {
    AnyIn(LandKeywords(), LowerStr(r.assessment)) || AnyIn(LandKeywords(), LowerStr(r.address))
  }

  /** The row reaches the branch that appends to an undefined list: the mode
      says both lease and conveyance, the row has an assessment number, and
      no earlier branch applied. */
  predicate LandHouseCondoCrashes(r: Sale) {
    var addr := LowerStr(r.address);
    var mode := LowerStr(r.mode);
    var nature := LowerStr(r.nature);
    && EqInt(r.propertyType, 0)
    && !LandMatch(r)
    && !(Contains(nature, "leaseholder") && (Contains(addr, "lower") || Contains(addr, "apartment") || Contains(addr, "unit")))
    && !(Contains(addr, "condos") && Contains(addr, "unit"))
    && Contains(mode, "lease") && Contains(mode, "conveyance")
    && HasAssessment(r.assessment)
  }

  /** The type `identify_land_house_condo` leaves on one row; `None` when
      the source raises. */
  function LandHouseCondoType(r: Sale): (t: Option<Value>)
    ensures t.None? <==> LandHouseCondoCrashes(r)
    ensures !EqInt(r.propertyType, 0) ==> t == Some(r.propertyType)
    ensures EqInt(r.propertyType, 0) && LandMatch(r) ==>
      t == Some(if HasAssessment(r.assessment) then r.propertyType else Str("land"))
    ensures t.Some? ==>
      t.value == r.propertyType || t.value == Str("land") || t.value == Str("condo") || t.value == Str("house")
  {
    var addr := LowerStr(r.address);
    var mode := LowerStr(r.mode);
    var nature := LowerStr(r.nature);
    if !EqInt(r.propertyType, 0) then Some(r.propertyType)
    else
      var an := HasAssessment(r.assessment);
      if LandMatch(r) then
        Some(if !an then Str("land") else r.propertyType)
      else if Contains(nature, "leaseholder") && (Contains(addr, "lower") || Contains(addr, "apartment") || Contains(addr, "unit")) then
        Some(Str("condo"))
      else if Contains(addr, "condos") && Contains(addr, "unit") then
        Some(if an then Str("condo") else r.propertyType)
      else if (Contains(mode, "conveyance") || Contains(mode, "coveyance")) && !Contains(mode, "lease") then
        Some(Str("house"))
      else if (Contains(mode, "lease") || Contains(mode, "leashold")) && !Contains(mode, "conveyance") then
        Some(Str("condo"))
      else if Contains(mode, "lease") && an then
        None
      else Some(r.propertyType)
  }

  /** `identify_land_house_condo` over a table none of whose rows raises. */
  function IdentifyLandHouseCondo(rows: seq<Sale>): (out: seq<Sale>)
    requires forall i :: 0 <= i < |rows| ==> !LandHouseCondoCrashes(rows[i])
    ensures |out| == |rows|
    ensures forall i :: 0 <= i < |rows| ==> out[i].(propertyType := rows[i].propertyType) == rows[i]
    ensures forall i :: 0 <= i < |rows| ==> Some(out[i].propertyType) == LandHouseCondoType(rows[i])
  {
    seq(|rows|, i requires 0 <= i < |rows| => rows[i].(propertyType := LandHouseCondoType(rows[i]).value))
  }

  /** The two classifier passes in the order the pipeline runs them: the
      second never touches a fractional row and never makes one, so a row
      ends up fractional exactly when the first pass said so, and every
      row ends with one of the five registry types. */
  lemma ClassifiersCompose(rows: seq<Sale>)
    requires forall i :: 0 <= i < |rows| ==> !LandHouseCondoCrashes(IdentifyFractionals(rows)[i])
    ensures var out := IdentifyLandHouseCondo(IdentifyFractionals(rows));
      forall i :: 0 <= i < |rows| ==>
        && (out[i].propertyType == Str("fractional") <==> FractionalType(rows[i]) == Str("fractional"))
        && out[i].propertyType in {Str("fractional"), Str("land"), Str("condo"), Str("house"), Int(0)}
  {
    var mid := IdentifyFractionals(rows);
    var out := IdentifyLandHouseCondo(mid);
    forall i | 0 <= i < |rows|
      ensures out[i].propertyType == Str("fractional") <==> FractionalType(rows[i]) == Str("fractional")
      ensures out[i].propertyType in {Str("fractional"), Str("land"), Str("condo"), Str("house"), Int(0)}
    {
      assert mid[i].propertyType == FractionalType(rows[i]);
      assert Some(out[i].propertyType) == LandHouseCondoType(mid[i]);
    }
  }

  /** A land-keyword row with no usable assessment number that the first
      pass left at `0` ends up as land, never as a house or a condo. */
  lemma LandRowsBecomeLand(r: Sale)
    requires EqInt(r.propertyType, 0) && LandMatch(r) && !HasAssessment(r.assessment)
    ensures LandHouseCondoType(r) == Some(Str("land"))
  {
  }

  // ---------------------------------------------------------------------
  // Parishes and area units
  // ---------------------------------------------------------------------

  /** `parish.replace(["Town of St. George", "City of Hamilton"], ["St. George's", "Pembroke"])`
      on one cell: whole-value replacement, no substring matching. */
  function SimplifyParish(p: Value): (q: Value)
    ensures q != Str("Town of St. George") && q != Str("City of Hamilton")
    ensures p != Str("Town of St. George") && p != Str("City of Hamilton") ==> q == p
  {
    if p == Str("Town of St. George") then Str("St. George's")
    else if p == Str("City of Hamilton") then Str("Pembroke")
    else p
  }

  /** Simplifying the parishes twice is simplifying them once. */
  lemma SimplifyParishIdempotent(p: Value)
    ensures SimplifyParish(SimplifyParish(p)) == SimplifyParish(p)
  {
  }

  /** `simplify_parishes` on the registry table */
  function SimplifyParishes(rows: seq<Sale>): (out: seq<Sale>)
    ensures |out| == |rows|
    ensures forall i :: 0 <= i < |rows| ==> out[i].(parish := rows[i].parish) == rows[i]
    ensures forall i :: 0 <= i < |rows| ==>
      out[i].parish != Str("Town of St. George") && out[i].parish != Str("City of Hamilton")
  {
    seq(|rows|, i requires 0 <= i < |rows| => rows[i].(parish := SimplifyParish(rows[i].parish)))
  }

  /** The area units recognised, in the order they are tried. */
  function AreaUnits(): seq<string> {
    ["ac", "acre", "ha", "sq m", "square meter", "hectare", "sq ft", "square feet"]
  }

  /** The units of `units` that occur in `area`, in the order of `units`. */
  function UnitsIn(units: seq<string>, area: string): (r: seq<string>)
    ensures |r| <= |units|
    ensures forall u :: u in r <==> u in units && Contains(area, u)
  {
    if |units| == 0 then []
    else if Contains(area, units[0]) then [units[0]] + UnitsIn(units[1..], area)
    else UnitsIn(units[1..], area)
  }

  /** `get_units(area_string)` */
  function GetUnits(area: string): (r: seq<string>)
    ensures forall u :: u in r <==> u in AreaUnits() && Contains(area, u)
    ensures r == Tables.Filter(AreaUnits(), u => Contains(area, u))
    ensures Distinct(r)
  {
    UnitsInIsFilter(AreaUnits(), area);
    AreaUnitsDistinct();
    UnitsInDistinct(AreaUnits(), area);
    UnitsIn(AreaUnits(), area)
  }

  /** No element occurs twice. */
  predicate Distinct(s: seq<string>) {
    forall a, b :: 0 <= a < b < |s| ==> s[a] != s[b]
  }

  /** No unit is listed twice. */
  lemma AreaUnitsDistinct()
    ensures Distinct(AreaUnits())
  {
    var us := AreaUnits();
    forall a, b | 0 <= a < b < |us| ensures us[a] != us[b] {
      assert |us[a]| != |us[b]| || us[a][0] != us[b][0] || us[a][1] != us[b][1];
    }
  }

  /** Collecting the units that occur is filtering the unit list, in its
      order. */
  lemma {:induction false} UnitsInIsFilter(units: seq<string>, area: string)
    ensures UnitsIn(units, area) == Tables.Filter(units, u => Contains(area, u))
  {
    if |units| > 0 {
      UnitsInIsFilter(units[1..], area);
    }
  }

  /** A unit list without repeats gives a result without repeats. */
  lemma {:induction false} UnitsInDistinct(units: seq<string>, area: string)
    requires Distinct(units)
    ensures Distinct(UnitsIn(units, area))
  {
    if |units| > 0 {
      var rest := units[1..];
      assert Distinct(rest) by {
        forall a, b | 0 <= a < b < |rest| ensures rest[a] != rest[b] {
          assert rest[a] == units[a + 1] && rest[b] == units[b + 1];
        }
      }
      UnitsInDistinct(rest, area);
      var r := UnitsIn(units, area);
      var t := UnitsIn(rest, area);
      if Contains(area, units[0]) {
        assert units[0] !in rest by {
          forall j | 0 <= j < |rest| ensures rest[j] != units[0] {
            assert rest[j] == units[j + 1];
          }
        }
        assert units[0] !in t;
        assert r == [units[0]] + t;
        forall a, b | 0 <= a < b < |r| ensures r[a] != r[b] {
          if a == 0 {
            assert r[b] == t[b - 1] && t[b - 1] in t;
          } else {
            assert r[a] == t[a - 1] && r[b] == t[b - 1];
          }
        }
      } else {
        assert r == t;
      }
    }
  }

  /** Whatever mentions acres also reports the shorter `ac`, and `ac` comes
      first. */
  lemma AcreAlsoAc(area: string)
    requires Contains(area, "acre")
    ensures |GetUnits(area)| >= 2 && GetUnits(area)[0] == "ac" && GetUnits(area)[1] == "acre"
  {
    var i :| 0 <= i <= |area| && OccursAt(area, "acre", i);
    assert OccursAt(area, "ac", i) by {
      assert area[i..i + 2] == area[i..i + 4][..2];
    }
    var us := AreaUnits();
    assert us[0] == "ac" && us[1] == "acre";
    assert GetUnits(area) == ["ac"] + UnitsIn(us[1..], area);
    assert us[1..][0] == "acre";
    assert UnitsIn(us[1..], area) == ["acre"] + UnitsIn(us[1..][1..], area);
  }
}

=== FILE: stats.dfy ===
/**
 The brokerage-transaction feed: its records, the keyword classifiers that
 retype fractional and land sales, and the comparisons the cross-feed
 de-duplicator is built on (dates within a window, prices within five
 per cent, addresses by an abstract similarity score and their numbers).
 */
module Stats {
  import opened Text
  import opened PyValue
  import opened Keywords

  /** One transaction of the brokerage feed. Dates are day numbers (`None`
      for NaT); a missing price is `0`. */
  datatype Transaction = Transaction(
    status: Value,
    date: Option<int>,
    parish: Value,
    buildingName: Value,
    addressLine: Value,
    postcode: Value,
    assessment: Value,
    price: int,
    propertyType: Value,
    isLand: Value,
    isFractionalUnit: Value)

  /** A score of the string-similarity library: 0 to 100. */
  type Percent = x: int | 0 <= x <= 100

  /** `fuzz.ratio`, whose workings are outside this model. */
  type Similarity = (string, string) -> Percent

  // ---------------------------------------------------------------------
  // Keyword search
  // ---------------------------------------------------------------------

  /** The cells `in_keywords` can search without raising: a missing value,
      a zero, a string, or a list of at most one element. `pd.isnull` of a
      longer list is an array of flags, and testing that array in an `if`
      raises; a non-zero number or `True` raises at `keyword in x`. */
  predicate Searchable(x: Value) {
    x.Null? || EqInt(x, 0) || x.Str? || (x.List? && |x.items| <= 1)
  }

  /** `in_keywords(x, keywords)`, `None` where it raises: never a match for
      a missing value or `0`; otherwise some keyword is in `x` (a substring
      of a string, the element of a one-element list). */
  function InKeywords(x: Value, keywords: seq<string>): (r: Option<bool>)
    ensures r.None? <==> !Searchable(x)
    ensures x.Null? || EqInt(x, 0) ==> r == Some(false)
    ensures x.Str? ==> r == Some(AnyIn(keywords, x.s))
    ensures x.List? && |x.items| <= 1 ==>
      r == Some(exists k :: 0 <= k < |keywords| && keywords[k] in x.items)
  {
    if x.Null? then Some(false)
    else if EqInt(x, 0) then Some(false)
    else if x.Str? then Some(AnyIn(keywords, x.s))
    else if x.List? && |x.items| <= 1 then Some(exists k :: 0 <= k < |keywords| && keywords[k] in x.items)
    else None
  }

  /** A list of two or more names makes `in_keywords` raise, whatever the
      keywords. */
  lemma LongListRaises(items: seq<string>, keywords: seq<string>)
    requires |items| >= 2
    ensures InKeywords(List(items), keywords).None?
  {
  }

  /** What the classifiers ask: `series.str.lower()` turns every non-string
      into NaN, so the search never raises and only a string cell can match,
      through its lower-cased text. */
  lemma LoweredCellSearch(v: Value, keywords: seq<string>)
    ensures Searchable(StrLower(v))
    ensures InKeywords(StrLower(v), keywords) == Some(v.Str? && AnyIn(keywords, Lower(v.s)))
  {
  }

  /** Some keyword occurs in the lower-cased text of a string cell. */
  predicate Mentions(v: Value, keywords: seq<string>) {
    v.Str? && AnyIn(keywords, Lower(v.s))
  }

  // ---------------------------------------------------------------------
  // Fractional pass
  // ---------------------------------------------------------------------

  /** The feed's own fractional flag, `is_fractional_unit == '1'`. */
  predicate FlaggedFractional(t: Transaction) { EqStr(t.isFractionalUnit, "1") }

  /** The feed's own land flag, `is_land == '1'`. */
  predicate FlaggedLand(t: Transaction) { EqStr(t.isLand, "1") }

  /** A fractional keyword in the building name, assessment, address or type. */
  predicate FractionalWords(t: Transaction) {
    || Mentions(t.buildingName, FractionalKeywords())
    || Mentions(t.assessment, FractionalKeywords())
    || Mentions(t.addressLine, FractionalKeywords())
    || Mentions(t.propertyType, FractionalKeywords())
  }

  /** `identify_fractionals` on one row: the flag sets the type to
      fractional; then a keyword hit, searched in the lower-cased cells with
      that type in place, sets the type and clears the assessment number. */
  function FractionalRow(t: Transaction): (r: Transaction)
    ensures r.(propertyType := t.propertyType, assessment := t.assessment) == t
    ensures r.propertyType == Str("fractional") <==> FlaggedFractional(t) || FractionalWords(t) || t.propertyType == Str("fractional")
    ensures r.propertyType != Str("fractional") ==> r.propertyType == t.propertyType
    ensures r.assessment == (if FlaggedFractional(t) || FractionalWords(t) then Null else t.assessment)
  {
    var u := if FlaggedFractional(t) then t.(propertyType := Str("fractional")) else t;
    LoweredCellSearch(u.buildingName, FractionalKeywords());
    LoweredCellSearch(u.assessment, FractionalKeywords());
    LoweredCellSearch(u.addressLine, FractionalKeywords());
    LoweredCellSearch(u.propertyType, FractionalKeywords());
    FractionalTypeMatches();
    var hit :=
      || InKeywords(StrLower(u.buildingName), FractionalKeywords()).value
      || InKeywords(StrLower(u.assessment), FractionalKeywords()).value
      || InKeywords(StrLower(u.addressLine), FractionalKeywords()).value
      || InKeywords(StrLower(u.propertyType), FractionalKeywords()).value;
    if hit then u.(propertyType := Str("fractional"), assessment := Null) else u
  }

  /** The type "fractional" is itself a fractional keyword. */
  lemma FractionalTypeMatches()
    ensures Mentions(Str("fractional"), FractionalKeywords())
  {
    assert Lower("fractional") == "fractional";
    ContainsSelf("fractional");
    FractionalIsKeyword("fractional");
  }

  /** `identify_fractionals(df)` on the transaction table. */
  function IdentifyFractionals(rows: seq<Transaction>): (out: seq<Transaction>)
    ensures |out| == |rows|
    ensures forall i :: 0 <= i < |rows| ==> out[i] == FractionalRow(rows[i])
  {
    seq(|rows|, i requires 0 <= i < |rows| => FractionalRow(rows[i]))
  }

  /** A row the feed flags as a fractional unit loses its assessment number
      too, because its new type is itself a keyword hit. */
  lemma FlaggedFractionalLosesNumber(t: Transaction)
    requires FlaggedFractional(t)
    ensures FractionalRow(t).propertyType == Str("fractional") && FractionalRow(t).assessment == Null
  {
  }

  // ---------------------------------------------------------------------
  // Land pass
  // ---------------------------------------------------------------------

  /** A land keyword in the address or building name, and no anti-keyword in either. */
  predicate LandWords(address: Value, building: Value) {
    && (Mentions(address, LandKeywords()) || Mentions(building, LandKeywords()))
    && !Mentions(address, LandAntiKeywords())
    && !Mentions(building, LandAntiKeywords())
  }

  /** `identify_lands` on one row: the flag sets the type to land; missing
      address and building become empty; a keyword hit with no anti-keyword
      sets the type to land and clears the assessment number. Fractional
      rows are not exempt. */
  function LandRow(t: Transaction): (r: Transaction)
    ensures r.(propertyType := t.propertyType, assessment := t.assessment,
               addressLine := t.addressLine, buildingName := t.buildingName) == t
    ensures r.addressLine == FillNull(t.addressLine, Str("")) && r.buildingName == FillNull(t.buildingName, Str(""))
    ensures r.propertyType == (if FlaggedLand(t) || LandWords(r.addressLine, r.buildingName) then Str("land") else t.propertyType)
    ensures r.assessment == (if LandWords(r.addressLine, r.buildingName) then Null else t.assessment)
  {
    var u := if FlaggedLand(t) then t.(propertyType := Str("land")) else t;
    var a := FillNull(u.addressLine, Str(""));
    var b := FillNull(u.buildingName, Str(""));
    LoweredCellSearch(a, LandKeywords());
    LoweredCellSearch(b, LandKeywords());
    LoweredCellSearch(a, LandAntiKeywords());
    LoweredCellSearch(b, LandAntiKeywords());
    var keyword := InKeywords(StrLower(a), LandKeywords()).value || InKeywords(StrLower(b), LandKeywords()).value;
    var anti := !InKeywords(StrLower(a), LandAntiKeywords()).value && !InKeywords(StrLower(b), LandAntiKeywords()).value;
    var v := u.(addressLine := a, buildingName := b);
    if keyword && anti then v.(propertyType := Str("land"), assessment := Null) else v
  }

  /** `identify_lands(df)` on the transaction table. */
  function IdentifyLands(rows: seq<Transaction>): (out: seq<Transaction>)
    ensures |out| == |rows|
    ensures forall i :: 0 <= i < |rows| ==> out[i] == LandRow(rows[i])
  {
    seq(|rows|, i requires 0 <= i < |rows| => LandRow(rows[i]))
  }

  /** A street whose name merely contains "lot" is not land when an
      anti-keyword names it: "Camelot" in the address keeps the row's type. */
  lemma CamelotIsNotLand(t: Transaction, s: string)
    requires t.addressLine == Str(s) && Contains(Lower(s), "camelot") && !FlaggedLand(t)
    ensures LandRow(t).propertyType == t.propertyType && LandRow(t).assessment == t.assessment
  {
    assert LandAntiKeywords()[2] == "camelot";
  }

  /** The land pass does not skip fractional rows: a fractional sale whose
      address mentions a lot of land becomes land. */
  lemma FractionalRowCanBecomeLand(t: Transaction, s: string)
    requires t.propertyType == Str("fractional") && t.addressLine == Str(s)
    requires Contains(Lower(s), "lot of land") && !Mentions(t.addressLine, LandAntiKeywords())
    requires !Mentions(FillNull(t.buildingName, Str("")), LandAntiKeywords())
    ensures LandRow(t).propertyType == Str("land")
  {
    assert LandKeywords()[1] == "lot of land";
  }

  // ---------------------------------------------------------------------
  // Comparisons
  // ---------------------------------------------------------------------

  /** The verdict of `are_dates_close`: a bare `False` when the registry
      has neither date, otherwise a flag and the smallest gap in days
      (`None` when the transaction date is NaT, whose gap is NaN). */
  datatype DateVerdict = Bare | Gap(close: bool, days: Option<nat>)

  /** The window in days within which two dates are the same sale. */
  const DaysCutoff := 390

  function Abs(x: int): nat { if x < 0 then -x else x }

  function DaysApart(t: Option<int>, d: int): Option<nat> {
    if t.None? then None else Some(Abs(t.value - d))
  }

  function Decide(d: Option<nat>): (v: DateVerdict)
    ensures v.Gap? && v.days == d
    ensures v.close <==> d.Some? && d.value < DaysCutoff
  {
    if d.Some? && d.value < DaysCutoff then Gap(true, d) else Gap(false, d)
  }

  /** `are_dates_close(trans, reg, acq)` */
  function AreDatesClose(trans: Option<int>, reg: Option<int>, acq: Option<int>): (v: DateVerdict)
    ensures v.Bare? <==> reg.None? && acq.None?
    ensures (v.Gap? && v.close) <==>
      (trans.Some? && ((reg.Some? && Abs(trans.value - reg.value) < DaysCutoff) || (acq.Some? && Abs(trans.value - acq.value) < DaysCutoff)))
    ensures v.Gap? && v.days.Some? ==> (
      && trans.Some?
      && (reg.Some? ==> v.days.value <= Abs(trans.value - reg.value))
      && (acq.Some? ==> v.days.value <= Abs(trans.value - acq.value))
      && ((reg.Some? && v.days.value == Abs(trans.value - reg.value)) || (acq.Some? && v.days.value == Abs(trans.value - acq.value))))
  {
    if acq.None? && reg.Some? then Decide(DaysApart(trans, reg.value))
    else if acq.Some? && reg.None? then Decide(DaysApart(trans, acq.value))
    else if acq.Some? && reg.Some? then
      if trans.None? then Decide(None)
      else
        var a := Abs(trans.value - acq.value);
        var r := Abs(trans.value - reg.value);
        Decide(Some(if a <= r then a else r))
    else Bare
  }

  /** A gap of exactly the cutoff is not close. */
  lemma CutoffIsExclusive(trans: int, reg: int)
    requires Abs(trans - reg) == DaysCutoff
    ensures AreDatesClose(Some(trans), Some(reg), None) == Gap(false, Some(DaysCutoff))
  {
  }

  /** The verdict of `are_prices_close`: within five per cent, and the difference. */
  datatype PriceVerdict = PriceVerdict(close: bool, diff: nat)

  /** `are_prices_close(s, l)`: `0.95*s <= l <= 1.05*s`, compared in whole
      numbers by multiplying through by 100. */
  function ArePricesClose(s: int, l: int): (v: PriceVerdict)
    ensures v.diff == Abs(s - l)
    ensures l == s && s >= 0 ==> v.close
  {
    PriceVerdict(95 * s <= 100 * l && 100 * l <= 105 * s, Abs(s - l))
  }

  /** For a non-negative listing price, close means the two prices differ
      by at most a twentieth of it. */
  lemma PricesCloseMeansFivePercent(s: int, l: int)
    requires s >= 0
    ensures ArePricesClose(s, l).close <==> 20 * Abs(s - l) <= s
  {
  }

  /** `are_addresses_close(a, b)`: similar above 80 and the same numbers.
      Close addresses are similar enough, either both have a number or
      neither has, and every digit run of the one is a digit run of the
      other; without numbers on either side only the similarity counts,
      and the same runs in the same order always suffice. */
  function AreAddressesClose(ratio: Similarity, a: string, b: string): (r: bool)
    ensures r ==> ratio(a, b) > 80
    ensures r ==> (HasDigit(a) <==> HasDigit(b))
    ensures r ==> forall k :: 0 <= k < |DigitRuns(a)| ==> DigitRuns(a)[k] in DigitRuns(b)
    ensures r ==> forall k :: 0 <= k < |DigitRuns(b)| ==> DigitRuns(b)[k] in DigitRuns(a)
    ensures !HasDigit(a) && !HasDigit(b) ==> (r <==> ratio(a, b) > 80)
    ensures ratio(a, b) > 80 && DigitRuns(a) == DigitRuns(b) ==> r
  {
    NumberSetEmpty(a);
    NumberSetEmpty(b);
    RunsInNumberSet(a);
    RunsInNumberSet(b);
    ratio(a, b) > 80 && NumberSet(a) == NumberSet(b)
  }

  /** The number set holds exactly the digit runs. */
  lemma RunsInNumberSet(s: string)
    ensures forall n :: n in NumberSet(s) <==> n in DigitRuns(s)
  {
  }

  /** With a symmetric similarity, closeness does not depend on the order
      of the two addresses. */
  lemma AddressesCloseSymmetric(ratio: Similarity, a: string, b: string)
    requires ratio(a, b) == ratio(b, a)
    ensures AreAddressesClose(ratio, a, b) == AreAddressesClose(ratio, b, a)
  {
  }

  // ---------------------------------------------------------------------
  // Fuzzy address match
  // ---------------------------------------------------------------------

  /** `addr if 'Bermuda' in addr else addr + ', Bermuda'` */
  function WithBermuda(s: string): (r: string)
    ensures Contains(r, "Bermuda")
  {
    if Contains(s, "Bermuda") then s
    else
      assert OccursAt(s + ", Bermuda", "Bermuda", |s| + 2);
      s + ", Bermuda"
  }

  /** The registry side of the comparison: Bermuda appended, and the spelled
      fractions of a case-insensitive match replaced where they are spelled
      with capitals. */
  function FuzzyTarget(addr: string): string {
    var a := WithBermuda(addr);
    var b := if Contains(Lower(a), "one tenth") then Replace(a, "One Tenth", "1/10th") else a;
    if Contains(Lower(b), "one sixth") then Replace(b, "One Sixth", "1/6th") else b
  }

  /** `s[n:]` */
  function DropFirst(s: string, n: nat): string {
    if |s| <= n then "" else s[n..]
  }

  /** `s[-n:]` */
  function LastN(s: string, n: nat): string {
    if |s| <= n then s else s[|s| - n..]
  }

  /** The verdict of `_fuzzy_address_match`: a flag and a score. */
  datatype Verdict = Verdict(ok: bool, score: int)

  /** Half or more of `n0`'s numbers occur in `n1`. */
  predicate HalfShared(n0: set<string>, n1: set<string>) {
    2 * |n0 * n1| >= |n0|
  }

  /** `_fuzzy_address_match(addr1, addr2)` with `fuzz.ratio` as `ratio`. */
  function FuzzyAddressMatch(ratio: Similarity, addr1: string, addr2: string): (v: Verdict)
    ensures 0 <= v.score <= 100
    ensures NumberSet(WithBermuda(addr1)) == {} || NumberSet(FuzzyTarget(addr2)) == {} ==> v == Verdict(false, 0)
    ensures v.ok && ratio(WithBermuda(addr1), FuzzyTarget(addr2)) > 80 ==>
      HalfShared(NumberSet(WithBermuda(addr1)), NumberSet(FuzzyTarget(addr2)))
    ensures v.ok && ratio(WithBermuda(addr1), FuzzyTarget(addr2)) <= 80 ==>
      NumberSet(WithBermuda(addr1)) == NumberSet(FuzzyTarget(addr2)) && v.score > 60
  {
    var a2 := FuzzyTarget(addr2);
    var a1 := WithBermuda(addr1);
    var n0 := NumberSet(a1);
    var n1 := NumberSet(a2);
    if |n0| == 0 || |n1| == 0 then Verdict(false, 0)
    else
      var sim := ratio(a1, a2);
      if sim > 80 && n0 == n1 then
        assert n0 * n1 == n0;
        Verdict(true, sim)
      else if sim > 80 && HalfShared(n0, n1) then Verdict(true, sim)
      else if sim <= 80 && n0 == n1 then
        var t := ratio(DropFirst(a1, 15), DropFirst(a2, 15));
        if t > 60 then Verdict(true, t)
        else
          var e := ratio(LastN(a1, 30), LastN(a2, 30));
          Verdict(e > 60, e)
      else Verdict(false, sim)
  }

  /** Above 80 the numbers decide alone: the match holds exactly when half
      or more of the first address's numbers occur in the second (equal
      number sets being one case of that). */
  lemma FuzzyAboveEighty(ratio: Similarity, addr1: string, addr2: string)
    requires NumberSet(WithBermuda(addr1)) != {} && NumberSet(FuzzyTarget(addr2)) != {}
    requires ratio(WithBermuda(addr1), FuzzyTarget(addr2)) > 80
    ensures FuzzyAddressMatch(ratio, addr1, addr2).ok <==>
      HalfShared(NumberSet(WithBermuda(addr1)), NumberSet(FuzzyTarget(addr2)))
  {
    var n0 := NumberSet(WithBermuda(addr1));
    var n1 := NumberSet(FuzzyTarget(addr2));
    if n0 == n1 {
      assert n0 * n1 == n0;
    }
  }

  /** `", Bermuda"` has no digit, so appending it adds no number. */
  lemma NoDigitsWithBermuda(s: string)
    requires !HasDigit(s)
    ensures !HasDigit(WithBermuda(s))
  {
    if !Contains(s, "Bermuda") {
      var r := s + ", Bermuda";
      forall i | 0 <= i < |r|
        ensures !IsDigit(r[i])
      {
        if i >= |s| {
          assert r[i] == ", Bermuda"[i - |s|];
        } else {
          assert r[i] == s[i];
        }
      }
    }
  }

  /** An address with no digit never matches, whatever the similarity says. */
  lemma FuzzyNeedsDigits(ratio: Similarity, addr1: string, addr2: string)
    requires !HasDigit(addr1)
    ensures FuzzyAddressMatch(ratio, addr1, addr2) == Verdict(false, 0)
  {
    NoDigitsWithBermuda(addr1);
    NumberSetEmpty(WithBermuda(addr1));
  }

  /** Addresses close by the plain test, both already naming Bermuda with a
      number in them and no spelled fraction in the second, also pass the
      fuzzy match. */
  lemma CloseAddressesMatch(ratio: Similarity, a: string, b: string)
    requires AreAddressesClose(ratio, a, b) && NumberSet(a) != {}
    requires Contains(a, "Bermuda") && Contains(b, "Bermuda")
    requires !Contains(Lower(b), "one tenth") && !Contains(Lower(b), "one sixth")
    ensures FuzzyAddressMatch(ratio, a, b).ok
  {
    assert WithBermuda(a) == a && WithBermuda(b) == b;
    assert FuzzyTarget(b) == b;
  }

  // ---------------------------------------------------------------------
  // Unit codes
  // ---------------------------------------------------------------------

  /** The end of the unit code the pattern
      `(\d+/\d+|\d+[A-Z]|[A-Z]-\d+|\d{3})` matches at `i`, trying the four
      alternatives in order. */
  function UnitCodeAt(s: string, i: nat): (e: Option<nat>)
    requires i <= |s|
    ensures e.Some? ==> i < e.value <= |s| && UnitCodeShape(s[i..e.value])
  {
    var d := DigitRunEnd(s, i);
    if d > i && d < |s| && s[d] == '/' && DigitRunEnd(s, d + 1) > d + 1 then
      var e := DigitRunEnd(s, d + 1);
      DigitSlice(s, i, d);
      DigitSlice(s, d + 1, e);
      assert s[i..e][..d - i] == s[i..d] && s[i..e][d - i + 1..] == s[d + 1..e];
      assert FractionCode(s[i..e], d - i);
      Some(e)
    else if d > i && d < |s| && IsUpper(s[d]) then
      DigitSlice(s, i, d);
      assert s[i..d + 1][..d - i] == s[i..d];
      Some(d + 1)
    else if i + 2 < |s| && IsUpper(s[i]) && s[i + 1] == '-' && IsDigit(s[i + 2]) then
      var e := DigitRunEnd(s, i + 2);
      DigitSlice(s, i + 2, e);
      assert s[i..e][2..] == s[i + 2..e];
      Some(e)
    else if d >= i + 3 then
      DigitSlice(s, i, i + 3);
      Some(i + 3)
    else None
  }

  /** A stretch of digits, cut out, is all digits. */
  lemma DigitSlice(s: string, i: nat, j: nat)
    requires i <= j <= |s| && forall k :: i <= k < j ==> IsDigit(s[k])
    ensures AllDigits(s[i..j])
  {
  }

  /** `t` is digits, a slash at `m`, and digits: `\d+/\d+`. */
  predicate FractionCode(t: string, m: nat) {
    0 < m < |t| - 1 && t[m] == '/' && AllDigits(t[..m]) && AllDigits(t[m + 1..])
  }

  /** Digits and then one capital: `\d+[A-Z]`. */
  predicate LetteredCode(t: string) {
    |t| >= 2 && AllDigits(t[..|t| - 1]) && IsUpper(t[|t| - 1])
  }

  /** A capital, a hyphen and digits: `[A-Z]-\d+`. */
  predicate BlockCode(t: string) {
    |t| >= 3 && IsUpper(t[0]) && t[1] == '-' && AllDigits(t[2..])
  }

  /** Three digits: `\d{3}`. */
  predicate ThreeDigitCode(t: string) {
    |t| == 3 && AllDigits(t)
  }

  /** `t` has the shape of one of the four alternatives of the pattern. */
  predicate UnitCodeShape(t: string) {
    || (exists m :: 0 < m < |t| && FractionCode(t, m))
    || LetteredCode(t)
    || BlockCode(t)
    || ThreeDigitCode(t)
  }

  /** `re.findall(pattern, s[i:])`: the unit codes from `i` on, left to right. */
  function UnitCodes(s: string, i: nat): (r: seq<string>)
    requires i <= |s|
    ensures forall k :: 0 <= k < |r| ==> |r[k]| > 0 && Contains(s, r[k]) && UnitCodeShape(r[k])
    decreases |s| - i
  {
    if i == |s| then []
    else
      var e := UnitCodeAt(s, i);
      if e.Some? then
        assert OccursAt(s, s[i..e.value], i);
        [s[i..e.value]] + UnitCodes(s, e.value)
      else UnitCodes(s, i + 1)
  }

  /** A run of digits from `i` that stops at `j` ends there. */
  lemma {:induction false} RunEndIs(s: string, i: nat, j: nat)
    requires i <= j < |s| && !IsDigit(s[j]) && forall k :: i <= k < j ==> IsDigit(s[k])
    ensures DigitRunEnd(s, i) == j
    decreases j - i
  {
    if i < j {
      RunEndIs(s, i + 1, j);
    }
  }

  /** A run of digits from `i` reaches at least `j` when the digits go on
      that far. */
  lemma {:induction false} RunEndPast(s: string, i: nat, j: nat)
    requires i <= j <= |s| && forall k :: i <= k < j ==> IsDigit(s[k])
    ensures DigitRunEnd(s, i) >= j
    decreases j - i
  {
    if i < j {
      RunEndPast(s, i + 1, j);
    }
  }

  /** Whenever text of one of the four shapes starts at `i`, the pattern
      matches at `i`: the scan skips no unit code. */
  lemma ShapeFound(s: string, i: nat, j: nat)
    requires i < j <= |s| && UnitCodeShape(s[i..j])
    ensures UnitCodeAt(s, i).Some?
  {
    var t := s[i..j];
    if exists m :: 0 < m < |t| && FractionCode(t, m) {
      var m :| 0 < m < |t| && FractionCode(t, m);
      FractionFound(s, i, j, m);
    } else if LetteredCode(t) {
      LetteredFound(s, i, j);
    } else if BlockCode(t) {
      assert t[2..][0] == s[i + 2];
    } else {
      ThreeDigitsFound(s, i, j);
    }
  }

  /** A fraction at `i` sends the scan down the first alternative. */
  lemma FractionFound(s: string, i: nat, j: nat, m: nat)
    requires i < j <= |s| && FractionCode(s[i..j], m)
    ensures DigitRunEnd(s, i) == i + m && DigitRunEnd(s, i + m + 1) > i + m + 1
  {
    var t := s[i..j];
    forall k | i <= k < i + m
      ensures IsDigit(s[k])
    {
      assert t[..m][k - i] == s[k];
    }
    RunEndIs(s, i, i + m);
    assert t[m + 1..][0] == s[i + m + 1];
    RunEndPast(s, i + m + 1, i + m + 2);
  }

  /** Digits and a capital at `i` send the scan down the second. */
  lemma LetteredFound(s: string, i: nat, j: nat)
    requires i < j <= |s| && LetteredCode(s[i..j])
    ensures DigitRunEnd(s, i) == j - 1 && IsUpper(s[j - 1])
  {
    var t := s[i..j];
    forall k | i <= k < j - 1
      ensures IsDigit(s[k])
    {
      assert t[..|t| - 1][k - i] == s[k];
    }
    RunEndIs(s, i, j - 1);
  }

  /** Three digits at `i` leave the fourth alternative open. */
  lemma ThreeDigitsFound(s: string, i: nat, j: nat)
    requires i < j <= |s| && ThreeDigitCode(s[i..j])
    ensures DigitRunEnd(s, i) >= i + 3
  {
    var t := s[i..j];
    forall k | i <= k < i + 3
      ensures IsDigit(s[k])
    {
      assert t[k - i] == s[k];
    }
    RunEndPast(s, i, i + 3);
  }

  /** Where the pattern does not match, no text of any of the four shapes
      starts. */
  lemma NoCodeNoShape(s: string, i: nat)
    requires i <= |s| && UnitCodeAt(s, i).None?
    ensures forall j :: i < j <= |s| ==> !UnitCodeShape(s[i..j])
  {
    forall j | i < j <= |s|
      ensures !UnitCodeShape(s[i..j])
    {
      if UnitCodeShape(s[i..j]) {
        ShapeFound(s, i, j);
      }
    }
  }

  /** Text without digits holds no unit code. */
  lemma {:induction false} NoDigitsNoUnitCodes(s: string, i: nat)
    requires i <= |s| && !HasDigit(s)
    ensures UnitCodes(s, i) == []
    decreases |s| - i
  {
    if i < |s| {
      assert !IsDigit(s[i]);
      if i + 2 < |s| {
        assert !IsDigit(s[i + 2]);
      }
      NoDigitsNoUnitCodes(s, i + 1);
    }
  }

  /** A flat number followed by a block letter is one code: "Unit 12B"
      yields "12B". */
  lemma UnitCodeExample()
    ensures UnitCodes("Unit 12B", 0) == ["12B"]
  {
    var s := "Unit 12B";
    assert UnitCodeAt(s, 8) == None by { assert DigitRunEnd(s, 8) == 8; }
    assert UnitCodes(s, 8) == [];
    assert DigitRunEnd(s, 7) == 7 && DigitRunEnd(s, 6) == 7 && DigitRunEnd(s, 5) == 7;
    assert UnitCodeAt(s, 5) == Some(8);
    assert UnitCodes(s, 5) == [s[5..8]] + UnitCodes(s, 8);
    assert s[5..8] == "12B";
    forall i | 0 <= i < 5
      ensures UnitCodeAt(s, i) == None
    {
      assert DigitRunEnd(s, i) == i;
    }
    assert UnitCodes(s, 4) == UnitCodes(s, 5);
    assert UnitCodes(s, 3) == UnitCodes(s, 4);
    assert UnitCodes(s, 2) == UnitCodes(s, 3);
    assert UnitCodes(s, 1) == UnitCodes(s, 2);
  }
}

=== FILE: tables.dfy ===
/**
 The two table operations the pipelines are built from: keeping the rows
 a mask selects (`df[mask]`, `df.drop(indexes)`) and keeping the first row
 of each key (`drop_duplicates(subset=..., keep='first')`).
 */
module Tables {
  /** The rows a predicate keeps, in their original order. */
  function Filter<T(==)>(xs: seq<T>, keep: T -> bool): (r: seq<T>)
    ensures |r| <= |xs|
    ensures forall a :: 0 <= a < |r| ==> keep(r[a]) && r[a] in xs
    ensures forall i :: 0 <= i < |xs| && keep(xs[i]) ==> xs[i] in r
  {
    if |xs| == 0 then []
    else (if keep(xs[0]) then [xs[0]] else []) + Filter(xs[1..], keep)
  }

  /** `a` is `b` with some elements removed, order kept. */
  predicate SubsequenceOf<T(==)>(a: seq<T>, b: seq<T>)
    decreases |b|
  {
    if |a| == 0 then true
    else if |b| == 0 then false
    else if a[0] == b[0] then SubsequenceOf(a[1..], b[1..])
    else SubsequenceOf(a, b[1..])
  }

  lemma {:induction false} SubsequenceReflexive<T>(a: seq<T>)
    ensures SubsequenceOf(a, a)
  {
    if |a| > 0 {
      SubsequenceReflexive(a[1..]);
    }
  }

  lemma {:induction false} SubsequenceDrop<T>(a: seq<T>, b: seq<T>)
    requires |a| > 0 && SubsequenceOf(a, b)
    ensures SubsequenceOf(a[1..], b)
    decreases |b|, 1
  {
    if a[0] == b[0] {
      SubsequenceWeaken(a[1..], b[1..], b[0]);
      assert b == [b[0]] + b[1..];
    } else {
      SubsequenceDrop(a, b[1..]);
      if |a| > 1 && a[1] == b[0] {
        SubsequenceDrop(a[1..], b[1..]);
      }
    }
  }

  lemma {:induction false} SubsequenceWeaken<T>(a: seq<T>, b: seq<T>, x: T)
    requires SubsequenceOf(a, b)
    ensures SubsequenceOf(a, [x] + b)
    decreases |b|, 2
  {
    assert ([x] + b)[1..] == b;
    if |a| > 0 && a[0] == x {
      SubsequenceDrop(a, b);
    }
  }

  /** Removing rows from a subsequence of a table leaves a subsequence of it. */
  lemma {:induction false} SubsequenceTransitive<T>(a: seq<T>, b: seq<T>, c: seq<T>)
    requires SubsequenceOf(a, b) && SubsequenceOf(b, c)
    ensures SubsequenceOf(a, c)
    decreases |c|
  {
    if |a| == 0 {
    } else if b[0] == c[0] {
      if a[0] == b[0] {
        SubsequenceTransitive(a[1..], b[1..], c[1..]);
      } else {
        SubsequenceTransitive(a, b[1..], c[1..]);
      }
    } else {
      SubsequenceTransitive(a, b, c[1..]);
      if a[0] == c[0] {
        SubsequenceDrop(a, c[1..]);
      }
    }
  }

  /** Filtering keeps the table's order. */
  lemma {:induction false} FilterIsSubsequence<T>(xs: seq<T>, keep: T -> bool)
    ensures SubsequenceOf(Filter(xs, keep), xs)
  {
    if |xs| > 0 {
      var rest := Filter(xs[1..], keep);
      FilterIsSubsequence(xs[1..], keep);
      if keep(xs[0]) {
        assert Filter(xs, keep) == [xs[0]] + rest;
        assert ([xs[0]] + rest)[1..] == rest;
      } else {
        assert Filter(xs, keep) == [] + rest == rest;
        SubsequenceWeaken(rest, xs[1..], xs[0]);
        assert xs == [xs[0]] + xs[1..];
      }
    }
  }

  /** The keys of a table. */
  function Keys<T, K>(xs: seq<T>, key: T -> K): (ks: set<K>)
    ensures forall i :: 0 <= i < |xs| ==> key(xs[i]) in ks
  {
    if |xs| == 0 then {} else {key(xs[0])} + Keys(xs[1..], key)
  }

  /** No earlier row of `xs` has the key of row `i`. */
  predicate FirstOfKey<T, K(==)>(xs: seq<T>, key: T -> K, i: nat)
    requires i < |xs|
  {
    forall j :: 0 <= j < i ==> key(xs[j]) != key(xs[i])
  }

  /** `drop_duplicates(keep='first')`: the first row of every key, in table order. */
  function KeepFirst<T(==), K(==)>(xs: seq<T>, key: T -> K): (r: seq<T>)
    ensures |r| <= |xs|
    ensures Keys(r, key) == Keys(xs, key)
    ensures forall a, b :: 0 <= a < b < |r| ==> key(r[a]) != key(r[b])
    ensures forall a :: 0 <= a < |r| ==> r[a] in xs
    decreases |xs|
  {
    if |xs| == 0 then []
    else
      var d := KeepFirst(xs[..|xs| - 1], key);
      var last := xs[|xs| - 1];
      assert xs == xs[..|xs| - 1] + [last];
      KeysAppend(xs[..|xs| - 1], last, key);
      if key(last) in Keys(d, key) then d
      else
        KeysAppend(d, last, key);
        d + [last]
  }

  lemma {:induction false} KeysAppend<T, K>(xs: seq<T>, x: T, key: T -> K)
    ensures Keys(xs + [x], key) == Keys(xs, key) + {key(x)}
    decreases |xs|
  {
    if |xs| > 0 {
      assert (xs + [x])[1..] == xs[1..] + [x];
      KeysAppend(xs[1..], x, key);
    } else {
      assert Keys([x], key) == {key(x)} + Keys([], key);
    }
  }

  /** Every row that survives de-duplication is the first of its key in
      the input. */
  lemma {:induction false} KeepFirstKeepsFirsts<T, K>(xs: seq<T>, key: T -> K, a: nat)
    requires a < |KeepFirst(xs, key)|
    ensures exists i :: 0 <= i < |xs| && xs[i] == KeepFirst(xs, key)[a] && FirstOfKey(xs, key, i)
    decreases |xs|
  {
    var p := xs[..|xs| - 1];
    var d := KeepFirst(p, key);
    var last := xs[|xs| - 1];
    KeysAppend(p, last, key);
    if a < |d| {
      KeepFirstKeepsFirsts(p, key, a);
      var i :| 0 <= i < |p| && p[i] == d[a] && FirstOfKey(p, key, i);
      assert xs[i] == p[i];
      assert FirstOfKey(xs, key, i) by {
        forall j | 0 <= j < i
          ensures key(xs[j]) != key(xs[i])
        {
          assert xs[j] == p[j];
        }
      }
    } else {
      assert key(last) !in Keys(d, key);
      var i := |xs| - 1;
      assert FirstOfKey(xs, key, i) by {
        forall j | 0 <= j < i
          ensures key(xs[j]) != key(xs[i])
        {
          assert xs[j] == p[j];
          assert key(p[j]) in Keys(p, key);
        }
      }
    }
  }

  /** Every key of a table is the key of one of its rows. */
  lemma {:induction false} KeysInverse<T, K>(xs: seq<T>, key: T -> K, k: K)
    requires k in Keys(xs, key)
    ensures exists i :: 0 <= i < |xs| && key(xs[i]) == k
    decreases |xs|
  {
    if key(xs[0]) != k {
      KeysInverse(xs[1..], key, k);
      var i :| 0 <= i < |xs[1..]| && key(xs[1..][i]) == k;
      assert key(xs[i + 1]) == k;
    }
  }

  /** The first row of every key survives de-duplication. */
  lemma {:induction false} KeepFirstKeepsFirst<T, K>(xs: seq<T>, key: T -> K, i: nat)
    requires i < |xs| && FirstOfKey(xs, key, i)
    ensures xs[i] in KeepFirst(xs, key)
    decreases |xs|
  {
    var p := xs[..|xs| - 1];
    var d := KeepFirst(p, key);
    var last := xs[|xs| - 1];
    if i < |xs| - 1 {
      assert FirstOfKey(p, key, i) by {
        forall j | 0 <= j < i
          ensures key(p[j]) != key(p[i])
        {
          assert p[j] == xs[j] && p[i] == xs[i];
        }
      }
      KeepFirstKeepsFirst(p, key, i);
      assert xs[i] == p[i];
    } else if key(last) in Keys(d, key) {
      KeysInverse(p, key, key(last));
      assert false;
    }
  }

  /** The first row with the key of row `i`. */
  lemma {:induction false} FirstOfItsKey<T, K>(xs: seq<T>, key: T -> K, i: nat) returns (j: nat)
    requires i < |xs|
    ensures j <= i && key(xs[j]) == key(xs[i]) && FirstOfKey(xs, key, j)
    decreases i
  {
    if FirstOfKey(xs, key, i) {
      j := i;
    } else {
      var m :| 0 <= m < i && key(xs[m]) == key(xs[i]);
      j := FirstOfItsKey(xs, key, m);
    }
  }

  /** Every element of a subsequence is an element of the sequence. */
  lemma {:induction false} SubsequenceMembers<T>(a: seq<T>, b: seq<T>)
    requires SubsequenceOf(a, b)
    ensures forall k :: 0 <= k < |a| ==> a[k] in b
    decreases |b|
  {
    if |a| > 0 {
      if a[0] == b[0] {
        SubsequenceMembers(a[1..], b[1..]);
        forall k | 0 <= k < |a|
          ensures a[k] in b
        {
          if k > 0 {
            assert a[k] == a[1..][k - 1];
            assert a[k] in b[1..];
          }
        }
      } else {
        SubsequenceMembers(a, b[1..]);
      }
    }
  }

  /** A mask every row passes keeps the table as it is. */
  lemma {:induction false} FilterKeepsAll<T>(xs: seq<T>, keep: T -> bool)
    requires forall i :: 0 <= i < |xs| ==> keep(xs[i])
    ensures Filter(xs, keep) == xs
  {
    if |xs| > 0 {
      FilterKeepsAll(xs[1..], keep);
      assert xs == [xs[0]] + xs[1..];
    }
  }
}

=== FILE: text.dfy ===
/**
 String primitives with the semantics of the Python built-ins the importer
 relies on: `in` (substring search), `str.lower`, `str.strip`,
 `str.replace`, `str.split` on one separator, `str.join`, `re.findall('\d+')`
 and `int(...)` parsing of a decimal literal.
 Character classes are ASCII: `\d` is 0-9, letters are a-z/A-Z, and the
 whitespace set is space, tab, newline, carriage return, vertical tab and
 form feed.
 */
module Text {

  predicate IsDigit(c: char) { '0' <= c <= '9' }

  predicate IsUpper(c: char) { 'A' <= c <= 'Z' }

  predicate IsLetter(c: char) { 'a' <= c <= 'z' || 'A' <= c <= 'Z' }

  predicate IsSpace(c: char) {
    c == ' ' || c == '\t' || c == '\n' || c == '\r' || c as int == 11 || c as int == 12
  }

  predicate AllDigits(s: string) { forall i :: 0 <= i < |s| ==> IsDigit(s[i]) }

  /** `sub` occurs in `s` starting at index `i` */
  predicate OccursAt(s: string, sub: string, i: int) {
    0 <= i && i + |sub| <= |s| && s[i..i + |sub|] == sub
  }

  /** `sub in s` */
  predicate Contains(s: string, sub: string) {
    exists i :: 0 <= i <= |s| && OccursAt(s, sub, i)
  }

  /** `c in s` for a single character */
  predicate HasChar(s: string, c: char) { c in s }

  function LowerChar(c: char): char {
    if IsUpper(c) then (c as int + 32) as char else c
  }

  /** `s.lower()` restricted to ASCII letters */
  function Lower(s: string): (r: string)
    ensures |r| == |s|
    ensures forall i :: 0 <= i < |s| ==> r[i] == LowerChar(s[i])
  {
    seq(|s|, i requires 0 <= i < |s| => LowerChar(s[i]))
  }

  function StripLeft(s: string): (r: string)
    ensures |r| <= |s| && r == s[|s| - |r|..]
    ensures |r| > 0 ==> !IsSpace(r[0])
    ensures forall i :: 0 <= i < |s| - |r| ==> IsSpace(s[i])
  {
    if |s| > 0 && IsSpace(s[0]) then StripLeft(s[1..]) else s
  }

  function StripRight(s: string): (r: string)
    ensures |r| <= |s| && r == s[..|r|]
    ensures |r| > 0 ==> !IsSpace(r[|r| - 1])
    ensures forall i :: |r| <= i < |s| ==> IsSpace(s[i])
  {
    if |s| > 0 && IsSpace(s[|s| - 1]) then StripRight(s[..|s| - 1]) else s
  }

  /** `s.strip()`: the longest infix with no whitespace at either end */
  function Strip(s: string): (r: string)
    ensures |r| <= |s|
    ensures |r| > 0 ==> !IsSpace(r[0]) && !IsSpace(r[|r| - 1])
    ensures |s| - |StripLeft(s)| + |r| <= |s|
    ensures r == s[|s| - |StripLeft(s)|..|s| - |StripLeft(s)| + |r|]
  {
    var l := StripLeft(s);
    var r := StripRight(l);
    PrefixOfSuffix(s, l, r);
    r
  }

  /** A prefix of a suffix of `s` is an infix of `s`. */
  lemma PrefixOfSuffix(s: string, l: string, r: string)
    requires |l| <= |s| && l == s[|s| - |l|..]
    requires |r| <= |l| && r == l[..|r|]
    ensures r == s[|s| - |l|..|s| - |l| + |r|]
  {
  }

  lemma StripChars(s: string)
    ensures forall x :: x in Strip(s) ==> x in s
  {
    var l := StripLeft(s);
    var r := StripRight(l);
    assert Strip(s) == r;
    forall i | 0 <= i < |r| ensures r[i] in s {
      assert r[i] == l[i] == s[|s| - |l| + i];
    }
  }

  /** Stripping removes white space only: every other character of `s`
      survives. */
  lemma StripKeepsNonSpace(s: string)
    ensures forall x :: x in s && !IsSpace(x) ==> x in Strip(s)
  {
    var l := StripLeft(s);
    var r := Strip(s);
    var k := |s| - |l|;
    forall x | x in s && !IsSpace(x) ensures x in r {
      var i :| 0 <= i < |s| && s[i] == x;
      assert k <= i;
      assert l[i - k] == x;
      assert i - k < |r|;
      assert r[i - k] == x;
    }
  }

  /** A character absent from `s` rules out every pattern holding it. */
  lemma NotContainsChar(s: string, pat: string, c: char)
    requires c !in s && c in pat
    ensures !Contains(s, pat)
  {
  }

  /** A string with no whitespace at either end is its own strip. */
  lemma StripTrimmed(s: string)
    requires |s| > 0 ==> !IsSpace(s[0]) && !IsSpace(s[|s| - 1])
    ensures Strip(s) == s
  {
  }

  /** `s.replace(pat, rep)`: left-to-right, non-overlapping occurrences */
  function Replace(s: string, pat: string, rep: string): (r: string)
    requires |pat| > 0
    ensures |rep| <= |pat| ==> |r| <= |s|
    ensures |rep| == |pat| ==> |r| == |s|
    decreases |s|
  {
    if |s| < |pat| then s
    else if s[..|pat|] == pat then rep + Replace(s[|pat|..], pat, rep)
    else [s[0]] + Replace(s[1..], pat, rep)
  }

  /** Without an occurrence of the pattern, replacing changes nothing. */
  lemma {:induction false} ReplaceAbsent(s: string, pat: string, rep: string)
    requires |pat| > 0
    requires !Contains(s, pat)
    ensures Replace(s, pat, rep) == s
    decreases |s|
  {
    if |s| >= |pat| {
      assert !OccursAt(s, pat, 0);
      ContainsTail(s, pat);
      ReplaceAbsent(s[1..], pat, rep);
    }
  }

  /** Every character of the result comes from the text or the replacement,
      and a one-character pattern not in the replacement is gone. */
  lemma {:induction false} ReplaceChars(s: string, pat: string, rep: string)
    requires |pat| > 0
    ensures forall x :: x in Replace(s, pat, rep) ==> x in s || x in rep
    ensures |pat| == 1 && pat[0] !in rep ==> pat[0] !in Replace(s, pat, rep)
    decreases |s|
  {
    if |s| < |pat| {
    } else if s[..|pat|] == pat {
      ReplaceChars(s[|pat|..], pat, rep);
      assert forall x :: x in s[|pat|..] ==> x in s;
    } else {
      ReplaceChars(s[1..], pat, rep);
      assert forall x :: x in s[1..] ==> x in s;
    }
  }

  lemma ContainsTail(s: string, pat: string)
    requires |s| > 0
    ensures Contains(s[1..], pat) ==> Contains(s, pat)
  {
    if Contains(s[1..], pat) {
      var i :| 0 <= i <= |s[1..]| && OccursAt(s[1..], pat, i);
      assert s[i + 1..i + 1 + |pat|] == pat;
      assert OccursAt(s, pat, i + 1);
    }
  }

  /** Removing every occurrence of one character (`s.replace(c, "")`). */
  function RemoveChar(s: string, c: char): (r: string)
    ensures c !in r
    ensures |r| <= |s|
    ensures forall x :: x in r ==> x in s
    ensures forall x :: x in s && x != c ==> x in r
  {
    if |s| == 0 then ""
    else if s[0] == c then RemoveChar(s[1..], c)
    else [s[0]] + RemoveChar(s[1..], c)
  }

  /** Deleting a one-character pattern is the same as filtering it out. */
  lemma {:induction false} ReplaceOneCharIsRemove(s: string, c: char)
    ensures Replace(s, [c], "") == RemoveChar(s, c)
    decreases |s|
  {
    if |s| == 0 {
    } else {
      ReplaceOneCharIsRemove(s[1..], c);
      if s[0] == c {
        assert s[..1] == [c];
        assert s[1..] == s[|[c]|..];
      } else {
        assert s[..1] != [c];
      }
    }
  }

  lemma RemoveCharAppend(a: string, b: string, c: char)
    ensures RemoveChar(a + b, c) == RemoveChar(a, c) + RemoveChar(b, c)
    decreases |a|
  {
    if |a| == 0 {
      assert a + b == b;
    } else {
      assert (a + b)[1..] == a[1..] + b;
      RemoveCharAppend(a[1..], b, c);
    }
  }

  /** Removing a character from a string with a known first character. */
  lemma RemoveCharCons(x: char, s: string, c: char)
    ensures RemoveChar([x] + s, c) == if x == c then RemoveChar(s, c) else [x] + RemoveChar(s, c)
  {
    assert ([x] + s)[1..] == s;
  }

  lemma RemoveCharAbsent(s: string, c: char)
    requires c !in s
    ensures RemoveChar(s, c) == s
  {
    if |s| > 0 {
      RemoveCharAbsent(s[1..], c);
    }
  }

  /** `s.split(sep)` for a one-character separator */
  function Split(s: string, sep: char): (r: seq<string>)
    ensures |r| >= 1
    decreases |s|
  {
    if |s| == 0 then [""]
    else if s[0] == sep then [""] + Split(s[1..], sep)
    else
      var t := Split(s[1..], sep);
      [[s[0]] + t[0]] + t[1..]
  }

  /** The parts hold no separator and only characters of the text; none is
      longer than the text, and when there are two or more each is shorter. */
  lemma {:induction false} SplitFacts(s: string, sep: char)
    ensures var r := Split(s, sep);
      && (forall k :: 0 <= k < |r| ==> sep !in r[k])
      && (forall k :: 0 <= k < |r| ==> |r[k]| <= |s|)
      && (|r| >= 2 ==> forall k :: 0 <= k < |r| ==> |r[k]| < |s|)
      && (forall k, x :: 0 <= k < |r| && x in r[k] ==> x in s)
    decreases |s|
  {
    if |s| == 0 {
    } else if s[0] == sep {
      SplitFacts(s[1..], sep);
      assert forall x :: x in s[1..] ==> x in s;
    } else {
      SplitFacts(s[1..], sep);
      var t := Split(s[1..], sep);
      var r := [[s[0]] + t[0]] + t[1..];
      assert forall x :: x in s[1..] ==> x in s;
      assert forall k :: 1 <= k < |r| ==> r[k] == t[k];
    }
  }

  /** Text without the separator is a single part. */
  lemma SplitNoSep(s: string, sep: char)
    requires sep !in s
    ensures Split(s, sep) == [s]
    decreases |s|
  {
    if |s| > 0 {
      SplitNoSep(s[1..], sep);
      assert [s[0]] + s[1..] == s;
    }
  }

  /** `sep.join(parts)` */
  function Join(parts: seq<string>, sep: string): string {
    if |parts| == 0 then ""
    else if |parts| == 1 then parts[0]
    else parts[0] + sep + Join(parts[1..], sep)
  }

  /** Splitting on a separator and joining back with it is the identity. */
  lemma {:induction false} JoinSplit(s: string, sep: char)
    ensures Join(Split(s, sep), [sep]) == s
    decreases |s|
  {
    if |s| == 0 {
    } else if s[0] == sep {
      JoinSplit(s[1..], sep);
    } else {
      JoinSplit(s[1..], sep);
      var t := Split(s[1..], sep);
      if |t| == 1 {
      } else {
        assert t == [t[0]] + t[1..];
        assert Join(t, [sep]) == t[0] + [sep] + Join(t[1..], [sep]);
      }
    }
  }

  /** Splitting a join of separator-free parts gives the parts back. */
  lemma {:induction false} SplitJoin(parts: seq<string>, sep: char)
    requires |parts| >= 1
    requires forall k :: 0 <= k < |parts| ==> sep !in parts[k]
    ensures Split(Join(parts, [sep]), sep) == parts
    decreases |parts|
  {
    if |parts| == 1 {
      SplitNoSep(parts[0], sep);
    } else {
      var rest := Join(parts[1..], [sep]);
      assert Join(parts, [sep]) == parts[0] + [sep] + rest;
      assert forall k :: 0 <= k < |parts[1..]| ==> sep !in parts[1..][k] by {
        forall k | 0 <= k < |parts[1..]| ensures sep !in parts[1..][k] {
          assert parts[1..][k] == parts[k + 1];
        }
      }
      SplitJoin(parts[1..], sep);
      SplitPrefix(parts[0], rest, sep);
      assert [parts[0]] + parts[1..] == parts;
    }
  }

  lemma {:induction false} SplitPrefix(a: string, b: string, sep: char)
    requires sep !in a
    ensures Split(a + [sep] + b, sep) == [a] + Split(b, sep)
    decreases |a|
  {
    if |a| == 0 {
      assert a + [sep] + b == [sep] + b;
      assert ([sep] + b)[1..] == b;
    } else {
      assert (a + [sep] + b)[1..] == a[1..] + [sep] + b;
      SplitPrefix(a[1..], b, sep);
      assert (a + [sep] + b)[0] == a[0];
      assert [a[0]] + a[1..] == a;
    }
  }

  /** The index just past the run of digits starting at `i`. */
  function DigitRunEnd(s: string, i: nat): (j: nat)
    requires i <= |s|
    ensures i <= j <= |s|
    ensures forall k :: i <= k < j ==> IsDigit(s[k])
    ensures j < |s| ==> !IsDigit(s[j])
    decreases |s| - i
  {
    if i < |s| && IsDigit(s[i]) then DigitRunEnd(s, i + 1) else i
  }

  /** `re.findall(r'\d+', s)`: the maximal digit runs, left to right. */
  function DigitRuns(s: string): (r: seq<string>)
    ensures forall k :: 0 <= k < |r| ==> |r[k]| > 0 && AllDigits(r[k])
    ensures r == [] <==> forall i :: 0 <= i < |s| ==> !IsDigit(s[i])
    decreases |s|
  {
    if |s| == 0 then []
    else if IsDigit(s[0]) then
      var j := DigitRunEnd(s, 0);
      var rest := DigitRuns(s[j..]);
      assert forall i :: 0 <= i < |s[j..]| ==> s[j..][i] == s[j + i];
      [s[..j]] + rest
    else
      var rest := DigitRuns(s[1..]);
      assert forall i :: 0 <= i < |s[1..]| ==> s[1..][i] == s[1 + i];
      rest
  }

  /** `set(re.findall(r'\d+', s))` */
  function NumberSet(s: string): set<string> {
    set k | 0 <= k < |DigitRuns(s)| :: DigitRuns(s)[k]
  }

  /** `bool(re.findall('[0-9]+', s))` */
  predicate HasDigit(s: string) { exists i :: 0 <= i < |s| && IsDigit(s[i]) }

  lemma NumberSetEmpty(s: string)
    ensures NumberSet(s) == {} <==> !HasDigit(s)
  {
    var runs := DigitRuns(s);
    if runs != [] {
      assert runs[0] in NumberSet(s);
    }
  }

  /** Digits separated by single underscores, as Python's integer literals allow. */
  predicate IsDigitGroupSeq(s: string) {
    && |s| > 0
    && IsDigit(s[0]) && IsDigit(s[|s| - 1])
    && (forall i :: 0 <= i < |s| ==> IsDigit(s[i]) || s[i] == '_')
    && (forall i :: 0 <= i < |s| - 1 ==> !(s[i] == '_' && s[i + 1] == '_'))
  }

  /** The body of `int(s)` succeeding on an already stripped string:
      an optional sign followed by underscore-separated digits. */
  predicate IsIntLiteral(s: string) {
    if |s| > 0 && (s[0] == '+' || s[0] == '-') then IsDigitGroupSeq(s[1..])
    else IsDigitGroupSeq(s)
  }

  /** `int(s)` does not raise. */
  predicate ParsesAsInt(s: string) { IsIntLiteral(Strip(s)) }

  function DigitsValue(s: string): nat
    decreases |s|
  {
    if |s| == 0 then 0
    else if IsDigit(s[|s| - 1]) then DigitsValue(s[..|s| - 1]) * 10 + (s[|s| - 1] as int - '0' as int)
    else DigitsValue(s[..|s| - 1])
  }

  /** The value of `int(s)` when it does not raise. */
  function IntValue(s: string): int
    requires ParsesAsInt(s)
  {
    var t := Strip(s);
    if t[0] == '-' then -(DigitsValue(t[1..]) as int)
    else if t[0] == '+' then DigitsValue(t[1..])
    else DigitsValue(t)
  }

  /** `str(n)` for an integer */
  function NatToString(n: nat): (r: string)
    ensures |r| > 0 && AllDigits(r)
    decreases n
  {
    if n < 10 then [('0' as int + n) as char]
    else NatToString(n / 10) + [('0' as int + n % 10) as char]
  }

  function IntToString(n: int): string {
    if n < 0 then "-" + NatToString(-n) else NatToString(n)
  }

  /** Python slice `s[k:]` */
  function Drop(s: string, k: nat): string {
    if k >= |s| then "" else s[k..]
  }

  /** Python slice `s[-k:]` */
  function Last(s: string, k: nat): string {
    if k >= |s| then s else s[|s| - k..]
  }
}

=== FILE: valuation.dfy ===
/**
 Enrichment of the registry from the land-valuation register: the annual
 rental value (ARV) of each sale's properties, their combined ARV, and the
 correction of the property type from the register's more reliable one.
 The register is a parameter; reading it from disk is not modelled.
 */
module Valuation {
  import opened Text
  import opened PyValue
  import opened Assessment
  import opened Registry

  /** One row of the land-valuation register. */
  datatype Entry = Entry(assn: int, arv: int, propertyType: string, buildingName: string, address: string)

  /** A registry token has no surrounding whitespace, so `int()` accepts it. */
  lemma TokenParses(t: string)
    requires ValidToken(t)
    ensures ParsesAsInt(t)
  {
    StripTrimmed(t);
  }

  /** `int(t)` on a token the registry normaliser returns */
  function CodeValue(t: string): int
    requires ValidToken(t)
  {
    TokenParses(t);
    IntValue(t)
  }

  /** `lv[lv.assn_nr == n]`: the register rows for one number, in register order. */
  function Lookup(lv: seq<Entry>, n: int): (m: seq<Entry>)
    ensures |m| <= |lv|
    ensures forall e :: e in m <==> e in lv && e.assn == n
  {
    if |lv| == 0 then []
    else (if lv[0].assn == n then [lv[0]] else []) + Lookup(lv[1..], n)
  }

  /** A number the register does not hold selects no row. */
  lemma {:induction false} LookupMissing(lv: seq<Entry>, n: int)
    requires forall e :: e in lv ==> e.assn != n
    ensures Lookup(lv, n) == []
  {
    if |lv| > 0 {
      assert lv[0] in lv;
      LookupMissing(lv[1..], n);
    }
  }

  /** `.arv.values` */
  function Arvs(m: seq<Entry>): (r: seq<int>)
    ensures |r| == |m|
    ensures forall k :: 0 <= k < |m| ==> r[k] == m[k].arv
  {
    seq(|m|, k requires 0 <= k < |m| => m[k].arv)
  }

  /** Every token of a normaliser result is a valid token. */
  predicate ValidCodes(codes: seq<string>) {
    forall k :: 0 <= k < |codes| ==> ValidToken(codes[k])
  }

  /** `[int(x) for x in codes]` */
  function CodeValues(codes: seq<string>): (ns: seq<int>)
    requires ValidCodes(codes)
    ensures |ns| == |codes|
    ensures forall k :: 0 <= k < |codes| ==> ns[k] == CodeValue(codes[k])
  {
    seq(|codes|, k requires 0 <= k < |codes| => CodeValue(codes[k]))
  }

  /** The registry codes of a cell as the integers the register is keyed
      by; `None` when `get_assessment_number` finds none. */
  function CodeNumbers(cell: Value): (c: Option<seq<int>>)
    ensures c.Some? <==> HasAssessment(cell)
    ensures c.Some? ==> |c.value| > 0
  {
    var an := GetAssessmentNumber(cell);
    if an.Some? then Some(CodeValues(an.value)) else None
  }

  // ---------------------------------------------------------------------
  // ARV
  // ---------------------------------------------------------------------

  function Sum(xs: seq<int>): int {
    if |xs| == 0 then 0 else xs[0] + Sum(xs[1..])
  }

  /** `find_combined_arv`: a Python list is summed (an empty one gives 0);
      anything else goes through `int()`, which only a scalar or a
      one-element array survives, and a failure gives 0. */
  function CombinedArv(a: Arv): (n: int)
    ensures a.Firsts? ==> n == Sum(a.vs)
    ensures a.Scalar? ==> n == a.n
    ensures a.Values? && |a.vs| == 1 ==> n == a.vs[0]
    ensures a.Values? && |a.vs| != 1 ==> n == 0
  {
    match a
    case Unset => 0
    case Scalar(n) => n
    case Values(vs) => if |vs| == 1 then vs[0] else 0
    case Firsts(vs) => Sum(vs)
  }

  /** A sum of non-negative ARVs is at least each of them. */
  lemma {:induction false} SumBounds(xs: seq<int>)
    requires forall k :: 0 <= k < |xs| ==> xs[k] >= 0
    ensures Sum(xs) >= 0
    ensures forall k :: 0 <= k < |xs| ==> xs[k] <= Sum(xs)
  {
    if |xs| > 0 {
      SumBounds(xs[1..]);
      forall k | 0 < k < |xs| ensures xs[k] <= Sum(xs) {
        assert xs[k] == xs[1..][k - 1];
      }
    }
  }

  /** The ARV of the first register row of every number that has one, in
      code order: `[x.values[0] for x in arvs if len(x) > 0]`. */
  function FirstArvs(lv: seq<Entry>, ns: seq<int>): (r: seq<int>)
    ensures |r| <= |ns|
    ensures forall x :: x in r ==> exists e :: e in lv && e.arv == x
  {
    if |ns| == 0 then []
    else
      var m := Lookup(lv, ns[0]);
      (if |m| > 0 then [m[0].arv] else []) + FirstArvs(lv, ns[1..])
  }

  /** A single-code row without exactly one register row: the source falls
      back on the `arvs` local of the last multi-code row. */
  predicate SingleUnmatched(lv: seq<Entry>, c: Option<seq<int>>) {
    c.Some? && |c.value| == 1 && |Lookup(lv, c.value[0])| != 1
  }

  predicate MultiCode(c: Option<seq<int>>) {
    c.Some? && |c.value| > 1
  }

  /** One row's ARV cell, and the length of the `arvs` local afterwards
      (`None` while it is unbound). */
  datatype ArvStep = ArvStep(arv: Arv, found: Option<nat>)

  /** The loop body of `add_arv_to_ltro` on a row with numbers `c`; `None`
      when it reads the unbound `arvs`. */
  function ArvFor(lv: seq<Entry>, c: Option<seq<int>>, found: Option<nat>): (s: Option<ArvStep>)
    ensures s.None? <==> found.None? && SingleUnmatched(lv, c)
    ensures s.Some? && !MultiCode(c) ==> s.value.found == found
    ensures s.Some? && MultiCode(c) ==> s.value.found.Some?
  {
    if c.Some? && |c.value| == 1 then
      var m := Arvs(Lookup(lv, c.value[0]));
      if |m| == 1 then Some(ArvStep(Scalar(m[0]), found))
      else if found.None? then None
      else if found.value >= 1 then Some(ArvStep(Values(m), found))
      else Some(ArvStep(Scalar(0), found))
    else if c.Some? && |c.value| > 1 then
      var fs := FirstArvs(lv, c.value);
      Some(ArvStep(if |fs| > 0 then Firsts(fs) else Scalar(0), Some(|fs|)))
    else Some(ArvStep(Scalar(0), found))
  }

  /** The ARV column the loop builds from the number column `cs`, starting
      from a given state of the `arvs` local; `None` when it raises. */
  function ArvColumn(lv: seq<Entry>, cs: seq<Option<seq<int>>>, found: Option<nat>): (col: Option<seq<Arv>>)
    ensures col.Some? ==> |col.value| == |cs|
    decreases |cs|
  {
    if |cs| == 0 then Some([])
    else
      var s := ArvFor(lv, cs[0], found);
      if s.None? then None
      else
        var rest := ArvColumn(lv, cs[1..], s.value.found);
        if rest.None? then None else Some([s.value.arv] + rest.value)
  }

  /** The number column of a table. */
  function NumberColumn(rows: seq<Sale>): (cs: seq<Option<seq<int>>>)
    ensures |cs| == |rows|
    ensures forall i :: 0 <= i < |rows| ==> cs[i] == CodeNumbers(rows[i].assessment)
  {
    seq(|rows|, i requires 0 <= i < |rows| => CodeNumbers(rows[i].assessment))
  }

  /** `add_arv_to_ltro(df, lv)`: the `arv` column from the loop and the
      `combined_arv` column from it; `None` when the source raises. */
  function AddArv(rows: seq<Sale>, lv: seq<Entry>): (out: Option<seq<Sale>>)
    ensures out.Some? <==> ArvColumn(lv, NumberColumn(rows), None).Some?
    ensures out.Some? ==> |out.value| == |rows| && forall i :: 0 <= i < |rows| ==>
      && out.value[i].(arv := rows[i].arv, combinedArv := rows[i].combinedArv) == rows[i]
      && out.value[i].arv == ArvColumn(lv, NumberColumn(rows), None).value[i]
      && out.value[i].combinedArv == CombinedArv(out.value[i].arv)
  {
    var col := ArvColumn(lv, NumberColumn(rows), None);
    if col.None? then None
    else
      assert |col.value| == |rows|;
      Some(WithArvs(rows, col.value))
  }

  /** The rows with the `arv` column set and `combined_arv` derived from it. */
  function WithArvs(rows: seq<Sale>, col: seq<Arv>): (out: seq<Sale>)
    requires |col| == |rows|
    ensures |out| == |rows|
    ensures forall i :: 0 <= i < |rows| ==>
      && out[i].(arv := rows[i].arv, combinedArv := rows[i].combinedArv) == rows[i]
      && out[i].arv == col[i]
      && out[i].combinedArv == CombinedArv(col[i])
  {
    seq(|rows|, i requires 0 <= i < |rows| => rows[i].(arv := col[i], combinedArv := CombinedArv(col[i])))
  }

  /** The loop raises exactly when, with `arvs` still unbound, it reaches a
      single-code row without exactly one register row, that is, when such
      a row comes before every multi-code row. */
  lemma {:induction false} ArvCrash(lv: seq<Entry>, cs: seq<Option<seq<int>>>, found: Option<nat>)
    ensures ArvColumn(lv, cs, found).None? <==>
      found.None? && exists i :: 0 <= i < |cs| && SingleUnmatched(lv, cs[i]) && UnboundBefore(cs, i)
    decreases |cs|
  {
    if |cs| > 0 {
      var s := ArvFor(lv, cs[0], found);
      if s.Some? {
        ArvCrash(lv, cs[1..], s.value.found);
        if !MultiCode(cs[0]) && found.None? {
          forall i | 1 <= i < |cs| ensures UnboundBefore(cs, i) <==> UnboundBefore(cs[1..], i - 1) {
            UnboundShift(cs, i);
          }
          if ArvColumn(lv, cs[1..], s.value.found).None? {
            var i :| 0 <= i < |cs[1..]| && SingleUnmatched(lv, cs[1..][i]) && UnboundBefore(cs[1..], i);
            assert cs[i + 1] == cs[1..][i];
          }
        }
      }
    }
  }

  /** No multi-code row comes before position `i`. */
  predicate UnboundBefore(cs: seq<Option<seq<int>>>, i: nat)
    requires i <= |cs|
  {
    forall j :: 0 <= j < i ==> !MultiCode(cs[j])
  }

  lemma UnboundShift(cs: seq<Option<seq<int>>>, i: nat)
    requires 1 <= i <= |cs| && !MultiCode(cs[0])
    ensures UnboundBefore(cs, i) <==> UnboundBefore(cs[1..], i - 1)
  {
    assert forall j :: 0 <= j < i - 1 ==> cs[1..][j] == cs[j + 1];
  }

  /** What the source leaves in the ARV cell of a row with numbers `c`,
      whatever came before it; only a single-code row without exactly one
      register row depends on earlier rows, and then only in choosing
      between the raw matches and 0. */
  predicate ArvSettled(lv: seq<Entry>, c: Option<seq<int>>, a: Arv) {
    if c.Some? && |c.value| == 1 then
      var m := Arvs(Lookup(lv, c.value[0]));
      if |m| == 1 then a == Scalar(m[0]) else a == Values(m) || a == Scalar(0)
    else if c.Some? && |c.value| > 1 then
      var fs := FirstArvs(lv, c.value);
      a == if |fs| > 0 then Firsts(fs) else Scalar(0)
    else a == Scalar(0)
  }

  /** Every cell of the ARV column is the one its own row's numbers give. */
  lemma {:induction false} ArvCells(lv: seq<Entry>, cs: seq<Option<seq<int>>>, found: Option<nat>)
    requires ArvColumn(lv, cs, found).Some?
    ensures forall i :: 0 <= i < |cs| ==> ArvSettled(lv, cs[i], ArvColumn(lv, cs, found).value[i])
    decreases |cs|
  {
    if |cs| > 0 {
      var s := ArvFor(lv, cs[0], found).value;
      ArvCells(lv, cs[1..], s.found);
      var col := ArvColumn(lv, cs, found).value;
      forall i | 1 <= i < |cs| ensures ArvSettled(lv, cs[i], col[i]) {
        assert cs[i] == cs[1..][i - 1];
      }
    }
  }

  /** A sale of one property the register knows once carries that
      property's ARV, and so does its combined ARV. */
  lemma SingleArv(rows: seq<Sale>, lv: seq<Entry>, i: nat, e: Entry)
    requires AddArv(rows, lv).Some? && i < |rows|
    requires CodeNumbers(rows[i].assessment) == Some([e.assn]) && Lookup(lv, e.assn) == [e]
    ensures AddArv(rows, lv).value[i].combinedArv == e.arv
  {
    ArvCells(lv, NumberColumn(rows), None);
  }

  /** A sale without a usable assessment number has combined ARV 0. */
  lemma UnnumberedArv(rows: seq<Sale>, lv: seq<Entry>, i: nat)
    requires AddArv(rows, lv).Some? && i < |rows| && !HasAssessment(rows[i].assessment)
    ensures AddArv(rows, lv).value[i].combinedArv == 0
  {
    ArvCells(lv, NumberColumn(rows), None);
  }

  /** A sale of several properties each with a non-negative ARV in the
      register has a combined ARV at least that of each property found. */
  lemma CombinedCoversEach(lv: seq<Entry>, c: Option<seq<int>>, a: Arv)
    requires MultiCode(c) && ArvSettled(lv, c, a)
    requires forall e :: e in lv ==> e.arv >= 0
    ensures forall x :: x in FirstArvs(lv, c.value) ==> 0 <= x <= CombinedArv(a)
  {
    var fs := FirstArvs(lv, c.value);
    assert forall k :: 0 <= k < |fs| ==> fs[k] in fs;
    SumBounds(fs);
  }

  // ---------------------------------------------------------------------
  // Property type
  // ---------------------------------------------------------------------

  /** The register type of the first register row of every number that
      has one, in code order. */
  function FirstTypes(lv: seq<Entry>, ns: seq<int>): (r: seq<string>)
    ensures |r| <= |ns|
    ensures forall t :: t in r ==> exists e :: e in lv && e.propertyType == t
  {
    if |ns| == 0 then []
    else
      var m := Lookup(lv, ns[0]);
      (if |m| > 0 then [m[0].propertyType] else []) + FirstTypes(lv, ns[1..])
  }

  /** No type is found exactly when the register knows none of the numbers. */
  lemma {:induction false} FirstTypesEmpty(lv: seq<Entry>, ns: seq<int>)
    ensures FirstTypes(lv, ns) == [] <==> forall k :: 0 <= k < |ns| ==> Lookup(lv, ns[k]) == []
  {
    if |ns| > 0 {
      FirstTypesEmpty(lv, ns[1..]);
      assert forall k :: 1 <= k < |ns| ==> ns[1..][k - 1] == ns[k];
    }
  }

  /** The distinct values of `xs`, in order of first occurrence. */
  function DistinctTypes(xs: seq<string>): (d: seq<string>)
    ensures forall x :: x in d <==> x in xs
    ensures forall a, b :: 0 <= a < b < |d| ==> d[a] != d[b]
    decreases |xs|
  {
    if |xs| == 0 then []
    else
      var d := DistinctTypes(xs[..|xs| - 1]);
      assert forall x :: x in xs <==> x in xs[..|xs| - 1] || x == xs[|xs| - 1];
      if xs[|xs| - 1] in d then d else d + [xs[|xs| - 1]]
  }

  /** A non-empty list whose values are all `t` has the single distinct value `t`. */
  lemma {:induction false} DistinctOfOne(xs: seq<string>, t: string)
    requires |xs| > 0 && forall x :: x in xs ==> x == t
    ensures DistinctTypes(xs) == [t]
  {
    if |xs| > 1 {
      var init := xs[..|xs| - 1];
      assert forall x :: x in init ==> x in xs;
      DistinctOfOne(init, t);
      assert xs[|xs| - 1] in xs;
    } else {
      assert xs[..0] == [] && xs[0] in xs;
    }
  }

  /** The type `clean_property_type` gives a row with numbers `c` and
      type `prior`. The order of `list(set(...))` is Python's hash order;
      `choose` stands for the position it puts first. */
  function CorrectedType(lv: seq<Entry>, choose: seq<string> -> nat, c: Option<seq<int>>, prior: Value): (t: Value)
    ensures c.None? || |c.value| == 0 ==> t == prior
    ensures c.Some? && |c.value| == 1 && Lookup(lv, c.value[0]) == [] ==> t == prior
    ensures t == Bool(false) && prior != Bool(false) ==>
      c.Some? && |c.value| > 1 && FirstTypes(lv, c.value) == []
  {
    if c.Some? && |c.value| == 1 then
      var m := Lookup(lv, c.value[0]);
      if |m| > 0 then Str(m[0].propertyType) else prior
    else if c.Some? && |c.value| > 1 then
      var d := DistinctTypes(FirstTypes(lv, c.value));
      assert |d| == 0 ==> FirstTypes(lv, c.value) == [] by {
        if FirstTypes(lv, c.value) != [] {
          assert FirstTypes(lv, c.value)[0] in FirstTypes(lv, c.value);
        }
      }
      if |d| == 1 then Str(d[0])
      else if EqInt(prior, 0) && |d| > 0 then Str(d[choose(d) % |d|])
      else if |d| == 0 then Bool(false)
      else prior
    else prior
  }

  /** `clean_property_type(df, lv)`: only the type column changes. */
  function CleanPropertyType(rows: seq<Sale>, lv: seq<Entry>, choose: seq<string> -> nat): (out: seq<Sale>)
    ensures |out| == |rows|
    ensures forall i :: 0 <= i < |rows| ==> out[i].(propertyType := rows[i].propertyType) == rows[i]
    ensures forall i :: 0 <= i < |rows| ==>
      out[i].propertyType == CorrectedType(lv, choose, CodeNumbers(rows[i].assessment), rows[i].propertyType)
  {
    seq(|rows|, i requires 0 <= i < |rows| =>
      rows[i].(propertyType := CorrectedType(lv, choose, CodeNumbers(rows[i].assessment), rows[i].propertyType)))
  }

  /** A row without a usable number keeps its type. */
  lemma UnnumberedTypeKept(lv: seq<Entry>, choose: seq<string> -> nat, prior: Value)
    ensures CorrectedType(lv, choose, None, prior) == prior
  {
  }

  /** A single number the register knows: its first register type is adopted. */
  lemma SingleCodeAdopted(lv: seq<Entry>, choose: seq<string> -> nat, n: int, e: Entry, prior: Value)
    requires e in lv && e.assn == n
    requires forall e' :: e' in lv && e'.assn == n ==> e'.propertyType == e.propertyType
    ensures CorrectedType(lv, choose, Some([n]), prior) == Str(e.propertyType)
  {
    var m := Lookup(lv, n);
    assert e in m;
    assert m[0] in m;
  }

  /** Several numbers whose register rows all give one type `t`: `t` is adopted. */
  lemma OneTypeAdopted(lv: seq<Entry>, choose: seq<string> -> nat, ns: seq<int>, t: string, prior: Value)
    requires |ns| > 1 && FirstTypes(lv, ns) != []
    requires forall x :: x in FirstTypes(lv, ns) ==> x == t
    ensures CorrectedType(lv, choose, Some(ns), prior) == Str(t)
  {
    DistinctOfOne(FirstTypes(lv, ns), t);
  }

  /** Several numbers none of which the register knows: the type becomes `False`. */
  lemma NoTypeFound(lv: seq<Entry>, choose: seq<string> -> nat, ns: seq<int>, prior: Value)
    requires |ns| > 1
    requires forall k, e :: 0 <= k < |ns| && e in lv ==> e.assn != ns[k]
    ensures CorrectedType(lv, choose, Some(ns), prior) == Bool(false)
  {
    forall k | 0 <= k < |ns| ensures Lookup(lv, ns[k]) == [] {
      LookupMissing(lv, ns[k]);
    }
    FirstTypesEmpty(lv, ns);
  }

  /** The corrected type is the old one, `False`, or a type the register
      holds. */
  lemma CorrectedTypeOrigin(lv: seq<Entry>, choose: seq<string> -> nat, c: Option<seq<int>>, prior: Value)
    ensures var t := CorrectedType(lv, choose, c, prior);
      t == prior || t == Bool(false) || exists e :: e in lv && t == Str(e.propertyType)
  {
    if c.Some? && |c.value| == 1 {
      var m := Lookup(lv, c.value[0]);
      if |m| > 0 {
        assert m[0] in m;
      }
    } else if c.Some? && |c.value| > 1 {
      var d := DistinctTypes(FirstTypes(lv, c.value));
      if |d| > 0 {
        var k := if |d| == 1 then 0 else choose(d) % |d|;
        assert d[k] in d;
      }
    }
  }

  /** Correcting a type a second time changes nothing. */
  lemma CorrectedTypeIdempotent(lv: seq<Entry>, choose: seq<string> -> nat, c: Option<seq<int>>, prior: Value)
    ensures CorrectedType(lv, choose, c, CorrectedType(lv, choose, c, prior)) == CorrectedType(lv, choose, c, prior)
  {
  }

  /** `clean_property_type` is idempotent on the whole table. */
  lemma CleanPropertyTypeIdempotent(rows: seq<Sale>, lv: seq<Entry>, choose: seq<string> -> nat)
    ensures CleanPropertyType(CleanPropertyType(rows, lv, choose), lv, choose) == CleanPropertyType(rows, lv, choose)
  {
    var once := CleanPropertyType(rows, lv, choose);
    var twice := CleanPropertyType(once, lv, choose);
    forall i | 0 <= i < |rows| ensures twice[i] == once[i] {
      var c := CodeNumbers(rows[i].assessment);
      CorrectedTypeIdempotent(lv, choose, c, rows[i].propertyType);
      assert once[i].assessment == rows[i].assessment;
    }
  }
}
